=== FILE: README.md ===
# tg-upload-gui core, modelled in Dafny

tg-upload-gui is a desktop front end for uploading files to Telegram and
downloading media from Telegram, built on a Telegram client library. The
window never talks to Telegram itself. It puts commands on a queue, and one
background worker takes them off in order: connect, disconnect, upload,
download, batch upload and stop. The worker answers each command with a
result dictionary. This project models that worker and the pure logic
around it:

- the command step and the loop that folds it over the queue (`Worker`);
- the single-file upload, with its choice of send call (`Media`);
- the folder upload, which swallows per-file errors;
- the batch upload, which stops at the first failed file;
- the download command, with link parsing (`ShareLink`) and message-id mode;
- the connect command, with the client arguments built from a stored
  profile (`Profiles`);
- the profile dialog's validation (`Profiles`);
- the batch queue and the bounded log buffer (`Lists`);
- the split, combine and hash utilities (`Codec`);
- the order in which chosen part files are combined (`PartOrder`, `Sorting`).

The Telegram client and the server behind it are an environment (`Worker.Env`).
It answers the k-th call of a session either by returning or by raising an
error, and it also supplies the account `get_me` reports and the media of
each message. Every call the worker makes is recorded in the state. This
lets the contracts say which calls were made, in what order, and what
happened after each reply. The file system is a map from paths to files and
folders (`Files`). A folder carries its own enumeration order, because the
operating system decides that order. The utilities work on byte sequences.
A digest accumulator is represented by the bytes it was fed.

Some behaviour follows from the code as written rather than from what the
interface suggests, and the model follows the code:

- a batch upload ends at the first single file whose upload raises, and
  the command then fails. Files inside a queued folder never end it;
- a multi-link download ends at the first link that fails;
- a client whose `start` raises stays assigned;
- a `stop` or `disconnect` whose `stop()` raises keeps the client;
- the worker does not re-check a profile's credentials.

All paths below are in `tg-upload-gui.py`.

## Model

| member | source | states |
|---|---|---|
| Worker.Step | tg-upload-gui.py:121-250 | One command's effect. An unknown command, and only an unknown command, yields no result and changes nothing. A transfer without a client fails with "Not connected" and changes nothing. Only a connect reports a signed-in account. A connect is exactly the connect step, and a disconnect or stop is exactly the stop step. The log never grows past 100 entries. |
| Worker.ConnectCommandResult | tg-upload-gui.py:127-171 | The connect command keeps the client built from the stored profile whether or not starting it worked. It answers with the account exactly when `get_me` returned, and otherwise with the error the failing call raised. Files and log are untouched. |
| Worker.StopCommandResult | tg-upload-gui.py:173-180 | The disconnect and stop commands change nothing without a client. Otherwise they make one stop call and drop the client exactly when it returned. A failure keeps the client and answers with the error the stop call raised. |
| Worker.TransferStep | tg-upload-gui.py:182-241 | Upload, download and batch upload keep the current client and answer with a success or a failure. Without a client they fail with "Not connected" before doing anything. |
| Worker.UploadCommandResult | tg-upload-gui.py:182-194 | With a client, uploading a file is exactly the single-file upload. The command fails with that upload's error exactly when the upload raised. |
| Worker.FolderCommandResult | tg-upload-gui.py:186-194 | With a client, uploading a folder is exactly the folder upload, and the command succeeds whatever became of the folder's files. |
| Worker.DownloadCommandResult | tg-upload-gui.py:196-218 | With a client, the download command ends in the download's state. It succeeds exactly when the download went through, and otherwise fails with the error the download raised. Any mode other than links or message IDs succeeds and changes nothing. |
| Worker.LinkCommandResult | tg-upload-gui.py:204-208 | With a client, a link-mode download command succeeds exactly when every link parses and every call returns. Otherwise it fails with the error of a link that does not parse or of the call that raised. |
| Worker.IdCommandResult | tg-upload-gui.py:209-215 | With a client, a message-ID download command succeeds exactly when every ID reads as an integer and every call returns. Otherwise it fails with the `int()` error of an ID or the error of the call that raised. |
| Worker.BatchCommandResult | tg-upload-gui.py:220-250 | With a client, a batch fails exactly when one of its files failed, and then with the error that file's last call raised. A batch that succeeds has handled every queued item. |
| Worker.ConnectStep | tg-upload-gui.py:127-171 | Connecting leaves the new client assigned, whatever happens. It stops the old client first exactly when there was one, and creates the client from the stored profile, the profile name and the application directory. It reports an account exactly when the final `get_me` call returned, namely the account `get_me` gave. A failure carries the error the failing call raised. |
| Worker.ConnectWith | tg-upload-gui.py:133-171 | The calls of a connect: stop the old client if there is one (any error is ignored), start the new client, then ask who is signed in. The account is the one `get_me` reported. A failure carries the error of the call that raised. Files and log are untouched. |
| Worker.StopStep | tg-upload-gui.py:173-180 | Disconnect and stop: without a client they succeed and change nothing. Otherwise exactly one stop call is made. Success means the client is gone. A failure keeps the client and carries the error the stop call raised. |
| Worker.UploadFile | tg-upload-gui.py:282-359 | A single-file upload makes one or two calls, all on behalf of the file and never touching the client. It ends normally exactly when its final send call returned, after exactly the planned calls. A failure carries the raised error. The original is removed exactly when the upload went through and deletion was asked for. The last log entry is "Uploaded: <name>" or "Upload failed: <error>". |
| Worker.UploadJobOutcome | tg-upload-gui.py:309-359 | Running a prepared upload ends normally exactly when the send call returned. It then made exactly the planned calls and logged the success. Otherwise the raised error is logged. |
| Worker.SendStage | tg-upload-gui.py:317-350 | The client calls of one upload: the thumbnail frame extraction when planned, then the send call unless the extraction raised. Each call concerns the uploaded file. |
| Worker.UploadEach | tg-upload-gui.py:375-381 | The folder loop attempts every job in order, one attempt per job, whatever happened before. Each attempt is for its job's file and makes at least one call, all for that file. The recorded calls are the attempts' calls in order. No file appears on disk and the client is unchanged. |
| Worker.UploadEachAnswers | tg-upload-gui.py:375-381 | Each attempt of the folder loop is its file's upload as answered. It ended normally exactly when its last call was that file's send call and returned. Otherwise it carries the error its last call raised. |
| Worker.UploadEachOne | tg-upload-gui.py:375-381 | The folder loop over one job tries that job once, with its upload, failure report and deletion. |
| Worker.UploadEachAppend | tg-upload-gui.py:375-381 | The loop over jobs cut in two is the loop over the first part, then the loop over the second from the state it left. With the one-job case, this makes the loop the fold of the single-file try over the jobs. |
| Worker.UploadFolderVisits | tg-upload-gui.py:361-381 | A folder upload attempts exactly the files of the folder, in enumeration order: direct entries, or everything below with the recursive option. Each path attempted is a file of the folder. |
| Worker.TryJob | tg-upload-gui.py:376-381 | One file of a folder: its upload's calls are recorded as an attempt that fits the job. The attempt ends as the upload ended: normally exactly when the file's send call returned, otherwise with the raised error. The state after it is the upload's state with a failure reported. The failure is swallowed. The client is unchanged. |
| Worker.Report | tg-upload-gui.py:380-381 | A failed file of a folder adds the entry "Error uploading <path>: <error>" at level ERROR to the bounded log. Nothing else changes. A file that went through changes nothing. |
| Worker.UploadPath | tg-upload-gui.py:186-194 | The upload command's dispatch. A file is uploaded as a single file. A folder is uploaded by the folder upload, and that never raises. A path that is neither a file nor a folder does nothing. |
| Worker.BatchFrom | tg-upload-gui.py:225-241 | The batch loop runs the queued items in order. It stops right after the first failed file and otherwise handles every item. Each item's outcome is about that item's path. The calls made are the items' calls in order. The client is kept and the log stays within 100 entries. |
| Worker.BatchFromAnswers | tg-upload-gui.py:234-236 | Each batch item is tagged by what was answered. A failed file's last call raised the recorded error. A sent file's send call returned. |
| Worker.BatchItem | tg-upload-gui.py:234-238 | One queued item: it is a file upload exactly when the path is a file, a folder upload exactly when the path is a folder, and skipped otherwise. A file's tag is what its calls were answered. |
| Worker.BatchFileIsUpload | tg-upload-gui.py:234-236 | A queued file is uploaded exactly as the upload command uploads a file. It fails exactly when that upload raised, with that upload's error. |
| Worker.FolderItem | tg-upload-gui.py:237-238 | A queued folder ends in the folder upload's state and records that upload's attempts. |
| Worker.BatchFolderIsUpload | tg-upload-gui.py:237-238 | A queued folder is uploaded exactly as the upload command uploads a folder. |
| Worker.FileItem | tg-upload-gui.py:234-236 | A queued file runs the single-file job. It fails exactly when that job raised, with the job's error, and otherwise its send call returned. Its calls all concern the file. |
| Worker.DownloadEach | tg-upload-gui.py:204-215 | The download loop succeeds exactly when every item resolved and every call it made returned. It then made exactly a fetch and a download call per item, in order. A failure carries an unreadable item's error or the error of a call that raised. An unreadable first item fails at once without any call. Client and files are untouched. |
| Worker.DownloadStopsAtFirstError | tg-upload-gui.py:204-215 | Downloading a list split in two is downloading the first part and then, only if that went through, the second part from where it left off. Nothing after the first error is looked at. |
| Worker.FetchOne | tg-upload-gui.py:397-417 | Fetching one message succeeds exactly when both its calls return, and it then made exactly the `get_messages` call and the `download_media` call. A failure carries the raised error. |
| Worker.Download | tg-upload-gui.py:196-218 | The download command's dispatch: the link mode and the message-ID mode run their downloads, and any other mode does nothing and succeeds. |
| Worker.LinkDownload | tg-upload-gui.py:204-208 | A link-mode download succeeds exactly when every link parses and every call returns, and it then fetched each link in order. A failure carries the error of a link that does not parse or of a call that raised. |
| Worker.IdDownload | tg-upload-gui.py:209-215 | A message-ID download succeeds exactly when every ID reads as an integer and every call returns, and it then fetched each message of the typed chat in order. A failure carries the `int()` error of an ID or the error of a call that raised. |
| Worker.ResolveId | tg-upload-gui.py:213-214 | A typed message id resolves exactly when `int` accepts it, to that number in the typed chat. Otherwise it gives `int`'s error on that text. |
| Worker.RunResultAt | tg-upload-gui.py:254-271 | The worker loop's i-th result is the one the i-th command gets in the state left by the commands before it. |
| Worker.RunAppend | tg-upload-gui.py:254-271 | Two command queues run one after the other behave as one joined queue. The worker carries nothing between commands but its state. |
| Worker.RunKeepsLogBound | tg-upload-gui.py:441-463 | However many commands run, the log buffer never holds more than 100 entries. |
| Worker.StartNew | tg-upload-gui.py:164-171 | The new client is assigned before `start` is called and stays even when a call raises. `get_me` is called exactly when `start` returned. The result is the signed-in account exactly when `get_me` returned. |
| Media.PlanUpload | tg-upload-gui.py:303-350 | The send call goes to the requested chat with the file, the caption and the silent flag. Its kind is exactly the kind the file type and the suffix select. A video gets the thumbnail choice and a document gets the prefixed file name. A frame is extracted exactly for a video with an automatic thumbnail when the video library is present. |
| Media.AutoDetectByName | tg-upload-gui.py:310-343 | With "Auto-detect", a file is a photo, video or audio exactly when its name ends with one of that kind's extensions in any letter case, after a non-empty stem. It is a document exactly when the name ends with none of them. |
| Media.AutoDetectByTable | tg-upload-gui.py:310-343 | The three extension tables are disjoint, so each detected kind corresponds exactly to membership in its own table. |
| Media.KindOfExt | tg-upload-gui.py:310-343 | An explicit photo, video or audio type wins. Any other type, such as "Document", falls through to a document. |
| Media.KindBySuffix | tg-upload-gui.py:310-336 | The kind depends on the path only through its lower-cased suffix. |
| Media.Caption | tg-upload-gui.py:294-298 | A caption is never sent empty. Without the flag it is the typed text. With the flag it is the file name minus its suffix, and it is absent only when the name is all suffix. |
| Media.FlagIgnoresCaption | tg-upload-gui.py:294-296 | With the "use file name" flag set, the typed caption has no effect. |
| Media.FileName | tg-upload-gui.py:285-288 | The reported name ends with the path's name. It is exactly that name when there is no non-empty prefix, and otherwise the prefix followed by the name. |
| Media.PrefixOnlyNamesDocuments | tg-upload-gui.py:285-350 | The prefix reaches Telegram only as a document's file name. For photos, videos and audio the planned upload is the same whatever the prefix. |
| Media.VideoThumb | tg-upload-gui.py:318-327 | "auto" means the generated `thumb/THUMB_<stem>.jpg`, or no thumbnail without the video library. Any other non-empty entry is passed through. No thumbnail is ever "" or "auto". |
| Media.DownloadName | tg-upload-gui.py:401-409 | The reported download name is never empty. It is the media's own file name or one of the fixed defaults. |
| Media.DownloadNamePriority | tg-upload-gui.py:401-409 | Document outranks video, video outranks audio, and audio outranks photo. Lower-ranked media never change the name once a higher-ranked one is present. |
| Media.DownloadNameOwnName | tg-upload-gui.py:401-409 | A non-empty own file name of the top-ranked media is used. A message with no media gets "file". |
| ShareLink.ParseParts | tg-upload-gui.py:385-395 | A link is rejected as invalid exactly when no segment is "t.me". The chat's error comes next, then `int`'s error on the last segment. A link parses exactly when all three checks pass, to the chat and the last segment's integer. |
| ShareLink.ParseChat | tg-upload-gui.py:388-391 | With a "c" segment the chat is `int` of "-100" followed by the fifth segment. Otherwise it is the fourth segment's text. Too few segments is an index error. |
| ShareLink.PrivateChannelId | tg-upload-gui.py:391 | For a run of digits d, "-100" followed by d always parses, to minus the number 100·10^len(d) + d. |
| ShareLink.PrivateLinkRoundTrip | tg-upload-gui.py:385-395 | A `https://t.me/c/<channel>/<id>` link parses back to that message id and to the channel id read from "-100<channel>". |
| ShareLink.PublicLinkRoundTrip | tg-upload-gui.py:385-395 | A `https://t.me/<user>/<id>` link parses back to that username and message id, for any username without '/' or ' ' that is not "c" or "t.me". |
| ShareLink.SegmentsOfJoin | tg-upload-gui.py:385 | Removing spaces and cutting at '/' gives back the segments a link was joined from, when they hold neither character. |
| Profiles.Validate | tg-upload-gui.py:2635-2672 | The dialog accepts exactly entries with both API fields and exactly one sign-in method. Missing API fields are reported before sign-in problems. Blanks are stored as none, and the device model defaults to "tg-upload-gui". |
| Profiles.SaveRejectionMessage | tg-upload-gui.py:2638-2662 | A refused save shows the "API ID and API Hash are required!" box exactly when an API field is blank. It shows the four-line "at least one authentication method" box exactly when the API fields are present and no sign-in method is given. It shows "only ONE authentication method" exactly when the API fields are present and several are given. |
| Profiles.SavedProfileWellFormed | tg-upload-gui.py:2633-2672 | Every saved profile has non-empty, stripped API fields, exactly one sign-in method (itself non-empty and stripped), and a non-empty device model. |
| Profiles.ConnectArgs | tg-upload-gui.py:143-162 | The client gets the profile's API fields, the application version, the profile's device and system versions or their defaults, and the proxy when one is set, which is the profile's proxy text. It gets exactly one sign-in method, bot token before session string before phone. |
| Profiles.SavedProfileConnects | tg-upload-gui.py:143-162 | A profile saved by the dialog connects with exactly the sign-in method it was saved with, and with its device model. |
| Profiles.WellFormedConnects | tg-upload-gui.py:143-162 | A well-formed profile, stored and read back, connects with its one sign-in method, its device model, the default system version and no proxy. |
| Lists.AddToQueue | tg-upload-gui.py:1534-1541 | Adding files keeps the queue as a prefix. It appends every given path not already queued, once, in the order given, and nothing else. A queue without duplicates stays without duplicates. |
| Lists.AddedCovers | tg-upload-gui.py:1536-1540 | Every path given ends up in the queue. |
| Lists.AddedNoDuplicates | tg-upload-gui.py:1538-1540 | The membership check keeps a duplicate-free queue duplicate-free. |
| Lists.AddFolderToQueue | tg-upload-gui.py:1543-1562 | Adding a folder appends its not-yet-queued files in enumeration order, direct entries or everything below. Everything appended is a file. |
| Lists.AppendLog | tg-upload-gui.py:459-463 | After logging, the buffer holds at most 100 entries and ends with the new one. Below the bound nothing is dropped. |
| Lists.AppendAllKeepsNewest | tg-upload-gui.py:459-463 | However many entries are logged, a buffer that started within the bound holds exactly the newest 100 of everything logged. |
| Files.FilesAmongComplete | tg-upload-gui.py:366-373 | The folder enumeration keeps every file among the entries. |
| Files.FilesAmong | tg-upload-gui.py:366-373 | The enumeration keeps only files, only from the entries, in their order. |
| Files.FilesAmongOne | tg-upload-gui.py:366-373 | A single entry is kept exactly when it is a file. |
| Files.FilesAmongAppend | tg-upload-gui.py:366-373 | The files kept from a listing cut in two are those of the first part followed by those of the second, so the listing order is kept. |
| Codec.SplitFile | tg-upload-gui.py:2372-2394 | The size text must parse with `int` ("Invalid chunk size") and be positive ("must be greater than 0"). Then the parts are the file's consecutive chunks, named `<stem>.part<i>`. |
| Codec.SplitRoundTrip | tg-upload-gui.py:2388-2394 | Concatenating the chunks of a split gives back the file. |
| Codec.SplitPartsSpec | tg-upload-gui.py:2388-2394 | Part i is named `<stem>.part<i>`, and the parts' contents concatenate back to the file. |
| Codec.ChunkSizes | tg-upload-gui.py:2388-2394 | Every part but the last holds exactly the chunk size. The last is non-empty, and holds the remainder when there is one or a full chunk otherwise. |
| Codec.NumChunksIsCeiling | tg-upload-gui.py:2388 | The part count is the least count whose chunks cover the file. It is zero exactly for an empty file. |
| Codec.CombineFiles | tg-upload-gui.py:2408-2434 | Nothing selected is refused. A missing part is an error naming the first chosen path, in selection order, that does not exist. Otherwise the output holds the parts' contents concatenated in the chosen order, with the byte count equal to the total size. It is named by the typed text or the first part's stem. |
| Codec.CopyPart | tg-upload-gui.py:2427-2434 | Streaming a part a buffer at a time appends exactly its contents, and the byte counter follows the output. |
| Codec.HashFeed | tg-upload-gui.py:2327-2351 | Each selected accumulator is fed exactly the file's bytes, and an unselected one is fed nothing. The progress counts rise strictly to the file size. |
| Codec.FirstMissing | tg-upload-gui.py:2422 | A missing part is reported exactly when some chosen path does not exist, and the one reported is the first such path in selection order. |
| Codec.CopyAll | tg-upload-gui.py:2425-2434 | The copy loop writes every part, in list order, onto the output. The byte counter ends at the parts' total size. |
| PartOrder.SelectionInIndexOrderUpToTen | tg-upload-gui.py:1529 | For at most ten parts, sorting the chosen part paths puts them back in index order, whatever order they were chosen in. |
| PartOrder.SelectionMisordersFromEleven | tg-upload-gui.py:1529 | From eleven parts on, the sorted selection is not in index order. |
| PartOrder.CombineSelectionRoundTrip | tg-upload-gui.py:1529 | For at most ten parts, combining the sorted selection of a split's parts gives back the original file. |
| PartOrder.CombineSelectionBreaksAtEleven | tg-upload-gui.py:1529 | An eleven-byte file split into one-byte parts does not survive sorting and combining. |
| PartOrder.CombineByIndexRoundTrip | tg-upload-gui.py:2388-2434 | Ordering the selection by part index puts every split back in order, for any number of parts, so combining gives back the file. |
| PartOrder.StrLeqTotalOrder | tg-upload-gui.py:1529 | The string order `sorted` uses, by code point, is a total order. |
| PartOrder.NaturalLeqTotalOrder | tg-upload-gui.py:2392 | Ordering by (stem text, numeric index) is a total order. |
| Sorting.SortSpec | tg-upload-gui.py:1529 | The sort returns a sorted permutation of its input. |
| Sorting.SortedUnique | tg-upload-gui.py:1529 | Two sorted lists with the same elements are equal. |
| Sorting.SortIgnoresInputOrder | tg-upload-gui.py:1529 | The sorted selection depends only on which paths were chosen, not on the order they were chosen in. |
| Text.StripSpec | tg-upload-gui.py:2635-2644 | Stripping keeps an infix whose cut-off ends are all whitespace and which starts and ends with non-whitespace. It is empty exactly for all-whitespace text. |
| Text.SplitJoin | tg-upload-gui.py:385 | Cutting at a separator undoes joining pieces that do not contain it. |
| Text.SplitOn | tg-upload-gui.py:385 | `split` gives at least one piece, no piece holds the separator, and joining the pieces gives back the text. |
| Text.RemoveChar | tg-upload-gui.py:385 | Removing spaces leaves no space and keeps every other character, counted with multiplicity. |
| Text.ParseIntToString | tg-upload-gui.py:391-395 | `int` reads back every integer's decimal rendering. |
| Text.ParseIntNeedsDigit | tg-upload-gui.py:2373 | Text with no digit never parses as an integer. |
| Text.StemSuffixName | tg-upload-gui.py:285-295 | A path's name is its stem followed by its suffix. |
| Text.SuffixByEnding | tg-upload-gui.py:310 | The lower-cased suffix equals an extension exactly when the lower-cased name ends with it after a non-empty stem. |
| Text.Name | tg-upload-gui.py:285 | The name is the part of the path after its last '/'. |

## Left out

- The window, its widgets and dialogs are not modelled. Neither are the threads and queues carrying commands and results, the timestamps, or the file logger. A log entry is its level and message.
- The Telegram client and server are the environment `Worker.Env`. Progress callbacks, timing, `print` output and the fields of the `get_me` user object are not modelled. The account is the text the environment gives.
- `Client(**kwargs)` itself is assumed not to raise. During connect, only `start`, `get_me` and `stop` answer with errors.
- Thumbnail frame extraction with the video library is one call (`SaveFrame`) that returns or raises. The `thumb` folder and the extracted file do not enter the file system model.
- Digests are not computed. An accumulator is the bytes fed to it, and `hexdigest` and the result text are left out.
- Codec.HashFeed: the progress bar's fraction is given as the byte counts read, not as floating-point division by the file size.
- The split and combine utilities' progress bar and message boxes are not modelled. Where files are written (`split` next to the source, `combine` under the working directory) is not modelled either. The result is the parts or the output.
- Codec.CombineFiles: a part that disappears between the size sum and the copy is not modelled. Parts are read from one unchanging map.
- Text.Lower and Text.Strip cover ASCII letters and ASCII whitespace only. Unicode case folding and Unicode whitespace are not modelled.
- Text.ParseInt accepts optional surrounding whitespace, a sign and ASCII digits. `int` also accepts underscores between digits and non-ASCII digits, which are not modelled.
- ShareLink.ErrorMessage quotes the rejected text with plain single quotes. Python uses `repr`, which differs for text holding quotes or backslashes.
- The worker loop's outer exception handler (lines 273-278) is not modelled. It is reached only by failures of the queue or event loop, which are not modelled.
- Text.Name, Text.Suffix and Text.Stem take paths as already normalised with '/' separators. Trailing slashes, "." and ".." segments and Windows separators are not modelled.
- Path.unlink is assumed to succeed, and `stat` before an upload is assumed to find the file.
- The "From Chat History" download mode sends no command; in the model it does nothing.
- The chat id of the message-id download mode is passed on as the typed text (`ShareLink.ChatName`). The client library's own resolution of it is outside the model.
- Batch progress is logged as text. The fraction the worker computes and discards is not modelled.
- ShareLink.PrivateLinkRoundTrip: the channel id is stated as `int`'s reading of "-100<channel>". Its numeric value is given separately by ShareLink.PrivateChannelId rather than in the same contract.
- Profile loading from disk, configuration files, the asynchronous legacy upload and download paths of the window, and the chat-history browser are not part of this model.

## Findings

| source | as written | input that shows it | evidently intended | confidence | as-written member | corrected member |
|---|---|---|---|---|---|---|
| tg-upload-gui.py:1529 | the chosen part files are put in order with `sorted(paths)`, which compares names character by character | a file split into 11 parts: `x.part10` sorts before `x.part2`, so combining puts part 10 third | combine the parts in the index order the split numbered them (lines 2391-2392) | not executed | PartOrder.CombineSelectionBreaksAtEleven | PartOrder.CombineByIndexRoundTrip |

=== FILE: codec.dfy ===
/** The byte-exact file utilities: splitting a file into numbered parts,
    combining a list of part files into one output, and the single
    streaming pass that feeds a file to the digest accumulators. Files are
    byte sequences; the file system holding the parts is a map from path to
    contents. */
module Codec {
  import opened Wrappers
  import opened Text

  newtype Byte = x: int | 0 <= x < 256
  type Bytes = seq<Byte>

  /** Combine and hash read their inputs in pieces of this many bytes. */
  const ReadBufferSize: nat := 1024 * 1024

  function Min(a: int, b: int): int {
    if a <= b then a else b
  }

  /** Concatenation of a list of byte strings, in list order. */
  function Concat(chunks: seq<Bytes>): Bytes {
    if |chunks| == 0 then [] else Concat(chunks[..|chunks| - 1]) + chunks[|chunks| - 1]
  }

  /** Total length of a list of byte strings. */
  function TotalSize(chunks: seq<Bytes>): nat {
    if |chunks| == 0 then 0 else TotalSize(chunks[..|chunks| - 1]) + |chunks[|chunks| - 1]|
  }

  lemma {:induction false} ConcatLength(chunks: seq<Bytes>)
    ensures |Concat(chunks)| == TotalSize(chunks)
  {
    if |chunks| > 0 {
      ConcatLength(chunks[..|chunks| - 1]);
    }
  }

  /** `f.read(n)` at file position `pos`: at most `n` bytes, fewer at the end. */
  function ReadAt(f: Bytes, pos: nat, n: nat): (r: Bytes)
    requires pos <= |f|
    ensures |r| == Min(n, |f| - pos)
    ensures r == f[pos..pos + |r|]
  {
    f[pos..Min(pos + n, |f|)]
  }

  // ---------------------------------------------------------------------
  // Split
  // ---------------------------------------------------------------------

  datatype SplitError =
    | InvalidChunkSize       // the size field is not an integer
    | ChunkSizeNotPositive   // the size field is an integer <= 0

  /** One written part: its file name inside the `split` directory and its bytes. */
  datatype PartFile = PartFile(name: string, data: Bytes)

  /** Number of parts for a file of `size` bytes: `size // chunk` plus one
      more when there is a remainder. */
  function NumChunks(size: nat, chunk: nat): (n: nat)
    requires chunk > 0
  {
    size / chunk + (if size % chunk != 0 then 1 else 0)
  }

  /** The part count is the ceiling of `size / chunk`: enough parts to hold
      every byte, and not one more than needed. */
  lemma NumChunksIsCeiling(size: nat, chunk: nat)
    requires chunk > 0
    ensures NumChunks(size, chunk) * chunk >= size
    ensures NumChunks(size, chunk) == 0 || (NumChunks(size, chunk) - 1) * chunk < size
    ensures NumChunks(size, chunk) == 0 <==> size == 0
  {
    var q, r := size / chunk, size % chunk;
    assert size == q * chunk + r;
    if r != 0 {
      assert (q + 1) * chunk == q * chunk + chunk;
    } else if q > 0 {
      assert (q - 1) * chunk == q * chunk - chunk;
    }
  }

  /** Part `i` holds bytes `[i*chunk, min((i+1)*chunk, size))`. */
  function Chunk(f: Bytes, chunk: nat, i: nat): Bytes {
    f[Min(i * chunk, |f|)..Min((i + 1) * chunk, |f|)]
  }

  /** The data of every part of a split, in index order. */
  function Chunks(f: Bytes, chunk: nat): (cs: seq<Bytes>)
    requires chunk > 0
    ensures |cs| == NumChunks(|f|, chunk)
  {
    seq(NumChunks(|f|, chunk), i requires 0 <= i => Chunk(f, chunk, i))
  }

  /** `<stem>.part<i>`. */
  function PartName(stem: string, i: nat): string {
    stem + ".part" + NatToString(i)
  }

  /** The parts a split with a positive chunk size writes, in index order. */
  function SplitParts(stem: string, f: Bytes, chunk: nat): (ps: seq<PartFile>)
    requires chunk > 0
    ensures |ps| == NumChunks(|f|, chunk)
  {
    seq(NumChunks(|f|, chunk), i requires 0 <= i => PartFile(PartName(stem, i), Chunk(f, chunk, i)))
  }

  /** The split utility. The size field is parsed with `int` and must be
      positive before anything is read or written; the file is then read
      from the start, `chunk` bytes per part, into parts named after the
      source file's stem. */
  method SplitFile(path: string, file: Bytes, sizeText: string) returns (r: Result<seq<PartFile>, SplitError>)
    ensures ParseInt(sizeText).None? ==> r == Err(InvalidChunkSize)
    ensures ParseInt(sizeText).Some? && ParseInt(sizeText).value <= 0 ==> r == Err(ChunkSizeNotPositive)
    ensures ParseInt(sizeText).Some? && ParseInt(sizeText).value > 0 ==>
              r == Ok(SplitParts(Stem(path), file, ParseInt(sizeText).value))
  {
    var parsed := ParseInt(sizeText);
    if parsed.None? {
      return Err(InvalidChunkSize);
    }
    var chunk := parsed.value;
    if chunk <= 0 {
      return Err(ChunkSizeNotPositive);
    }
    var stem := Stem(path);
    var n := NumChunks(|file|, chunk);
    ghost var expected := SplitParts(stem, file, chunk);
    var parts: seq<PartFile> := [];
    var pos: nat := 0;
    for i := 0 to n
      invariant parts == expected[..i]
      invariant pos == Min(i * chunk, |file|)
    {
      var data := ReadAt(file, pos, chunk);
      SplitStep(stem, file, chunk, i, pos);
      ReadIsChunk(file, chunk, i, pos);
      parts := parts + [PartFile(PartName(stem, i), data)];
      pos := pos + |data|;
    }
    assert expected[..n] == expected;
    return Ok(parts);
  }

  /** Reading `chunk` bytes where part `i` starts yields part `i`, and the
      position then stands where part `i + 1` starts. */
  lemma ReadIsChunk(f: Bytes, chunk: nat, i: nat, pos: nat)
    requires pos == Min(i * chunk, |f|)
    ensures ReadAt(f, pos, chunk) == Chunk(f, chunk, i)
    ensures pos + |ReadAt(f, pos, chunk)| == Min((i + 1) * chunk, |f|)
  {
    var a := i * chunk;
    assert (i + 1) * chunk == a + chunk;
  }

  /** One iteration of the split loop appends the next expected part. */
  lemma SplitStep(stem: string, f: Bytes, chunk: nat, i: nat, pos: nat)
    requires chunk > 0 && i < NumChunks(|f|, chunk)
    requires pos == Min(i * chunk, |f|)
    ensures SplitParts(stem, f, chunk)[..i + 1]
              == SplitParts(stem, f, chunk)[..i] + [PartFile(PartName(stem, i), ReadAt(f, pos, chunk))]
  {
    ReadIsChunk(f, chunk, i, pos);
    var ps := SplitParts(stem, f, chunk);
    assert ps[..i + 1] == ps[..i] + [ps[i]];
  }

  /** What the split writes: part `i` is named `<stem>.part<i>` and holds
      bytes `[i*chunk, min((i+1)*chunk, size))`, and the parts concatenate
      back to the file. */
  lemma SplitPartsSpec(stem: string, f: Bytes, chunk: nat)
    requires chunk > 0
    ensures forall i :: 0 <= i < NumChunks(|f|, chunk) ==>
              && SplitParts(stem, f, chunk)[i].name == stem + ".part" + NatToString(i)
              && SplitParts(stem, f, chunk)[i].data == f[Min(i * chunk, |f|)..Min((i + 1) * chunk, |f|)]
    ensures Concat(seq(NumChunks(|f|, chunk), i requires 0 <= i < NumChunks(|f|, chunk) => SplitParts(stem, f, chunk)[i].data)) == f
  {
    var datas := seq(NumChunks(|f|, chunk), i requires 0 <= i < NumChunks(|f|, chunk) => SplitParts(stem, f, chunk)[i].data);
    assert datas == Chunks(f, chunk);
    SplitRoundTrip(f, chunk);
  }

  lemma MulSucc(k: nat, chunk: nat)
    ensures (k + 1) * chunk == k * chunk + chunk
  {
  }

  /** Concatenating the first `k` parts gives the first `k*chunk` bytes. */
  lemma {:induction false} ChunksPrefix(f: Bytes, chunk: nat, k: nat)
    requires chunk > 0
    requires k <= NumChunks(|f|, chunk)
    ensures Concat(Chunks(f, chunk)[..k]) == f[..Min(k * chunk, |f|)]
  {
    if k > 0 {
      var j := k - 1;
      var cs := Chunks(f, chunk);
      assert cs[..k][..j] == cs[..j];
      ChunksPrefix(f, chunk, j);
      MulSucc(j, chunk);
      var a, b := Min(j * chunk, |f|), Min((j + 1) * chunk, |f|);
      assert cs[j] == f[a..b];
      assert f[..a] + f[a..b] == f[..b];
    }
  }

  /** Concatenating all parts of a split in index order reproduces the
      original bytes, for every chunk size the split accepts. */
  lemma SplitRoundTrip(f: Bytes, chunk: nat)
    requires chunk > 0
    ensures Concat(Chunks(f, chunk)) == f
  {
    var cs := Chunks(f, chunk);
    NumChunksIsCeiling(|f|, chunk);
    ChunksPrefix(f, chunk, |cs|);
    assert cs[..|cs|] == cs;
  }

  /** Every part but the last is exactly `chunk` bytes; the last holds the
      remainder, between one and `chunk` bytes. */
  lemma ChunkSizes(f: Bytes, chunk: nat, i: nat)
    requires chunk > 0
    requires i < NumChunks(|f|, chunk)
    ensures i < NumChunks(|f|, chunk) - 1 ==> |Chunk(f, chunk, i)| == chunk
    ensures i == NumChunks(|f|, chunk) - 1 ==> 0 < |Chunk(f, chunk, i)| <= chunk
    ensures i == NumChunks(|f|, chunk) - 1 ==>
              |Chunk(f, chunk, i)| == (if |f| % chunk == 0 then chunk else |f| % chunk)
  {
    var q, r := |f| / chunk, |f| % chunk;
    if i < NumChunks(|f|, chunk) - 1 {
      MulMono(i + 1, q, chunk);
      ChunkFull(f, chunk, i);
    } else if r == 0 {
      ChunkFull(f, chunk, i);
    } else {
      ChunkRest(f, chunk, i);
    }
  }

  /** A part that ends inside the file holds `chunk` bytes. */
  lemma ChunkFull(f: Bytes, chunk: nat, i: nat)
    requires (i + 1) * chunk <= |f|
    ensures |Chunk(f, chunk, i)| == chunk
  {
    MulSucc(i, chunk);
  }

  /** The part that starts at the last whole multiple of `chunk` holds the
      remainder. */
  lemma ChunkRest(f: Bytes, chunk: nat, i: nat)
    requires chunk > 0 && i == |f| / chunk
    ensures |Chunk(f, chunk, i)| == |f| % chunk
  {
    MulSucc(i, chunk);
  }

  lemma MulMono(x: nat, y: nat, c: nat)
    requires x <= y
    ensures x * c <= y * c
  {
  }

  // ---------------------------------------------------------------------
  // Combine
  // ---------------------------------------------------------------------

  datatype CombineError =
    | NothingSelected       // no part files were chosen
    | MissingPart(path: string)  // a chosen part cannot be read

  /** The combined output: its file name inside the `combine` directory,
      its bytes, and the byte count the progress bar saw. */
  datatype Combined = Combined(outputName: string, data: Bytes, bytesWritten: nat)

  /** Contents of the chosen parts, in the chosen order. */
  function Contents(fs: map<string, Bytes>, paths: seq<string>): (cs: seq<Bytes>)
    requires forall i :: 0 <= i < |paths| ==> paths[i] in fs
    ensures |cs| == |paths|
  {
    seq(|paths|, i requires 0 <= i < |paths| => fs[paths[i]])
  }

  lemma ContentsPrefix(fs: map<string, Bytes>, paths: seq<string>, k: nat)
    requires forall i :: 0 <= i < |paths| ==> paths[i] in fs
    requires k <= |paths|
    ensures Contents(fs, paths)[..k] == Contents(fs, paths[..k])
  {
  }

  /** The first chosen path with no file behind it: summing the part sizes
      stops at the first part that cannot be stat'ed. */
  function FirstMissing(fs: map<string, Bytes>, paths: seq<string>): (r: Option<string>)
    ensures r.None? <==> forall i :: 0 <= i < |paths| ==> paths[i] in fs
    ensures r.Some? ==> r.value in paths && r.value !in fs
    ensures r.Some? ==> exists k :: 0 <= k < |paths| && paths[k] == r.value
                                    && forall j :: 0 <= j < k ==> paths[j] in fs
  {
    if |paths| == 0 then None
    else if paths[0] !in fs then Some(paths[0])
    else FirstMissing(fs, paths[1..])
  }

  /** The combine utility. With nothing selected nothing happens. The
      output name is the given text, or the stem of the first chosen part
      when the text is empty. Every chosen part must exist before writing
      starts (their sizes are summed first); then each part is streamed
      into the output in list order, a buffer at a time. */
  method CombineFiles(selected: seq<string>, outputText: string, fs: map<string, Bytes>)
    returns (r: Result<Combined, CombineError>)
    ensures |selected| == 0 ==> r == Err(NothingSelected)
    ensures |selected| > 0 && FirstMissing(fs, selected).Some? ==>
              r.Err? && r.error == MissingPart(FirstMissing(fs, selected).value)
    ensures r.Err? && r.error.MissingPart? ==> r.error.path in selected && r.error.path !in fs
    ensures r.Err? && r.error.MissingPart? ==>
              FirstMissing(fs, selected).Some? && FirstMissing(fs, selected).value == r.error.path
    ensures |selected| > 0 && (forall i :: 0 <= i < |selected| ==> selected[i] in fs) ==>
              && r.Ok?
              && r.value.outputName == (if outputText == "" then Stem(selected[0]) else outputText)
              && r.value.data == Concat(Contents(fs, selected))
              && r.value.bytesWritten == TotalSize(Contents(fs, selected))
  {
    if |selected| == 0 {
      return Err(NothingSelected);
    }
    var outputName := if outputText == "" then Stem(selected[0]) else outputText;
    var missing := FirstMissing(fs, selected);
    if missing.Some? {
      return Err(MissingPart(missing.value));
    }
    var out, written := CopyAll(Contents(fs, selected));
    return Ok(Combined(outputName, out, written));
  }

  /** The copy loop of the combine utility: every part, in list order, onto
      one output; the byte counter ends at the parts' total size. */
  method CopyAll(parts: seq<Bytes>) returns (out: Bytes, written: nat)
    ensures out == Concat(parts)
    ensures written == TotalSize(parts)
  {
    out, written := [], 0;
    for i := 0 to |parts|
      invariant out == Concat(parts[..i])
      invariant written == |out|
    {
      out, written := CopyPart(out, written, parts[i]);
      assert parts[..i + 1][..i] == parts[..i];
    }
    assert parts[..|parts|] == parts;
    ConcatLength(parts);
  }

  /** Streams one part onto the end of the output, a buffer at a time,
      until a read comes back empty; the byte counter follows the output. */
  method CopyPart(out: Bytes, written: nat, part: Bytes) returns (out': Bytes, written': nat)
    requires written == |out|
    ensures out' == out + part
    ensures written' == |out'|
  {
    out', written' := out, written;
    var pos: nat := 0;
    while true
      invariant pos <= |part|
      invariant out' == out + part[..pos]
      invariant written' == |out'|
      decreases |part| - pos
    {
      var piece := ReadAt(part, pos, ReadBufferSize);
      if |piece| == 0 {
        break;
      }
      assert part[..pos] + piece == part[..pos + |piece|];
      out' := out' + piece;
      written' := written' + |piece|;
      pos := pos + |piece|;
    }
    assert part[..pos] == part;
  }

  // ---------------------------------------------------------------------
  // Hash
  // ---------------------------------------------------------------------

  /** Which accumulators the chosen hash type feeds. */
  predicate FeedsSha256(hashType: string) {
    hashType == "SHA256" || hashType == "SHA256 + MD5"
  }

  predicate FeedsMd5(hashType: string) {
    hashType == "MD5" || hashType == "SHA256 + MD5"
  }

  /** `counts` are the running byte counts reported after each piece of
      a stream read so far up to `n`: positive, strictly increasing, and
      ending at `n` (empty while nothing was read). The progress bar shows
      each count divided by the file size. */
  predicate CountsUpTo(counts: seq<nat>, n: nat) {
    && (n == 0 <==> |counts| == 0)
    && (forall k :: 0 <= k < |counts| ==> 0 < counts[k] <= n)
    && (forall k :: 0 < k < |counts| ==> counts[k - 1] < counts[k])
    && (|counts| > 0 ==> counts[|counts| - 1] == n)
  }

  lemma CountsStep(counts: seq<nat>, n: nat, m: nat)
    requires CountsUpTo(counts, n) && n < m
    ensures CountsUpTo(counts + [m], m)
  {
    var c := counts + [m];
    forall k | 0 < k < |c| ensures c[k - 1] < c[k] {
      if k < |counts| {
        assert c[k - 1] == counts[k - 1] && c[k] == counts[k];
      }
    }
  }

  /** The hash utility's streaming pass. A digest accumulator is stood in
      for by the bytes it has been fed (an incremental digest of a stream
      equals the digest of the stream's concatenation), so the digests are
      a function of those bytes. The read size is `min(1 MiB, size)`; the
      loop stops at the first empty read. `progress` holds the byte count
      read after each piece. */
  method HashFeed(file: Bytes, hashType: string) returns (sha256: Bytes, md5: Bytes, progress: seq<nat>)
    ensures sha256 == (if FeedsSha256(hashType) then file else [])
    ensures md5 == (if FeedsMd5(hashType) then file else [])
    ensures CountsUpTo(progress, |file|)
  {
    var size := |file|;
    var chunkSize := Min(ReadBufferSize, size);
    var feedSha, feedMd5 := FeedsSha256(hashType), FeedsMd5(hashType);
    sha256, md5, progress := [], [], [];
    var bytesRead: nat := 0;
    while true
      invariant bytesRead <= size
      invariant sha256 == (if feedSha then file[..bytesRead] else [])
      invariant md5 == (if feedMd5 then file[..bytesRead] else [])
      invariant CountsUpTo(progress, bytesRead)
      decreases size - bytesRead
    {
      var piece := ReadAt(file, bytesRead, chunkSize);
      if |piece| == 0 {
        break;
      }
      if feedSha {
        sha256 := sha256 + piece;
      }
      if feedMd5 {
        md5 := md5 + piece;
      }
      assert file[..bytesRead] + piece == file[..bytesRead + |piece|];
      CountsStep(progress, bytesRead, bytesRead + |piece|);
      bytesRead := bytesRead + |piece|;
      progress := progress + [bytesRead];
    }
    assert bytesRead == size;
    assert file[..bytesRead] == file;
  }
}

=== FILE: files.dfy ===
/** The part of the file system the upload paths look at: which paths are
    files, which are folders, and what a folder lists. A folder carries its
    own enumeration order (`glob("*")` for its direct entries, `rglob("*")`
    for everything below it), since the operating system decides that order
    and nothing here sorts it. */
module Files {

  datatype Node =
    | File
    | Folder(entries: seq<string>, tree: seq<string>)

  type FileSystem = map<string, Node>

  predicate IsFile(fs: FileSystem, p: string) {
    p in fs && fs[p].File?
  }

  predicate IsFolder(fs: FileSystem, p: string) {
    p in fs && fs[p].Folder?
  }

  /** The files among `paths`, in the order given. */
  function FilesAmong(fs: FileSystem, paths: seq<string>): (r: seq<string>)
    ensures |r| <= |paths|
    ensures forall i :: 0 <= i < |r| ==> IsFile(fs, r[i]) && r[i] in paths
  {
    if |paths| == 0 then []
    else
      var rest := FilesAmong(fs, paths[1..]);
      if IsFile(fs, paths[0]) then [paths[0]] + rest else rest
  }

  /** Every file among `paths` is kept. */
  lemma {:induction false} FilesAmongComplete(fs: FileSystem, paths: seq<string>, p: string)
    requires p in paths && IsFile(fs, p)
    ensures p in FilesAmong(fs, paths)
  {
    if paths[0] != p {
      FilesAmongComplete(fs, paths[1..], p);
    }
  }

  /** The scan looks at one entry at a time: a single entry is kept exactly
      when it is a file. */
  lemma FilesAmongOne(fs: FileSystem, p: string)
    ensures FilesAmong(fs, [p]) == if IsFile(fs, p) then [p] else []
  {
  }

  /** The scan of a listing cut in two is the scan of the first part
      followed by the scan of the second, so the files kept stay in listing
      order. */
  lemma {:induction false} FilesAmongAppend(fs: FileSystem, a: seq<string>, b: seq<string>)
    ensures FilesAmong(fs, a + b) == FilesAmong(fs, a) + FilesAmong(fs, b)
  {
    if |a| > 0 {
      assert (a + b)[0] == a[0];
      assert (a + b)[1..] == a[1..] + b;
      FilesAmongAppend(fs, a[1..], b);
    } else {
      assert a + b == b;
    }
  }

  /** The files a folder upload (or "add folder") visits, in enumeration
      order: the direct entries, or with `recursive` everything below. */
  function FolderFiles(fs: FileSystem, dir: string, recursive: bool): seq<string>
    requires IsFolder(fs, dir)
  {
    FilesAmong(fs, if recursive then fs[dir].tree else fs[dir].entries)
  }

  /** Removing a path (`Path.unlink`). */
  function Remove(fs: FileSystem, p: string): (r: FileSystem)
    ensures p !in r
    ensures forall q :: q in fs && q != p ==> q in r && r[q] == fs[q]
    ensures forall q :: q in r ==> q in fs
  {
    fs - {p}
  }
}

=== FILE: lists.dfy ===
/** The two lists the application keeps in memory: the batch upload queue,
    which only grows by paths it does not already hold, and the log buffer,
    which keeps the most recent entries. */
module Lists {
  import opened Files

  // ---------------------------------------------------------------------
  // Batch queue
  // ---------------------------------------------------------------------

  predicate NoDuplicates(s: seq<string>) {
    forall i, j :: 0 <= i < j < |s| ==> s[i] != s[j]
  }

  /** The paths adding `paths` to `queue` appends: each path not already
      queued, at its first occurrence, in the order given. */
  function Added(queue: seq<string>, paths: seq<string>): (r: seq<string>)
    ensures forall i :: 0 <= i < |r| ==> r[i] in paths && r[i] !in queue
    decreases |paths|
  {
    if |paths| == 0 then []
    else if paths[0] in queue then Added(queue, paths[1..])
    else [paths[0]] + Added(queue + [paths[0]], paths[1..])
  }

  /** Every path given ends up queued. */
  lemma {:induction false} AddedCovers(queue: seq<string>, paths: seq<string>, p: string)
    requires p in paths
    ensures p in queue + Added(queue, paths)
    decreases |paths|
  {
    if paths[0] == p {
      if p !in queue {
        assert Added(queue, paths)[0] == p;
      }
    } else if paths[0] in queue {
      AddedCovers(queue, paths[1..], p);
    } else {
      AddedCovers(queue + [paths[0]], paths[1..], p);
      assert queue + [paths[0]] + Added(queue + [paths[0]], paths[1..]) == queue + Added(queue, paths);
    }
  }

  /** A queue without duplicates stays without duplicates. */
  lemma {:induction false} AddedNoDuplicates(queue: seq<string>, paths: seq<string>)
    requires NoDuplicates(queue)
    ensures NoDuplicates(queue + Added(queue, paths))
    decreases |paths|
  {
    if |paths| > 0 {
      if paths[0] in queue {
        AddedNoDuplicates(queue, paths[1..]);
      } else {
        var q := queue + [paths[0]];
        assert NoDuplicates(q) by {
          forall i, j | 0 <= i < j < |q| ensures q[i] != q[j] {
            if j == |queue| {
              assert q[i] == queue[i];
            }
          }
        }
        AddedNoDuplicates(q, paths[1..]);
        assert q + Added(q, paths[1..]) == queue + Added(queue, paths);
      }
    }
  }

  /** `batch_add_files`: for each path in order, append it unless it is
      already queued. */
  method AddToQueue(queue: seq<string>, paths: seq<string>) returns (q: seq<string>)
    ensures q == queue + Added(queue, paths)
    ensures |q| >= |queue| && q[..|queue|] == queue
    ensures forall p :: p in paths ==> p in q
    ensures forall p :: p in q ==> p in queue || p in paths
    ensures NoDuplicates(queue) ==> NoDuplicates(q)
  {
    q := queue;
    for i := 0 to |paths|
      invariant q + Added(q, paths[i..]) == queue + Added(queue, paths)
    {
      assert paths[i..][1..] == paths[i + 1..];
      if paths[i] !in q {
        q := q + [paths[i]];
      }
    }
    assert paths[|paths|..] == [];
    forall p | p in paths ensures p in q {
      AddedCovers(queue, paths, p);
    }
    if NoDuplicates(queue) {
      AddedNoDuplicates(queue, paths);
    }
  }

  /** `batch_add_folder`: the folder's files in enumeration order (direct
      entries, or everything below it with `recursive`), added the same way. */
  method AddFolderToQueue(queue: seq<string>, fs: FileSystem, dir: string, recursive: bool)
    returns (q: seq<string>)
    requires IsFolder(fs, dir)
    ensures q == queue + Added(queue, FolderFiles(fs, dir, recursive))
    ensures forall i :: |queue| <= i < |q| ==> IsFile(fs, q[i])
  {
    q := AddToQueue(queue, FolderFiles(fs, dir, recursive));
  }

  // ---------------------------------------------------------------------
  // Log buffer
  // ---------------------------------------------------------------------

  const MaxLogMessages: nat := 100

  /** The last `n` elements of `s` (all of it when it is shorter). */
  function LastN<T>(s: seq<T>, n: nat): (r: seq<T>)
    ensures |r| == if |s| < n then |s| else n
    ensures r == s[|s| - |r|..]
  {
    if |s| <= n then s else s[|s| - n..]
  }

  /** `_log`'s buffer update: append, then keep the newest 100 entries. */
  function AppendLog<T>(log: seq<T>, entry: T): (r: seq<T>)
    ensures |r| <= MaxLogMessages
    ensures |r| > 0 && r[|r| - 1] == entry
    ensures |log| < MaxLogMessages ==> r == log + [entry]
  {
    var l := log + [entry];
    if |l| > MaxLogMessages then l[|l| - MaxLogMessages..] else l
  }

  /** Appending entries one at a time. */
  function AppendAll<T>(log: seq<T>, entries: seq<T>): seq<T>
    decreases |entries|
  {
    if |entries| == 0 then log else AppendAll(AppendLog(log, entries[0]), entries[1..])
  }

  /** `AppendLog` keeps the newest entries of the buffer plus the new one. */
  lemma AppendLogIsLastN<T>(log: seq<T>, entry: T)
    ensures AppendLog(log, entry) == LastN(log + [entry], MaxLogMessages)
  {
  }

  /** Dropping a prefix that leaves at least `n` elements does not change
      the last `n`. */
  lemma LastNOfSuffix<T>(s: seq<T>, k: nat, n: nat)
    requires k + n <= |s|
    ensures LastN(s[k..], n) == LastN(s, n)
  {
    assert s[k..][|s[k..]| - n..] == s[|s| - n..];
  }

  lemma LastNThenAppend<T>(x: seq<T>, y: seq<T>, n: nat)
    ensures LastN(LastN(x, n) + y, n) == LastN(x + y, n)
  {
    if |x| > n {
      assert LastN(x, n) + y == (x + y)[|x| - n..];
      LastNOfSuffix(x + y, |x| - n, n);
    }
  }

  /** However many entries are logged, a buffer that started within the
      bound holds exactly the newest 100 of everything logged (all of it
      while there are fewer). */
  lemma {:induction false} AppendAllKeepsNewest<T>(log: seq<T>, entries: seq<T>)
    requires |log| <= MaxLogMessages
    ensures AppendAll(log, entries) == LastN(log + entries, MaxLogMessages)
    decreases |entries|
  {
    if |entries| == 0 {
      assert log + entries == log;
    } else {
      var e := entries[0];
      var rest := entries[1..];
      AppendLogIsLastN(log, e);
      AppendAllKeepsNewest(AppendLog(log, e), rest);
      LastNThenAppend(log + [e], rest, MaxLogMessages);
      assert log + [e] + rest == log + entries;
    }
  }
}

=== FILE: media.dfy ===
/** The decisions the worker makes about one file before it talks to the
    client: which send call to use, the caption, the file name shown to
    Telegram, the video thumbnail, and the display name of a downloaded
    message's media. */
module Media {
  import opened Wrappers
  import opened Text

  /** What the worker reads from one upload request (the fields the upload
      form and the batch queue fill in and the worker consults). */
  datatype UploadArgs = UploadArgs(
    path: string,
    recursive: bool,
    fileType: string,          // the (editable) file-type box: "Auto-detect", "Photo", ...
    thumbnail: Option<string>, // None when the thumbnail entry was left empty
    caption: string,
    useFilenameCaption: bool,
    chatId: string,
    prefix: Option<string>,    // None when the prefix entry was left empty
    silent: bool,
    deleteOriginal: bool)

  /** Python truthiness of an optional string: present and non-empty. */
  predicate Truthy(o: Option<string>) {
    o.Some? && o.value != ""
  }

  // ---------------------------------------------------------------------
  // Media kind
  // ---------------------------------------------------------------------

  const PhotoSuffixes: seq<string> := [".jpg", ".jpeg", ".png", ".gif", ".bmp"]
  const VideoSuffixes: seq<string> := [".mp4", ".mkv", ".avi", ".mov", ".webm"]
  const AudioSuffixes: seq<string> := [".mp3", ".wav", ".ogg", ".flac", ".m4a"]

  datatype MediaKind = Photo | Video | Audio | Document

  /** The branch `_worker_upload_single_file` takes: an explicit type wins,
      "Auto-detect" looks the lower-cased suffix up in the three tables, and
      every other type ("Document", "Voice", "Video Note", anything typed in)
      is sent as a document. */
  function Kind(fileType: string, path: string): MediaKind {
    KindOfExt(fileType, Lower(Suffix(path)))
  }

  /** `Kind` once the lower-cased suffix `ext` is known. */
  function KindOfExt(fileType: string, ext: string): (k: MediaKind)
    ensures fileType == "Photo" ==> k == Photo
    ensures fileType == "Video" ==> k == Video
    ensures fileType == "Audio" ==> k == Audio
    ensures (fileType != "Photo" && fileType != "Video" && fileType != "Audio"
             && fileType != "Auto-detect") ==> k == Document
  {
    var auto := fileType == "Auto-detect";
    if fileType == "Photo" || (auto && ext in PhotoSuffixes) then Photo
    else if fileType == "Video" || (auto && ext in VideoSuffixes) then Video
    else if fileType == "Audio" || (auto && ext in AudioSuffixes) then Audio
    else Document
  }

  /** The three tables share no extension, so auto-detection picks the one
      table the suffix is in. */
  lemma AutoDetectByTable(ext: string)
    ensures KindOfExt("Auto-detect", ext) == Photo <==> ext in PhotoSuffixes
    ensures KindOfExt("Auto-detect", ext) == Video <==> ext in VideoSuffixes
    ensures KindOfExt("Auto-detect", ext) == Audio <==> ext in AudioSuffixes
  {
  }

  predicate EndsWithAny(path: string, exts: seq<string>) {
    exists i :: 0 <= i < |exts| && NameEndsWith(path, exts[i])
  }

  predicate AllExtensions(exts: seq<string>) {
    forall i :: 0 <= i < |exts| ==> Extension(exts[i])
  }

  lemma TablesAreExtensions()
    ensures AllExtensions(PhotoSuffixes)
    ensures AllExtensions(VideoSuffixes)
    ensures AllExtensions(AudioSuffixes)
  {
  }

  /** Looking the suffix up in a table of extensions is the same as asking
      whether the name ends with one of them. */
  lemma TableLookup(path: string, exts: seq<string>)
    requires AllExtensions(exts)
    ensures Lower(Suffix(path)) in exts <==> EndsWithAny(path, exts)
  {
    var ext := Lower(Suffix(path));
    forall i | 0 <= i < |exts| ensures ext == exts[i] <==> NameEndsWith(path, exts[i]) {
      SuffixByEnding(path, exts[i]);
    }
  }

  /** Auto-detection in terms of how the file name ends: a photo, video or
      audio extension (in any letter case, after a non-empty stem) selects
      that kind, and a name that ends with none of them is a document. */
  lemma AutoDetectByName(path: string)
    ensures Kind("Auto-detect", path) == Photo <==> EndsWithAny(path, PhotoSuffixes)
    ensures Kind("Auto-detect", path) == Video <==> EndsWithAny(path, VideoSuffixes)
    ensures Kind("Auto-detect", path) == Audio <==> EndsWithAny(path, AudioSuffixes)
    ensures Kind("Auto-detect", path) == Document
            <==> !EndsWithAny(path, PhotoSuffixes) && !EndsWithAny(path, VideoSuffixes)
                 && !EndsWithAny(path, AudioSuffixes)
  {
    var ext := Lower(Suffix(path));
    assert Kind("Auto-detect", path) == KindOfExt("Auto-detect", ext);
    AutoDetectByTable(ext);
    TablesAreExtensions();
    TableLookup(path, PhotoSuffixes);
    TableLookup(path, VideoSuffixes);
    TableLookup(path, AudioSuffixes);
  }

  /** The kind depends on the path only through its lower-cased suffix. */
  lemma KindBySuffix(fileType: string, p: string, q: string)
    requires Lower(Suffix(p)) == Lower(Suffix(q))
    ensures Kind(fileType, p) == Kind(fileType, q)
  {
  }

  // ---------------------------------------------------------------------
  // Caption, file name, thumbnail
  // ---------------------------------------------------------------------

  /** The caption text chosen: the stem when the "use file name" flag is
      set, otherwise the given text. */
  function CaptionText(args: UploadArgs): string {
    if args.useFilenameCaption then Stem(args.path) else args.caption
  }

  /** The caption sent: the chosen text, where an empty one is sent as none. */
  function Caption(args: UploadArgs): (c: Option<string>)
    ensures c.Some? ==> c.value != ""
    ensures !args.useFilenameCaption ==>
              c == (if args.caption == "" then None else Some(args.caption))
    ensures args.useFilenameCaption && c.Some? ==> c.value + Suffix(args.path) == Name(args.path)
    ensures args.useFilenameCaption && c.None? ==> Suffix(args.path) == Name(args.path)
  {
    StemSuffixName(args.path);
    var text := CaptionText(args);
    if text == "" then None else Some(text)
  }

  /** The file name given to a document: the prefix, when there is a
      non-empty one, followed by the path's name. */
  function FileName(args: UploadArgs): (name: string)
    ensures |name| >= |Name(args.path)| && name[|name| - |Name(args.path)|..] == Name(args.path)
    ensures name == Name(args.path) <==> !Truthy(args.prefix)
    ensures Truthy(args.prefix) ==>
              |name| == |args.prefix.value| + |Name(args.path)| && name[..|args.prefix.value|] == args.prefix.value
  {
    var n := Name(args.path);
    if Truthy(args.prefix) then
      var r := args.prefix.value + n;
      assert r[|r| - |n|..] == n && r[..|args.prefix.value|] == args.prefix.value;
      r
    else n
  }

  /** Where a generated thumbnail is written: `thumb/THUMB_<stem>.jpg`. */
  function AutoThumbPath(path: string): string {
    "thumb/THUMB_" + Stem(path) + ".jpg"
  }

  /** The thumbnail passed with a video: "auto" means a generated frame
      (only when the video library is available, otherwise none), any other
      non-empty entry is passed through. */
  function VideoThumb(args: UploadArgs, hasMoviepy: bool): (t: Option<string>)
    ensures t.Some? ==> t.value != "" && t.value != "auto"
    ensures args.thumbnail == Some("auto") ==>
              t == (if hasMoviepy then Some(AutoThumbPath(args.path)) else None)
    ensures args.thumbnail != Some("auto") ==> t == (if Truthy(args.thumbnail) then args.thumbnail else None)
  {
    if args.thumbnail == Some("auto") then
      if hasMoviepy then
        var t := AutoThumbPath(args.path);
        assert t[0] == 't';
        Some(t)
      else None
    else if Truthy(args.thumbnail) then args.thumbnail
    else None
  }

  // ---------------------------------------------------------------------
  // The send call
  // ---------------------------------------------------------------------

  /** The client call that uploads one file, with the arguments it gets. */
  datatype Send =
    | SendPhoto(chat: string, path: string, caption: Option<string>, silent: bool)
    | SendVideo(chat: string, path: string, caption: Option<string>, silent: bool, thumb: Option<string>)
    | SendAudio(chat: string, path: string, caption: Option<string>, silent: bool)
    | SendDocument(chat: string, path: string, caption: Option<string>, silent: bool, fileName: string)

  /** What uploading one file does, before any client call: the frame to
      extract for an automatic thumbnail (if any), then the send call. */
  datatype Plan = Plan(frame: Option<string>, send: Send)

  function PlanUpload(args: UploadArgs, hasMoviepy: bool): (p: Plan)
    ensures p.send.chat == args.chatId && p.send.path == args.path
    ensures p.send.caption == Caption(args) && p.send.silent == args.silent
    ensures p.send.SendPhoto? <==> Kind(args.fileType, args.path) == Photo
    ensures p.send.SendVideo? <==> Kind(args.fileType, args.path) == Video
    ensures p.send.SendAudio? <==> Kind(args.fileType, args.path) == Audio
    ensures p.send.SendDocument? <==> Kind(args.fileType, args.path) == Document
    ensures p.send.SendVideo? ==> p.send.thumb == VideoThumb(args, hasMoviepy)
    ensures p.send.SendDocument? ==> p.send.fileName == FileName(args)
    ensures p.frame.Some? <==>
              Kind(args.fileType, args.path) == Video && args.thumbnail == Some("auto") && hasMoviepy
    ensures p.frame.Some? ==> p.frame.value == AutoThumbPath(args.path)
  {
    var caption := Caption(args);
    match Kind(args.fileType, args.path)
    case Photo => Plan(None, SendPhoto(args.chatId, args.path, caption, args.silent))
    case Video =>
      var frame := if args.thumbnail == Some("auto") && hasMoviepy then Some(AutoThumbPath(args.path)) else None;
      Plan(frame, SendVideo(args.chatId, args.path, caption, args.silent, VideoThumb(args, hasMoviepy)))
    case Audio => Plan(None, SendAudio(args.chatId, args.path, caption, args.silent))
    case Document =>
      Plan(None, SendDocument(args.chatId, args.path, caption, args.silent, FileName(args)))
  }

  /** Everything but the document name is computed without the prefix. */
  lemma PrefixKeepsInputs(args: UploadArgs, hasMoviepy: bool, prefix: Option<string>)
    ensures Caption(args.(prefix := prefix)) == Caption(args)
    ensures VideoThumb(args.(prefix := prefix), hasMoviepy) == VideoThumb(args, hasMoviepy)
    ensures Kind(args.(prefix := prefix).fileType, args.(prefix := prefix).path) == Kind(args.fileType, args.path)
  {
    assert CaptionText(args.(prefix := prefix)) == CaptionText(args);
  }

  /** The prefix reaches Telegram only as a document's file name: for a
      photo, video or audio upload the plan does not depend on it. */
  lemma PrefixOnlyNamesDocuments(args: UploadArgs, hasMoviepy: bool, prefix: Option<string>)
    requires Kind(args.fileType, args.path) != Document
    ensures PlanUpload(args.(prefix := prefix), hasMoviepy) == PlanUpload(args, hasMoviepy)
  {
    PrefixKeepsInputs(args, hasMoviepy, prefix);
  }

  /** With the "use file name" flag set, the typed caption is ignored. */
  lemma FlagIgnoresCaption(args: UploadArgs, text: string)
    requires args.useFilenameCaption
    ensures Caption(args.(caption := text)) == Caption(args)
  {
  }

  // ---------------------------------------------------------------------
  // Downloaded file names
  // ---------------------------------------------------------------------

  /** The media a fetched message carries: for a document, video or audio
      its file name ("" when it has none), and whether it has a photo. */
  datatype Message = Message(
    document: Option<string>,
    video: Option<string>,
    audio: Option<string>,
    photo: bool)

  /** `name or default`. */
  function OrDefault(name: string, default: string): string {
    if name == "" then default else name
  }

  /** The name `_worker_download_link` reports for a message's media. */
  function DownloadName(m: Message): (name: string)
    ensures name != ""
    ensures name in {"file", "video", "audio", "photo.jpg"}
            || (m.document.Some? && name == m.document.value)
            || (m.video.Some? && name == m.video.value)
            || (m.audio.Some? && name == m.audio.value)
  {
    if m.document.Some? then OrDefault(m.document.value, "file")
    else if m.video.Some? then OrDefault(m.video.value, "video")
    else if m.audio.Some? then OrDefault(m.audio.value, "audio")
    else if m.photo then "photo.jpg"
    else "file"
  }

  /** Priority document > video > audio > photo: media of a lower rank never
      change the name once a higher-ranked one is present. */
  lemma DownloadNamePriority(m: Message, video: Option<string>, audio: Option<string>, photo: bool)
    ensures m.document.Some? ==>
              DownloadName(m.(video := video, audio := audio, photo := photo)) == DownloadName(m)
    ensures m.video.Some? ==> DownloadName(m.(audio := audio, photo := photo)) == DownloadName(m)
    ensures m.audio.Some? ==> DownloadName(m.(photo := photo)) == DownloadName(m)
  {
  }

  /** A message's own file name is used whenever it is non-empty and no
      higher-ranked media is present; a message without media gets "file". */
  lemma DownloadNameOwnName(m: Message)
    ensures m.document.Some? && m.document.value != "" ==> DownloadName(m) == m.document.value
    ensures m.document.None? && m.video.Some? && m.video.value != "" ==> DownloadName(m) == m.video.value
    ensures m.document.None? && m.video.None? && m.audio.Some? && m.audio.value != ""
            ==> DownloadName(m) == m.audio.value
    ensures m == Message(None, None, None, false) ==> DownloadName(m) == "file"
  {
  }
}

=== FILE: part_order.dfy ===
/** The order in which chosen part files are combined. The combine picker
    sorts the chosen paths with Python's `sorted`, which compares strings
    code point by code point. Part paths end in `.part<i>`, so this order is
    the index order only while every index has one digit: with eleven or
    more parts `.part10` comes before `.part2` and the recombined file is
    scrambled. `NaturalLeq` is the evidently intended order (by the numeric
    index), under which the round trip holds for any number of parts. */
module PartOrder {
  import opened Text
  import opened Codec
  import opened Sorting

  // ---------------------------------------------------------------------
  // Python's string order
  // ---------------------------------------------------------------------

  /** `a < b` on Python strings: the first differing code point decides,
      and a proper prefix comes first. */
  predicate StrLess(a: string, b: string) {
    if |a| == 0 then |b| > 0
    else |b| > 0 && (a[0] < b[0] || (a[0] == b[0] && StrLess(a[1..], b[1..])))
  }

  predicate StrLeq(a: string, b: string) {
    a == b || StrLess(a, b)
  }

  lemma {:induction false} StrLessIrreflexive(a: string)
    ensures !StrLess(a, a)
  {
    if |a| > 0 {
      StrLessIrreflexive(a[1..]);
    }
  }

  lemma {:induction false} StrLessAsymmetric(a: string, b: string)
    ensures !(StrLess(a, b) && StrLess(b, a))
  {
    if |a| > 0 && |b| > 0 && a[0] == b[0] {
      StrLessAsymmetric(a[1..], b[1..]);
    }
  }

  lemma {:induction false} StrLessTransitive(a: string, b: string, c: string)
    requires StrLess(a, b) && StrLess(b, c)
    ensures StrLess(a, c)
  {
    if |a| > 0 && a[0] == b[0] && b[0] == c[0] {
      StrLessTransitive(a[1..], b[1..], c[1..]);
    }
  }

  lemma {:induction false} StrLessTotal(a: string, b: string)
    ensures a == b || StrLess(a, b) || StrLess(b, a)
  {
    if |a| > 0 && |b| > 0 && a[0] == b[0] {
      StrLessTotal(a[1..], b[1..]);
      if a[1..] == b[1..] {
        assert a == [a[0]] + a[1..] && b == [b[0]] + b[1..];
      }
    }
  }

  /** Python's string order is a total order. */
  lemma StrLeqTotalOrder()
    ensures TotalOrder(StrLeq)
  {
    forall a, b ensures StrLeq(a, b) || StrLeq(b, a) {
      StrLessTotal(a, b);
    }
    forall a, b | StrLeq(a, b) && StrLeq(b, a) ensures a == b {
      StrLessAsymmetric(a, b);
    }
    forall a, b, c | StrLeq(a, b) && StrLeq(b, c) ensures StrLeq(a, c) {
      if a != b && b != c {
        StrLessTransitive(a, b, c);
      }
    }
  }

  /** A common prefix does not change how two strings compare. */
  lemma {:induction false} StrLessCommonPrefix(p: string, a: string, b: string)
    ensures StrLess(p + a, p + b) <==> StrLess(a, b)
  {
    if |p| > 0 {
      assert (p + a)[1..] == p[1..] + a;
      assert (p + b)[1..] == p[1..] + b;
      StrLessCommonPrefix(p[1..], a, b);
    } else {
      assert p + a == a && p + b == b;
    }
  }

  // ---------------------------------------------------------------------
  // The paths a split writes, and how the picker orders them
  // ---------------------------------------------------------------------

  /** The shared beginning of every part path of one split. */
  function PartPrefix(dir: string, stem: string): string {
    dir + "/" + stem + ".part"
  }

  /** The paths of the `n` parts of a split of a file with this stem into
      directory `dir`, in index order. */
  function PartPaths(dir: string, stem: string, n: nat): (ps: seq<string>)
    ensures |ps| == n
    ensures forall i :: 0 <= i < n ==> ps[i] == dir + "/" + PartName(stem, i)
  {
    seq(n, i requires 0 <= i => PartPrefix(dir, stem) + NatToString(i))
  }

  /** `select_combine_files`: the chosen paths, sorted as Python strings. */
  function SelectForCombine(chosen: seq<string>): seq<string> {
    Sort(chosen, StrLeq)
  }

  lemma OneDigit(i: nat)
    requires i < 10
    ensures NatToString(i) == [DigitChar(i)]
  {
  }

  /** Up to ten parts, string order is index order: the picker hands the
      parts to combine in the order the split wrote them, whatever order
      they were chosen in. */
  lemma SelectionInIndexOrderUpToTen(dir: string, stem: string, n: nat, chosen: seq<string>)
    requires n <= 10
    requires multiset(chosen) == multiset(PartPaths(dir, stem, n))
    ensures SelectForCombine(chosen) == PartPaths(dir, stem, n)
  {
    var ps := PartPaths(dir, stem, n);
    var p := PartPrefix(dir, stem);
    forall i | 0 <= i && i + 1 < n
      ensures StrLeq(ps[i], ps[i + 1])
    {
      OneDigit(i);
      OneDigit(i + 1);
      StrLessCommonPrefix(p, NatToString(i), NatToString(i + 1));
    }
    SortKeepsOrdered(ps, StrLeq);
    StrLeqTotalOrder();
    SortIgnoresInputOrder(chosen, ps, StrLeq);
  }

  /** From eleven parts on, string order is not index order: `.part10`
      sorts before `.part2`. */
  lemma SelectionMisordersFromEleven(dir: string, stem: string, n: nat)
    requires n >= 11
    ensures SelectForCombine(PartPaths(dir, stem, n)) != PartPaths(dir, stem, n)
  {
    var ps := PartPaths(dir, stem, n);
    var p := PartPrefix(dir, stem);
    assert NatToString(10) == "10";
    OneDigit(2);
    assert StrLess("10", "2");
    StrLessCommonPrefix(p, "10", "2");
    assert StrLess(ps[10], ps[2]);
    StrLeqTotalOrder();
    SortSpec(ps, StrLeq);
    if SelectForCombine(ps) == ps {
      assert StrLeq(ps[2], ps[10]);
      StrLessAsymmetric(ps[2], ps[10]);
      assert false;
    }
  }

  // ---------------------------------------------------------------------
  // Split then combine, through the file system
  // ---------------------------------------------------------------------

  /** `fs` holds every part a split of `f` into `dir` wrote. */
  ghost predicate HoldsParts(fs: map<string, Bytes>, dir: string, stem: string, f: Bytes, chunk: nat)
    requires chunk > 0
  {
    forall i :: 0 <= i < NumChunks(|f|, chunk) ==>
      var path := PartPaths(dir, stem, NumChunks(|f|, chunk))[i];
      path in fs && fs[path] == SplitParts(stem, f, chunk)[i].data
  }

  lemma ContentsOfParts(fs: map<string, Bytes>, dir: string, stem: string, f: Bytes, chunk: nat)
    requires chunk > 0
    requires HoldsParts(fs, dir, stem, f, chunk)
    ensures forall i :: 0 <= i < NumChunks(|f|, chunk) ==> PartPaths(dir, stem, NumChunks(|f|, chunk))[i] in fs
    ensures Contents(fs, PartPaths(dir, stem, NumChunks(|f|, chunk))) == Chunks(f, chunk)
  {
  }

  /** With at most ten parts, choosing the split's parts in any order and
      combining the picker's selection reproduces the original file. */
  lemma CombineSelectionRoundTrip(f: Bytes, chunk: nat, dir: string, stem: string,
                                  fs: map<string, Bytes>, chosen: seq<string>)
    requires chunk > 0
    requires NumChunks(|f|, chunk) <= 10
    requires HoldsParts(fs, dir, stem, f, chunk)
    requires multiset(chosen) == multiset(PartPaths(dir, stem, NumChunks(|f|, chunk)))
    ensures forall i :: 0 <= i < |SelectForCombine(chosen)| ==> SelectForCombine(chosen)[i] in fs
    ensures Concat(Contents(fs, SelectForCombine(chosen))) == f
  {
    SelectionInIndexOrderUpToTen(dir, stem, NumChunks(|f|, chunk), chosen);
    ContentsOfParts(fs, dir, stem, f, chunk);
    SplitRoundTrip(f, chunk);
  }

  /** Concatenating one-byte pieces lists their bytes. */
  lemma {:induction false} ConcatSingletons(cs: seq<Bytes>)
    requires forall i :: 0 <= i < |cs| ==> |cs[i]| == 1
    ensures |Concat(cs)| == |cs|
    ensures forall i :: 0 <= i < |cs| ==> Concat(cs)[i] == cs[i][0]
  {
    if |cs| > 0 {
      ConcatSingletons(cs[..|cs| - 1]);
    }
  }

  /** The file of bytes 0, 1, ..., 10. */
  function ElevenBytes(): Bytes {
    seq(11, i requires 0 <= i < 11 => i as Byte)
  }

  /** After splitting the eleven bytes 0..10 into one-byte parts, part `j`
      holds the single byte `j`. */
  lemma ElevenPartsHold(dir: string, stem: string, fs: map<string, Bytes>)
    requires HoldsParts(fs, dir, stem, ElevenBytes(), 1)
    ensures forall j :: 0 <= j < 11 ==>
              PartPaths(dir, stem, 11)[j] in fs && fs[PartPaths(dir, stem, 11)[j]] == [j as Byte]
  {
    var f := ElevenBytes();
    assert NumChunks(|f|, 1) == 11;
    forall j | 0 <= j < 11
      ensures fs[PartPaths(dir, stem, 11)[j]] == [j as Byte]
    {
      assert SplitParts(stem, f, 1)[j].data == Chunk(f, 1, j);
      assert (j + 1) * 1 == j + 1;
      assert Chunk(f, 1, j) == f[j..j + 1];
    }
  }

  /** A permutation of the eleven part paths that is not the index order
      puts some part `m` at a position `k` other than its own. */
  lemma MisplacedPart(ps: seq<string>, sel: seq<string>) returns (k: nat, m: nat)
    requires |ps| == 11 && multiset(sel) == multiset(ps) && sel != ps
    ensures k < 11 && m < 11 && k != m && |sel| == 11 && sel[k] == ps[m]
  {
    assert |sel| == |multiset(sel)| == 11;
    k :| 0 <= k < 11 && sel[k] != ps[k];
    assert sel[k] in multiset(ps);
    m :| 0 <= m < 11 && ps[m] == sel[k];
  }

  /** Splitting the eleven bytes 0..10 into one-byte parts and combining
      the picker's selection does not give the file back. */
  lemma CombineSelectionBreaksAtEleven(dir: string, stem: string, fs: map<string, Bytes>)
    requires HoldsParts(fs, dir, stem, ElevenBytes(), 1)
    ensures forall i :: 0 <= i < |SelectForCombine(PartPaths(dir, stem, 11))| ==>
              SelectForCombine(PartPaths(dir, stem, 11))[i] in fs
    ensures Concat(Contents(fs, SelectForCombine(PartPaths(dir, stem, 11)))) != ElevenBytes()
  {
    var ps := PartPaths(dir, stem, 11);
    var sel := SelectForCombine(ps);
    ElevenPartsHold(dir, stem, fs);
    StrLeqTotalOrder();
    SortSpec(ps, StrLeq);
    SelectionMisordersFromEleven(dir, stem, 11);
    var k, m := MisplacedPart(ps, sel);
    forall i | 0 <= i < 11 ensures sel[i] in fs && |fs[sel[i]]| == 1 {
      assert sel[i] in multiset(ps);
    }
    var cs := Contents(fs, sel);
    ConcatSingletons(cs);
    assert Concat(cs)[k] == m as Byte;
    assert ElevenBytes()[k] == k as Byte;
    DistinctSmallBytes(k, m);
  }

  lemma DistinctSmallBytes(k: nat, m: nat)
    requires k < 256 && m < 256 && k != m
    ensures k as Byte != m as Byte
  {
    assert (k as Byte) as int == k && (m as Byte) as int == m;
  }

  // ---------------------------------------------------------------------
  // The evidently intended order: by numeric part index
  // ---------------------------------------------------------------------

  /** Where the run of decimal digits at the end of `s` starts. */
  function DigitsStart(s: string): (k: nat)
    ensures k <= |s|
    ensures AllDigits(s[k..])
    ensures k > 0 ==> !IsDigit(s[k - 1])
  {
    if |s| > 0 && IsDigit(s[|s| - 1]) then
      var k := DigitsStart(s[..|s| - 1]);
      assert s[k..] == s[..|s| - 1][k..] + [s[|s| - 1]];
      k
    else |s|
  }

  /** The sort key of a path: the text before its trailing digits, and the
      number those digits spell. */
  function IndexKey(s: string): (string, nat) {
    var k := DigitsStart(s);
    (s[..k], DigitsValue(s[k..]))
  }

  /** Order by text before the index, then by the index as a number; ties
      (leading zeros) fall back to string order so the order stays total. */
  predicate NaturalLeq(a: string, b: string) {
    var (pa, na) := IndexKey(a);
    var (pb, nb) := IndexKey(b);
    StrLess(pa, pb) || (pa == pb && (na < nb || (na == nb && StrLeq(a, b))))
  }

  /** The corrected picker: sort by part index. */
  function SelectForCombineByIndex(chosen: seq<string>): seq<string> {
    Sort(chosen, NaturalLeq)
  }

  lemma NaturalLeqTotalOrder()
    ensures TotalOrder(NaturalLeq)
  {
    forall a, b ensures NaturalLeq(a, b) || NaturalLeq(b, a) {
      StrLessTotal(IndexKey(a).0, IndexKey(b).0);
      StrLessTotal(a, b);
    }
    forall a, b | NaturalLeq(a, b) && NaturalLeq(b, a) ensures a == b {
      StrLessAsymmetric(IndexKey(a).0, IndexKey(b).0);
      StrLessIrreflexive(IndexKey(a).0);
      StrLessAsymmetric(a, b);
    }
    forall a, b, c | NaturalLeq(a, b) && NaturalLeq(b, c) ensures NaturalLeq(a, c) {
      NaturalLeqTransitive(a, b, c);
    }
  }

  lemma NaturalLeqTransitive(a: string, b: string, c: string)
    requires NaturalLeq(a, b) && NaturalLeq(b, c)
    ensures NaturalLeq(a, c)
  {
    var (pa, pb, pc) := (IndexKey(a).0, IndexKey(b).0, IndexKey(c).0);
    if StrLess(pa, pb) && StrLess(pb, pc) {
      StrLessTransitive(pa, pb, pc);
    }
    if StrLess(a, b) && StrLess(b, c) {
      StrLessTransitive(a, b, c);
    }
  }

  /** A path made of a prefix that does not end in a digit, then a decimal
      rendering, has that prefix and that number as its key. */
  lemma IndexKeyOfPartPath(p: string, i: nat)
    requires |p| > 0 && !IsDigit(p[|p| - 1])
    ensures IndexKey(p + NatToString(i)) == (p, i)
  {
    var d := NatToString(i);
    DigitsStartAfter(p, d);
    assert (p + d)[..|p|] == p && (p + d)[|p|..] == d;
  }

  lemma {:induction false} DigitsStartAfter(p: string, d: string)
    requires |p| > 0 && !IsDigit(p[|p| - 1])
    requires AllDigits(d)
    ensures DigitsStart(p + d) == |p|
    decreases |d|
  {
    if |d| == 0 {
      assert p + d == p;
    } else {
      assert (p + d)[..|p + d| - 1] == p + d[..|d| - 1];
      DigitsStartAfter(p, d[..|d| - 1]);
    }
  }

  /** Under the index order, choosing a split's parts in any order and
      combining the selection reproduces the original file, however many
      parts there are. */
  lemma CombineByIndexRoundTrip(f: Bytes, chunk: nat, dir: string, stem: string,
                                fs: map<string, Bytes>, chosen: seq<string>)
    requires chunk > 0
    requires HoldsParts(fs, dir, stem, f, chunk)
    requires multiset(chosen) == multiset(PartPaths(dir, stem, NumChunks(|f|, chunk)))
    ensures SelectForCombineByIndex(chosen) == PartPaths(dir, stem, NumChunks(|f|, chunk))
    ensures Concat(Contents(fs, SelectForCombineByIndex(chosen))) == f
  {
    var n := NumChunks(|f|, chunk);
    var ps := PartPaths(dir, stem, n);
    var p := PartPrefix(dir, stem);
    assert p[|p| - 1] == 't';
    forall i | 0 <= i && i + 1 < n
      ensures NaturalLeq(ps[i], ps[i + 1])
    {
      IndexKeyOfPartPath(p, i);
      IndexKeyOfPartPath(p, i + 1);
    }
    SortKeepsOrdered(ps, NaturalLeq);
    NaturalLeqTotalOrder();
    SortIgnoresInputOrder(chosen, ps, NaturalLeq);
    ContentsOfParts(fs, dir, stem, f, chunk);
    SplitRoundTrip(f, chunk);
  }
}

=== FILE: profiles.dfy ===
/** Account profiles: what the profile dialog accepts and stores, and the
    keyword arguments the worker builds from a stored profile when it
    creates a client. */
module Profiles {
  import opened Wrappers
  import opened Text

  // ---------------------------------------------------------------------
  // The profile dialog
  // ---------------------------------------------------------------------

  /** The dialog's entries as typed. */
  datatype Entries = Entries(
    apiId: string,
    apiHash: string,
    phone: string,
    botToken: string,
    sessionString: string,
    deviceModel: string,
    hidePassword: bool)

  /** The dictionary `ProfileDialog.save` produces. */
  datatype Profile = Profile(
    apiId: string,
    apiHash: string,
    phone: Option<string>,
    botToken: Option<string>,
    sessionString: Option<string>,
    hidePassword: bool,
    deviceModel: string)

  datatype SaveError = MissingApiCredentials | NoAuthMethod | SeveralAuthMethods

  /** The texts of the error boxes the dialog shows. */
  const ApiRequiredMessage := "API ID and API Hash are required!"
  const NoAuthMessage :=
    "Please provide at least one authentication method:\n"
    + "- Phone number (user account)\n"
    + "- Bot token (bot account)\n"
    + "- Session string (existing session)"
  const SeveralAuthMessage := "Please provide only ONE authentication method!"

  function SaveErrorMessage(e: SaveError): string {
    match e
    case MissingApiCredentials => ApiRequiredMessage
    case NoAuthMethod => NoAuthMessage
    case SeveralAuthMethods => SeveralAuthMessage
  }

  const DefaultDeviceModel := "tg-upload-gui"

  /** `text or None`. */
  function OrNone(text: string): (r: Option<string>)
    ensures r.None? <==> text == ""
    ensures r.Some? ==> r.value == text
  {
    if text == "" then None else Some(text)
  }

  function Count(b: bool): nat {
    if b then 1 else 0
  }

  /** The entries with surrounding whitespace removed, as `save` reads them. */
  function Stripped(e: Entries): Entries {
    Entries(Strip(e.apiId), Strip(e.apiHash), Strip(e.phone), Strip(e.botToken),
            Strip(e.sessionString), Strip(e.deviceModel), e.hidePassword)
  }

  /** How many of the three sign-in methods were filled in. */
  function AuthMethods(e: Entries): nat {
    Count(e.phone != "") + Count(e.botToken != "") + Count(e.sessionString != "")
  }

  /** `ProfileDialog.save`: both API fields are required, then exactly one
      sign-in method; blanks are stored as none and the device model falls
      back to the application's name. */
  function Save(e: Entries): Result<Profile, SaveError> {
    Validate(Stripped(e))
  }

  /** `save` once every entry has been stripped. */
  function Validate(e: Entries): (r: Result<Profile, SaveError>)
    ensures r == Err(MissingApiCredentials) <==> e.apiId == "" || e.apiHash == ""
    ensures r.Ok? <==> e.apiId != "" && e.apiHash != "" && AuthMethods(e) == 1
    ensures r == Err(NoAuthMethod) <==> e.apiId != "" && e.apiHash != "" && AuthMethods(e) == 0
    ensures r.Ok? ==>
              && r.value.apiId == e.apiId
              && r.value.apiHash == e.apiHash
              && r.value.phone == OrNone(e.phone)
              && r.value.botToken == OrNone(e.botToken)
              && r.value.sessionString == OrNone(e.sessionString)
              && r.value.hidePassword == e.hidePassword
              && r.value.deviceModel == (if e.deviceModel == "" then DefaultDeviceModel else e.deviceModel)
  {
    if e.apiId == "" || e.apiHash == "" then Err(MissingApiCredentials)
    else
      var methods := AuthMethods(e);
      if methods == 0 then Err(NoAuthMethod)
      else if methods > 1 then Err(SeveralAuthMethods)
      else
        Ok(Profile(e.apiId, e.apiHash, OrNone(e.phone), OrNone(e.botToken), OrNone(e.sessionString),
                   e.hidePassword, if e.deviceModel == "" then DefaultDeviceModel else e.deviceModel))
  }

  /** `Strip` is idempotent. */
  lemma StripTwice(s: string)
    ensures Strip(Strip(s)) == Strip(s)
  {
    StripSpec(s);
    StripNoop(Strip(s));
  }

  /** Exactly one of the three sign-in fields is present. */
  predicate OneCredential(p: Profile) {
    Count(p.phone.Some?) + Count(p.botToken.Some?) + Count(p.sessionString.Some?) == 1
  }

  /** A value as the dialog stores it: non-empty and already stripped. */
  predicate Clean(text: string) {
    text != "" && Strip(text) == text
  }

  /** Every entry is already stripped. */
  predicate AllStripped(e: Entries) {
    && Strip(e.apiId) == e.apiId && Strip(e.apiHash) == e.apiHash && Strip(e.phone) == e.phone
    && Strip(e.botToken) == e.botToken && Strip(e.sessionString) == e.sessionString
    && Strip(e.deviceModel) == e.deviceModel
  }

  lemma StrippedIsStripped(e: Entries)
    ensures AllStripped(Stripped(e))
  {
    StripTwice(e.apiId);
    StripTwice(e.apiHash);
    StripTwice(e.phone);
    StripTwice(e.botToken);
    StripTwice(e.sessionString);
    StripTwice(e.deviceModel);
  }

  /** What every saved profile satisfies: non-empty, stripped API fields,
      exactly one sign-in method, itself non-empty and stripped, and a
      non-empty, stripped device model. */
  predicate WellFormed(p: Profile) {
    && Clean(p.apiId) && Clean(p.apiHash)
    && OneCredential(p)
    && (p.phone.Some? ==> Clean(p.phone.value))
    && (p.botToken.Some? ==> Clean(p.botToken.value))
    && (p.sessionString.Some? ==> Clean(p.sessionString.value))
    && Clean(p.deviceModel)
  }

  /** The error box a rejected save shows: the API message exactly when an
      API field is blank after stripping, the "ONE method" message exactly
      when the API fields are there but several sign-in methods are filled,
      and the "at least one" message exactly when none is. */
  lemma SaveRejectionMessage(e: Entries)
    requires Save(e).Err?
    ensures var m := SaveErrorMessage(Save(e).error);
            && (m == ApiRequiredMessage <==> Strip(e.apiId) == "" || Strip(e.apiHash) == "")
            && (m == SeveralAuthMessage
                <==> Strip(e.apiId) != "" && Strip(e.apiHash) != "" && AuthMethods(Stripped(e)) > 1)
            && (m == NoAuthMessage
                <==> Strip(e.apiId) != "" && Strip(e.apiHash) != "" && AuthMethods(Stripped(e)) == 0)
  {
    assert |ApiRequiredMessage| == 33 && |SeveralAuthMessage| == 46 && |NoAuthMessage| > 46;
  }

  /** Every profile the dialog saves is well formed. */
  lemma SavedProfileWellFormed(e: Entries)
    requires Save(e).Ok?
    ensures WellFormed(Save(e).value)
  {
    StrippedIsStripped(e);
    ValidatedWellFormed(Stripped(e));
  }

  lemma DefaultDeviceModelClean()
    ensures Clean(DefaultDeviceModel)
  {
    StripNoop(DefaultDeviceModel);
  }

  lemma ValidatedWellFormed(e: Entries)
    requires AllStripped(e) && Validate(e).Ok?
    ensures WellFormed(Validate(e).value)
  {
    ValidatedApiClean(e);
    ValidatedOneCredential(e);
    ValidatedCredentialClean(e);
    ValidatedDeviceClean(e);
  }

  lemma ValidatedApiClean(e: Entries)
    requires AllStripped(e) && Validate(e).Ok?
    ensures Clean(Validate(e).value.apiId) && Clean(Validate(e).value.apiHash)
  {
  }

  lemma ValidatedOneCredential(e: Entries)
    requires AllStripped(e) && Validate(e).Ok?
    ensures OneCredential(Validate(e).value)
  {
  }

  lemma ValidatedCredentialClean(e: Entries)
    requires AllStripped(e) && Validate(e).Ok?
    ensures Validate(e).value.phone.Some? ==> Clean(Validate(e).value.phone.value)
    ensures Validate(e).value.botToken.Some? ==> Clean(Validate(e).value.botToken.value)
    ensures Validate(e).value.sessionString.Some? ==> Clean(Validate(e).value.sessionString.value)
  {
  }

  lemma ValidatedDeviceClean(e: Entries)
    requires AllStripped(e) && Validate(e).Ok?
    ensures Clean(Validate(e).value.deviceModel)
  {
    DefaultDeviceModelClean();
  }

  // ---------------------------------------------------------------------
  // Client keyword arguments
  // ---------------------------------------------------------------------

  /** The value under an optional key of a profile read back from JSON:
      missing, `null`, or a string. */
  datatype Field = Absent | Null | Str(text: string)

  /** `profile.get(key, default)`. */
  function Get(f: Field, default: string): Option<string> {
    match f
    case Absent => Some(default)
    case Null => None
    case Str(t) => Some(t)
  }

  /** `profile.get(key)` used as a condition. */
  predicate FieldTruthy(f: Field) {
    f.Str? && f.text != ""
  }

  /** A profile as the worker receives it. `api_id` and `api_hash` are
      read with `[]`, the other keys with `get`. */
  datatype StoredProfile = StoredProfile(
    apiId: string,
    apiHash: string,
    phone: Field,
    botToken: Field,
    sessionString: Field,
    hidePassword: Option<bool>,
    deviceModel: Field,
    systemVersion: Field,
    proxy: Field)

  /** The dialog's dictionary written to and read back from JSON. */
  function Stored(p: Profile): StoredProfile {
    StoredProfile(
      p.apiId, p.apiHash,
      if p.phone.Some? then Str(p.phone.value) else Null,
      if p.botToken.Some? then Str(p.botToken.value) else Null,
      if p.sessionString.Some? then Str(p.sessionString.value) else Null,
      Some(p.hidePassword),
      Str(p.deviceModel),
      Absent, Absent)
  }

  /** The sign-in keyword the client is created with. */
  datatype Auth =
    | BotToken(token: string)
    | SessionString(session: string)
    | PhoneNumber(phone: string, hidePassword: bool)
    | NoSignIn

  const AppVersion := "1.1.5-gui"
  const DefaultSystemVersion := "Windows"

  datatype ClientArgs = ClientArgs(
    name: string,
    apiId: string,
    apiHash: string,
    appVersion: string,
    deviceModel: Option<string>,
    systemVersion: Option<string>,
    workdir: string,
    proxy: Option<string>,
    auth: Auth)

  /** The keyword arguments of the connect command: fixed application
      version, defaults for device and system, the proxy only when set, and
      one sign-in method with bot token before session string before phone. */
  function ConnectArgs(p: StoredProfile, name: string, workdir: string): (a: ClientArgs)
    ensures a.name == name && a.apiId == p.apiId && a.apiHash == p.apiHash && a.workdir == workdir
    ensures a.appVersion == AppVersion
    ensures a.deviceModel == Get(p.deviceModel, DefaultDeviceModel)
    ensures a.systemVersion == Get(p.systemVersion, DefaultSystemVersion)
    ensures a.proxy.Some? <==> FieldTruthy(p.proxy)
    ensures a.proxy.Some? ==> a.proxy.value == p.proxy.text
    ensures a.auth.BotToken? <==> FieldTruthy(p.botToken)
    ensures a.auth.SessionString? <==> !FieldTruthy(p.botToken) && FieldTruthy(p.sessionString)
    ensures a.auth.PhoneNumber? <==>
              !FieldTruthy(p.botToken) && !FieldTruthy(p.sessionString) && FieldTruthy(p.phone)
    ensures a.auth.BotToken? ==> a.auth.token == p.botToken.text
    ensures a.auth.SessionString? ==> a.auth.session == p.sessionString.text
    ensures a.auth.PhoneNumber? ==>
              a.auth.phone == p.phone.text
              && a.auth.hidePassword == (p.hidePassword.Some? && p.hidePassword.value)
  {
    var auth :=
      if FieldTruthy(p.botToken) then BotToken(p.botToken.text)
      else if FieldTruthy(p.sessionString) then SessionString(p.sessionString.text)
      else if FieldTruthy(p.phone) then
        PhoneNumber(p.phone.text, p.hidePassword.Some? && p.hidePassword.value)
      else NoSignIn;
    ClientArgs(name, p.apiId, p.apiHash, AppVersion,
               Get(p.deviceModel, DefaultDeviceModel), Get(p.systemVersion, DefaultSystemVersion),
               workdir, if FieldTruthy(p.proxy) then Some(p.proxy.text) else None, auth)
  }

  /** A well-formed profile, stored and read back, connects with exactly
      its one sign-in method, its device model, the default system version
      and no proxy. */
  lemma WellFormedConnects(p: Profile, name: string, workdir: string)
    requires WellFormed(p)
    ensures var a := ConnectArgs(Stored(p), name, workdir);
            && a.deviceModel == Some(p.deviceModel)
            && a.systemVersion == Some(DefaultSystemVersion)
            && a.proxy == None
            && (p.botToken.Some? ==> a.auth == BotToken(p.botToken.value))
            && (p.sessionString.Some? ==> a.auth == SessionString(p.sessionString.value))
            && (p.phone.Some? ==> a.auth == PhoneNumber(p.phone.value, p.hidePassword))
            && a.auth != NoSignIn
  {
  }

  /** A profile saved by the dialog connects with the sign-in method it was
      saved with. */
  lemma SavedProfileConnects(e: Entries, name: string, workdir: string)
    requires Save(e).Ok?
    ensures var p := Save(e).value;
            var a := ConnectArgs(Stored(p), name, workdir);
            && a.deviceModel == Some(p.deviceModel)
            && a.systemVersion == Some(DefaultSystemVersion)
            && a.proxy == None
            && (p.botToken.Some? ==> a.auth == BotToken(p.botToken.value))
            && (p.sessionString.Some? ==> a.auth == SessionString(p.sessionString.value))
            && (p.phone.Some? ==> a.auth == PhoneNumber(p.phone.value, p.hidePassword))
            && a.auth != NoSignIn
  {
    SavedProfileWellFormed(e);
    WellFormedConnects(Save(e).value, name, workdir);
  }
}

=== FILE: share_link.dfy ===
/** Parsing a message share link (`https://t.me/<chat>/<id>` or
    `https://t.me/c/<channel>/<id>`) into the chat and message id the
    worker fetches. Spaces are removed and the link is cut at every '/';
    the segments are then indexed by position, exactly as the worker does,
    so the index errors and `int` errors it can raise are modelled too. */
module ShareLink {
  import opened Wrappers
  import opened Text

  /** A chat reference: the numeric id of a private channel, or the segment
      text (a public username) passed through unchanged. */
  datatype Chat = ChatId(id: int) | ChatName(name: string)

  datatype LinkTarget = LinkTarget(chat: Chat, messageId: int)

  datatype LinkError =
    | InvalidLink              // no segment is "t.me"
    | IndexOutOfRange          // too few segments for the position read
    | NotAnInteger(text: string)  // `int` rejected this text

  /** The text `str(e)` gives for each error (Python quotes the rejected
      text with `repr`; plain single quotes are used here). */
  function ErrorMessage(e: LinkError): string {
    match e
    case InvalidLink => "Invalid Telegram link"
    case IndexOutOfRange => "list index out of range"
    case NotAnInteger(t) => "invalid literal for int() with base 10: '" + t + "'"
  }

  /** The segments the worker indexes. */
  function Segments(link: string): (parts: seq<string>)
    ensures |parts| >= 1
  {
    SplitOn(RemoveChar(link, ' '), '/')
  }

  /** The text the worker hands to `int` for a private-channel segment. */
  function ChannelIdText(segment: string): (t: string)
    ensures |t| == |segment| + 4 && t[0] == '-' && t[1..] == "100" + segment
  {
    "-" + ("100" + segment)
  }

  /** The chat a link names: the channel id read from the fifth segment
      when some segment is "c", the fourth segment's text otherwise. */
  function ParseChat(parts: seq<string>): (r: Result<Chat, LinkError>)
    ensures "c" in parts && |parts| <= 4 ==> r == Err(IndexOutOfRange)
    ensures "c" in parts && |parts| > 4 ==>
              match ParseInt(ChannelIdText(parts[4]))
              case None => r == Err(NotAnInteger(ChannelIdText(parts[4])))
              case Some(v) => r == Ok(ChatId(v))
    ensures "c" !in parts && |parts| <= 3 ==> r == Err(IndexOutOfRange)
    ensures "c" !in parts && |parts| > 3 ==> r == Ok(ChatName(parts[3]))
  {
    if "c" in parts then
      if |parts| <= 4 then Err(IndexOutOfRange)
      else
        var idText := ChannelIdText(parts[4]);
        match ParseInt(idText)
        case None => Err(NotAnInteger(idText))
        case Some(v) => Ok(ChatId(v))
    else if |parts| <= 3 then Err(IndexOutOfRange)
    else Ok(ChatName(parts[3]))
  }

  /** `_worker_download_link`'s parsing of the segments: the checks and
      reads happen in the order the worker makes them, and the first that
      fails decides the error. */
  function ParseParts(parts: seq<string>): (r: Result<LinkTarget, LinkError>)
    requires |parts| >= 1
    ensures r == Err(InvalidLink) <==> "t.me" !in parts
    ensures "t.me" in parts && ParseChat(parts).Err? ==> r == Err(ParseChat(parts).error)
    ensures "t.me" in parts && ParseChat(parts).Ok? && ParseInt(parts[|parts| - 1]).None?
            ==> r == Err(NotAnInteger(parts[|parts| - 1]))
    ensures r.Ok? <==> "t.me" in parts && ParseChat(parts).Ok? && ParseInt(parts[|parts| - 1]).Some?
    ensures r.Ok? ==> r.value.chat == ParseChat(parts).value
                      && Some(r.value.messageId) == ParseInt(parts[|parts| - 1])
  {
    if "t.me" !in parts then Err(InvalidLink)
    else
      match ParseChat(parts)
      case Err(e) => Err(e)
      case Ok(chat) =>
        var last := parts[|parts| - 1];
        match ParseInt(last)
        case None => Err(NotAnInteger(last))
        case Some(id) => Ok(LinkTarget(chat, id))
  }

  /** The whole link: spaces removed, cut at '/', then parsed. */
  function ParseLink(link: string): Result<LinkTarget, LinkError> {
    ParseParts(Segments(link))
  }

  lemma Hundred()
    ensures AllDigits("100") && DigitsValue("100") == 100
  {
    assert "100"[..2] == "10" && "10"[..1] == "1";
  }

  lemma ScaleHundred(v: nat, p: nat)
    requires v == 100
    ensures v * p == 100 * p
  {
  }

  lemma HundredThen(d: string)
    requires AllDigits(d)
    ensures AllDigits("100" + d) && DigitsValue("100" + d) == 100 * Pow10(|d|) + DigitsValue(d)
  {
    Hundred();
    DigitsValueConcat("100", d);
    ScaleHundred(DigitsValue("100"), Pow10(|d|));
  }

  /** The magnitude of the channel id a private-channel segment `d` names:
      the digits of `d` written after "100". */
  function ChannelNumber(d: string): nat
    requires AllDigits(d)
  {
    100 * Pow10(|d|) + DigitsValue(d)
  }

  /** A private-channel segment of digits `d` reads as the channel id
      `-100d`. */
  lemma PrivateChannelId(d: string)
    requires AllDigits(d)
    ensures ParseInt(ChannelIdText(d)).Some?
    ensures ParseInt(ChannelIdText(d)).value == -(ChannelNumber(d) as int)
  {
    var body := "100" + d;
    HundredThen(d);
    ParseNegOf(ChannelIdText(d), body);
  }

  // ---------------------------------------------------------------------
  // Links built from a target parse back to that target
  // ---------------------------------------------------------------------

  /** A segment may appear between slashes of a link. */
  predicate PlainSegment(s: string) {
    '/' !in s && ' ' !in s
  }

  /** `https://t.me/c/<channel>/<id>`. */
  function PrivateLink(channel: string, id: nat): string {
    Join(["https:", "", "t.me", "c", channel, NatToString(id)], '/')
  }

  /** `https://t.me/<user>/<id>`. */
  function PublicLink(user: string, id: nat): string {
    Join(["https:", "", "t.me", user, NatToString(id)], '/')
  }

  lemma DigitsArePlain(d: string)
    requires AllDigits(d)
    ensures PlainSegment(d)
    ensures d != "c" && d != "t.me"
  {
    forall k | 0 <= k < |d| ensures d[k] != '/' && d[k] != ' ' {
      assert IsDigit(d[k]);
    }
    if |d| > 0 {
      assert IsDigit(d[0]);
    }
  }

  predicate AllPlain(parts: seq<string>) {
    forall i :: 0 <= i < |parts| ==> PlainSegment(parts[i])
  }

  lemma {:induction false} JoinHasNoSpace(parts: seq<string>)
    requires |parts| >= 1
    requires AllPlain(parts)
    ensures ' ' !in Join(parts, '/')
  {
    if |parts| > 1 {
      JoinHasNoSpace(parts[1..]);
    }
  }

  /** Joining plain segments with '/' and parsing gives the segments back. */
  lemma SegmentsOfJoin(parts: seq<string>)
    requires |parts| >= 1
    requires AllPlain(parts)
    ensures Segments(Join(parts, '/')) == parts
  {
    JoinHasNoSpace(parts);
    SplitJoin(parts, '/');
  }

  /** The private-link branch of `ParseLink` when every read succeeds. */
  lemma ParsePrivateBranch(link: string, channelId: int, id: int)
    requires "t.me" in Segments(link) && "c" in Segments(link) && |Segments(link)| > 4
    requires ParseInt(ChannelIdText(Segments(link)[4])) == Some(channelId)
    requires ParseInt(Segments(link)[|Segments(link)| - 1]) == Some(id)
    ensures ParseLink(link) == Ok(LinkTarget(ChatId(channelId), id))
  {
  }

  /** The public-link branch of `ParseLink` when every read succeeds. */
  lemma ParsePublicBranch(link: string, id: int)
    requires "t.me" in Segments(link) && "c" !in Segments(link) && |Segments(link)| > 3
    requires ParseInt(Segments(link)[|Segments(link)| - 1]) == Some(id)
    ensures ParseLink(link) == Ok(LinkTarget(ChatName(Segments(link)[3]), id))
  {
  }

  /** The segments of a well-formed private link, read as `ParseLink` does,
      once the channel text is known to parse. */
  lemma PrivateSegmentsParse(link: string, channel: string, m: string, channelId: int)
    requires |Segments(link)| == 6 && Segments(link)[2] == "t.me" && Segments(link)[3] == "c"
    requires Segments(link)[4] == channel && Segments(link)[5] == m
    requires |m| > 0 && AllDigits(m)
    requires ParseInt(ChannelIdText(channel)).Some? && ParseInt(ChannelIdText(channel)).value == channelId
    ensures ParseLink(link) == Ok(LinkTarget(ChatId(channelId), DigitsValue(m)))
  {
    assert "t.me" in Segments(link) && "c" in Segments(link);
    ParseNatDigits(m);
    ParsePrivateBranch(link, channelId, DigitsValue(m));
  }

  /** A private-channel link built from a channel number and a message id
      parses to that message id and to the channel id `int` reads from
      `-100<channel>`, whose value `PrivateChannelId` gives. */
  lemma PrivateLinkRoundTrip(channel: string, id: nat)
    requires AllDigits(channel)
    ensures ParseInt(ChannelIdText(channel)).Some?
    ensures ParseLink(PrivateLink(channel, id))
              == Ok(LinkTarget(ChatId(ParseInt(ChannelIdText(channel)).value), id))
  {
    var m := NatToString(id);
    var parts := ["https:", "", "t.me", "c", channel, m];
    DigitsArePlain(channel);
    DigitsArePlain(m);
    SegmentsOfJoin(parts);
    PrivateChannelId(channel);
    PrivateSegmentsParse(PrivateLink(channel, id), channel, m, ParseInt(ChannelIdText(channel)).value);
  }

  /** A public link built from a username and a message id parses to that
      username and message id, provided the username is a plain segment and
      not itself "c" or "t.me". */
  lemma PublicLinkRoundTrip(user: string, id: nat)
    requires PlainSegment(user) && user != "c" && user != "t.me"
    ensures ParseLink(PublicLink(user, id)) == Ok(LinkTarget(ChatName(user), id))
  {
    var m := NatToString(id);
    var parts := ["https:", "", "t.me", user, m];
    DigitsArePlain(m);
    SegmentsOfJoin(parts);
    assert parts[2] == "t.me";
    assert "c" !in parts;
    ParseNatDigits(m);
  }
}

=== FILE: sorting.dfy ===
/** An insertion sort over a total order on strings, standing in for
    Python's `sorted`: for a total order the sorted permutation of a list is
    unique, so any correct sort returns what this one returns. */
module Sorting {

  /** `leq` is a total order: total, antisymmetric and transitive. */
  ghost predicate TotalOrder(leq: (string, string) -> bool) {
    && (forall a, b :: leq(a, b) || leq(b, a))
    && (forall a, b :: leq(a, b) && leq(b, a) ==> a == b)
    && (forall a, b, c :: leq(a, b) && leq(b, c) ==> leq(a, c))
  }

  ghost predicate Sorted(s: seq<string>, leq: (string, string) -> bool) {
    forall i, j :: 0 <= i < j < |s| ==> leq(s[i], s[j])
  }

  /** Inserts `x` before the first element it is not above. */
  function Insert(x: string, s: seq<string>, leq: (string, string) -> bool): seq<string> {
    if |s| == 0 then [x]
    else if leq(x, s[0]) then [x] + s
    else [s[0]] + Insert(x, s[1..], leq)
  }

  function Sort(s: seq<string>, leq: (string, string) -> bool): seq<string> {
    if |s| == 0 then [] else Insert(s[0], Sort(s[1..], leq), leq)
  }

  lemma {:induction false} InsertPermutes(x: string, s: seq<string>, leq: (string, string) -> bool)
    ensures multiset(Insert(x, s, leq)) == multiset(s) + multiset{x}
  {
    if |s| > 0 && !leq(x, s[0]) {
      InsertPermutes(x, s[1..], leq);
      assert s == [s[0]] + s[1..];
    }
  }

  lemma {:induction false} InsertSorted(x: string, s: seq<string>, leq: (string, string) -> bool)
    requires TotalOrder(leq)
    requires Sorted(s, leq)
    ensures Sorted(Insert(x, s, leq), leq)
  {
    if |s| > 0 && !leq(x, s[0]) {
      var tail := Insert(x, s[1..], leq);
      InsertSorted(x, s[1..], leq);
      InsertPermutes(x, s[1..], leq);
      forall k | 0 <= k < |tail|
        ensures leq(s[0], tail[k])
      {
        assert tail[k] in multiset(tail);
        if tail[k] != x {
          assert tail[k] in multiset(s[1..]);
          var m :| 0 <= m < |s[1..]| && s[1..][m] == tail[k];
          assert s[m + 1] == tail[k];
        }
      }
    }
  }

  /** `Sort` returns a sorted permutation of its input. */
  lemma {:induction false} SortSpec(s: seq<string>, leq: (string, string) -> bool)
    requires TotalOrder(leq)
    ensures multiset(Sort(s, leq)) == multiset(s)
    ensures Sorted(Sort(s, leq), leq)
  {
    if |s| > 0 {
      SortSpec(s[1..], leq);
      InsertPermutes(s[0], Sort(s[1..], leq), leq);
      InsertSorted(s[0], Sort(s[1..], leq), leq);
      assert s == [s[0]] + s[1..];
    }
  }

  /** A list whose neighbours are already in order is returned unchanged. */
  lemma {:induction false} SortKeepsOrdered(s: seq<string>, leq: (string, string) -> bool)
    requires forall i :: 0 <= i < |s| - 1 ==> leq(s[i], s[i + 1])
    ensures Sort(s, leq) == s
  {
    if |s| > 0 {
      SortKeepsOrdered(s[1..], leq);
      assert s == [s[0]] + s[1..];
    }
  }

  /** Two sorted lists with the same elements start with the same element. */
  lemma SortedHeadsAgree(a: seq<string>, b: seq<string>, leq: (string, string) -> bool)
    requires TotalOrder(leq)
    requires Sorted(a, leq) && Sorted(b, leq)
    requires multiset(a) == multiset(b)
    requires |a| > 0
    ensures |b| > 0 && a[0] == b[0]
  {
    assert a[0] in multiset(b);
    assert |b| > 0;
    assert b[0] in multiset(a);
    var j :| 0 <= j < |b| && b[j] == a[0];
    var i :| 0 <= i < |a| && a[i] == b[0];
    assert leq(a[0], b[0]) by {
      if i > 0 {
        assert leq(a[0], a[i]);
      }
    }
    assert leq(b[0], a[0]) by {
      if j > 0 {
        assert leq(b[0], b[j]);
      }
    }
  }

  lemma TailsSameElements(a: seq<string>, b: seq<string>)
    requires |a| > 0 && |b| > 0 && a[0] == b[0]
    requires multiset(a) == multiset(b)
    ensures multiset(a[1..]) == multiset(b[1..])
  {
    assert a == [a[0]] + a[1..] && b == [b[0]] + b[1..];
    assert multiset(a[1..]) == multiset(a) - multiset{a[0]};
    assert multiset(b[1..]) == multiset(b) - multiset{b[0]};
  }

  /** Two sorted lists with the same elements are the same list. */
  lemma {:induction false} SortedUnique(a: seq<string>, b: seq<string>, leq: (string, string) -> bool)
    requires TotalOrder(leq)
    requires Sorted(a, leq) && Sorted(b, leq)
    requires multiset(a) == multiset(b)
    ensures a == b
    decreases |a|
  {
    if |a| == 0 {
      assert |b| == |multiset(b)| == 0;
    } else {
      SortedHeadsAgree(a, b, leq);
      TailsSameElements(a, b);
      SortedUnique(a[1..], b[1..], leq);
      assert a == [a[0]] + a[1..] && b == [b[0]] + b[1..];
    }
  }

  /** The sort depends only on which elements are given, not their order. */
  lemma SortIgnoresInputOrder(s: seq<string>, t: seq<string>, leq: (string, string) -> bool)
    requires TotalOrder(leq)
    requires multiset(s) == multiset(t)
    ensures Sort(s, leq) == Sort(t, leq)
  {
    SortSpec(s, leq);
    SortSpec(t, leq);
    SortedUnique(Sort(s, leq), Sort(t, leq), leq);
  }
}

=== FILE: text.dfy ===
/** The handful of Python string and path primitives the worker relies on:
    `str.strip()`, `str.replace(c, "")`, `str.split(sep)`, `int(text)` and
    the `name`, `stem` and `suffix` of a `pathlib.Path`, each stated over
    `seq<char>`. */
module Text {
  import opened Wrappers

  // ---------------------------------------------------------------------
  // Whitespace and str.strip()
  // ---------------------------------------------------------------------

  /** The ASCII characters Python's `str.isspace()` accepts. */
  predicate IsSpace(c: char) {
    c == ' ' || c == '\t' || c == '\n' || c == '\r' || c == '\U{0B}' || c == '\U{0C}'
    || c == '\U{1C}' || c == '\U{1D}' || c == '\U{1E}' || c == '\U{1F}'
  }

  function StripLeft(s: string): (r: string)
    ensures |r| <= |s| && r == s[|s| - |r|..]
    ensures forall k :: 0 <= k < |s| - |r| ==> IsSpace(s[k])
    ensures |r| > 0 ==> !IsSpace(r[0])
  {
    if |s| > 0 && IsSpace(s[0]) then StripLeft(s[1..]) else s
  }

  function StripRight(s: string): (r: string)
    ensures |r| <= |s| && r == s[..|r|]
    ensures forall k :: |r| <= k < |s| ==> IsSpace(s[k])
    ensures |r| > 0 ==> !IsSpace(r[|r| - 1])
  {
    if |s| > 0 && IsSpace(s[|s| - 1]) then StripRight(s[..|s| - 1]) else s
  }

  /** `str.strip()`: drops the whitespace at both ends. */
  function Strip(s: string): string {
    StripRight(StripLeft(s))
  }

  /** What `Strip` keeps: an infix of `s` that neither starts nor ends with
      whitespace, with only whitespace cut off on either side (and nothing
      left when `s` is all whitespace). */
  lemma StripSpec(s: string)
    ensures exists i, j ::
              && 0 <= i <= j <= |s| && Strip(s) == s[i..j]
              && (forall k :: 0 <= k < i ==> IsSpace(s[k]))
              && (forall k :: j <= k < |s| ==> IsSpace(s[k]))
    ensures |Strip(s)| > 0 ==> !IsSpace(Strip(s)[0]) && !IsSpace(Strip(s)[|Strip(s)| - 1])
    ensures |Strip(s)| == 0 <==> forall k :: 0 <= k < |s| ==> IsSpace(s[k])
  {
    var l := StripLeft(s);
    var r := StripRight(l);
    var i := |s| - |l|;
    var j := i + |r|;
    StripRightKeepsInfix(s, i, l, r);
    if |r| > 0 {
      assert r[0] == l[0];
    }
    if |r| == 0 {
      assert i == |s|;
    }
  }

  lemma StripRightKeepsInfix(s: string, i: nat, l: string, r: string)
    requires i <= |s| && l == s[i..]
    requires forall k :: 0 <= k < i ==> IsSpace(s[k])
    requires r == StripRight(l)
    ensures i + |r| <= |s| && r == s[i..i + |r|]
    ensures forall k :: i + |r| <= k < |s| ==> IsSpace(s[k])
  {
    forall k | i + |r| <= k < |s| ensures IsSpace(s[k]) {
      assert s[k] == l[k - i];
    }
  }

  /** Nothing happens to a string that already has no surrounding whitespace. */
  lemma StripNoop(s: string)
    requires |s| > 0 ==> !IsSpace(s[0]) && !IsSpace(s[|s| - 1])
    ensures Strip(s) == s
  {
  }

  // ---------------------------------------------------------------------
  // str.replace(c, "")
  // ---------------------------------------------------------------------

  /** `s.replace(c, "")` for a one-character `c`. */
  function RemoveChar(s: string, c: char): (r: string)
    ensures c !in r
    ensures |r| <= |s|
    ensures c !in s ==> r == s
    ensures forall x :: x != c ==> multiset(r)[x] == multiset(s)[x]
  {
    if |s| == 0 then ""
    else
      assert s == [s[0]] + s[1..];
      if s[0] == c then RemoveChar(s[1..], c) else [s[0]] + RemoveChar(s[1..], c)
  }

  /** Removing a character keeps the relative order of everything else: it
      distributes over concatenation. */
  lemma {:induction false} RemoveCharConcat(a: string, b: string, c: char)
    ensures RemoveChar(a + b, c) == RemoveChar(a, c) + RemoveChar(b, c)
    decreases |a|
  {
    if |a| > 0 {
      assert (a + b)[1..] == a[1..] + b;
      RemoveCharConcat(a[1..], b, c);
    } else {
      assert a + b == b;
    }
  }

  // ---------------------------------------------------------------------
  // str.split(sep) and its inverse, sep.join(parts)
  // ---------------------------------------------------------------------

  /** `sep.join(parts)` for a non-empty list of parts. */
  function Join(parts: seq<string>, sep: char): string
    requires |parts| > 0
  {
    if |parts| == 1 then parts[0] else parts[0] + [sep] + Join(parts[1..], sep)
  }

  /** `s.split(sep)` for a one-character separator: the pieces between
      separators, always at least one, none containing the separator, and
      re-joining them gives back `s`. */
  function SplitOn(s: string, sep: char): (parts: seq<string>)
    ensures |parts| >= 1
    ensures forall i :: 0 <= i < |parts| ==> sep !in parts[i]
    ensures Join(parts, sep) == s
  {
    if |s| == 0 then [""]
    else
      var rest := SplitOn(s[1..], sep);
      if s[0] == sep then
        assert s == [sep] + s[1..];
        [""] + rest
      else
        var parts := [[s[0]] + rest[0]] + rest[1..];
        assert parts[1..] == rest[1..];
        assert s == [s[0]] + s[1..];
        parts
  }

  /** Splitting a string that starts with `c`: a separator opens a new,
      empty first piece; any other character joins the first piece. */
  lemma SplitOnCons(c: char, t: string, sep: char)
    ensures SplitOn([c] + t, sep)
              == if c == sep then [""] + SplitOn(t, sep)
                 else [[c] + SplitOn(t, sep)[0]] + SplitOn(t, sep)[1..]
  {
    var s := [c] + t;
    assert s[0] == c && s[1..] == t;
  }

  /** Moving the first character of the first piece out of a join. */
  lemma JoinFirstChar(parts: seq<string>, sep: char)
    requires |parts| > 1 && |parts[0]| > 0
    ensures Join(parts, sep) == [parts[0][0]] + Join([parts[0][1..]] + parts[1..], sep)
  {
    var p0 := parts[0];
    var shorter := [p0[1..]] + parts[1..];
    assert shorter[0] == p0[1..] && shorter[1..] == parts[1..];
    assert p0 == [p0[0]] + p0[1..];
  }

  /** Splitting undoes joining, so the pieces `split` returns are exactly
      the pieces the separators delimit. */
  lemma {:induction false} SplitJoin(parts: seq<string>, sep: char)
    requires |parts| >= 1
    requires forall i :: 0 <= i < |parts| ==> sep !in parts[i]
    ensures SplitOn(Join(parts, sep), sep) == parts
    decreases |parts|, |parts[0]|
  {
    if |parts| == 1 {
      SplitNoSep(parts[0], sep);
    } else if |parts[0]| == 0 {
      var tail := Join(parts[1..], sep);
      assert Join(parts, sep) == [sep] + tail;
      SplitOnCons(sep, tail, sep);
      SplitJoin(parts[1..], sep);
      assert parts == [""] + parts[1..];
    } else {
      var p0 := parts[0];
      var shorter := [p0[1..]] + parts[1..];
      assert shorter[0] == p0[1..] && shorter[1..] == parts[1..];
      JoinFirstChar(parts, sep);
      assert p0[0] != sep;
      SplitOnCons(p0[0], Join(shorter, sep), sep);
      SplitJoin(shorter, sep);
      assert p0 == [p0[0]] + p0[1..];
      assert parts == [[p0[0]] + shorter[0]] + shorter[1..];
    }
  }

  lemma {:induction false} SplitNoSep(s: string, sep: char)
    requires sep !in s
    ensures SplitOn(s, sep) == [s]
  {
    if |s| > 0 {
      SplitNoSep(s[1..], sep);
      assert s == [s[0]] + s[1..];
    }
  }

  // ---------------------------------------------------------------------
  // Decimal digits, int(text) and str(n)
  // ---------------------------------------------------------------------

  predicate IsDigit(c: char) {
    '0' <= c <= '9'
  }

  predicate AllDigits(s: string) {
    forall k :: 0 <= k < |s| ==> IsDigit(s[k])
  }

  function DigitValue(c: char): nat
    requires IsDigit(c)
  {
    c as int - '0' as int
  }

  function DigitChar(d: nat): (c: char)
    requires d < 10
    ensures IsDigit(c) && DigitValue(c) == d
  {
    ('0' as int + d) as char
  }

  /** The number a run of decimal digits denotes, most significant first. */
  function DigitsValue(s: string): nat
    requires AllDigits(s)
  {
    if |s| == 0 then 0 else 10 * DigitsValue(s[..|s| - 1]) + DigitValue(s[|s| - 1])
  }

  function Pow10(n: nat): (p: nat)
    ensures p >= 1
  {
    if n == 0 then 1 else 10 * Pow10(n - 1)
  }

  lemma ShiftProduct(x: nat, y: nat)
    ensures 10 * (x * y) == x * (10 * y)
  {
  }

  /** Appending digits shifts the value of the leading digits left. */
  lemma {:induction false} DigitsValueConcat(a: string, b: string)
    requires AllDigits(a) && AllDigits(b)
    ensures AllDigits(a + b)
    ensures DigitsValue(a + b) == DigitsValue(a) * Pow10(|b|) + DigitsValue(b)
    decreases |b|
  {
    if |b| == 0 {
      assert a + b == a;
    } else {
      var b' := b[..|b| - 1];
      var x := a + b;
      assert x[..|x| - 1] == a + b';
      assert x[|x| - 1] == b[|b| - 1];
      DigitsValueConcat(a, b');
      ShiftProduct(DigitsValue(a), Pow10(|b'|));
      assert DigitsValue(x) == 10 * DigitsValue(a + b') + DigitValue(b[|b| - 1]);
      assert DigitsValue(b) == 10 * DigitsValue(b') + DigitValue(b[|b| - 1]);
    }
  }

  /** `str(n)` for a natural number: its shortest decimal rendering. */
  function NatToString(n: nat): (s: string)
    ensures |s| >= 1 && AllDigits(s)
    ensures DigitsValue(s) == n
    ensures |s| > 1 ==> s[0] != '0'
  {
    if n < 10 then [DigitChar(n)]
    else
      var s := NatToString(n / 10) + [DigitChar(n % 10)];
      assert s[..|s| - 1] == NatToString(n / 10);
      s
  }

  /** `str(i)` for any integer. */
  function IntToString(i: int): string {
    if i < 0 then "-" + NatToString(-i) else NatToString(i)
  }

  /** `int(text)` in base 10: surrounding whitespace is ignored, one optional
      sign, then at least one decimal digit; anything else is the
      `ValueError` the source would raise, here `None`. */
  function ParseInt(text: string): Option<int> {
    ParseStripped(Strip(text))
  }

  /** `int` once the surrounding whitespace is gone. */
  function ParseStripped(t: string): (r: Option<int>)
    ensures r.Some? ==> |t| > 0 && (IsDigit(t[0]) || t[0] == '-' || t[0] == '+')
  {
    if |t| > 0 && (t[0] == '-' || t[0] == '+') then
      var body := t[1..];
      if |body| > 0 && AllDigits(body) then
        Some(if t[0] == '-' then -(DigitsValue(body) as int) else DigitsValue(body))
      else None
    else if |t| > 0 && AllDigits(t) then Some(DigitsValue(t))
    else None
  }

  /** A run of digits reads back as its value. */
  lemma ParseNatDigits(d: string)
    requires |d| > 0 && AllDigits(d)
    ensures ParseInt(d) == Some(DigitsValue(d) as int)
  {
    assert IsDigit(d[0]) && IsDigit(d[|d| - 1]);
    StripNoop(d);
  }

  /** A minus sign followed by a run of digits reads back as the negated value. */
  lemma ParseNegDigits(t: string)
    requires |t| > 1 && t[0] == '-' && AllDigits(t[1..])
    ensures ParseInt(t) == Some(-(DigitsValue(t[1..]) as int))
  {
    assert t[|t| - 1] == t[1..][|t| - 2];
    StripNoop(t);
  }

  /** A minus sign followed by a run of digits, built by concatenation. */
  lemma ParseNegOf(t: string, body: string)
    requires |body| > 0 && AllDigits(body) && t == "-" + body
    ensures ParseInt(t) == Some(-(DigitsValue(body) as int))
  {
    assert t[|t| - 1] == body[|body| - 1];
    StripNoop(t);
    assert t[1..] == body;
  }

  /** `int(str(i)) == i`: parsing is a left inverse of rendering. */
  lemma ParseIntToString(i: int)
    ensures ParseInt(IntToString(i)) == Some(i)
  {
    if i < 0 {
      var t := IntToString(i);
      assert t[1..] == NatToString(-i);
      ParseNegDigits(t);
    } else {
      ParseNatDigits(NatToString(i));
    }
  }

  /** Text with no digit at all is never a number. */
  lemma ParseIntNeedsDigit(text: string)
    requires forall k :: 0 <= k < |text| ==> !IsDigit(text[k])
    ensures ParseInt(text) == None
  {
    var t := Strip(text);
    if |t| > 1 {
      assert t[1] in text;
    } else if |t| == 1 {
      assert t[0] in text;
    }
  }

  // ---------------------------------------------------------------------
  // ASCII case folding for path suffixes
  // ---------------------------------------------------------------------

  function LowerChar(c: char): char {
    if 'A' <= c <= 'Z' then (c as int + 32) as char else c
  }

  /** `str.lower()` restricted to ASCII letters. */
  function Lower(s: string): (r: string)
    ensures |r| == |s|
    ensures forall k :: 0 <= k < |s| ==> r[k] == LowerChar(s[k])
  {
    seq(|s|, k requires 0 <= k < |s| => LowerChar(s[k]))
  }

  // ---------------------------------------------------------------------
  // pathlib: name, stem, suffix
  // ---------------------------------------------------------------------

  /** `s.rfind(c)`: index of the last occurrence of `c`, or -1. */
  function RFind(s: string, c: char): (i: int)
    ensures -1 <= i < |s|
    ensures i >= 0 ==> s[i] == c && c !in s[i + 1..]
    ensures i == -1 ==> c !in s
  {
    if |s| == 0 then -1
    else if s[|s| - 1] == c then |s| - 1
    else
      var i := RFind(s[..|s| - 1], c);
      assert s == s[..|s| - 1] + [s[|s| - 1]];
      i
  }

  /** `Path(p).name`: the component after the last '/'. */
  function Name(p: string): (r: string)
    ensures '/' !in r
    ensures |r| <= |p| && r == p[|p| - |r|..]
    ensures |r| < |p| ==> p[|p| - |r| - 1] == '/'
  {
    var i := RFind(p, '/');
    p[i + 1..]
  }

  /** The index of the dot that starts `Path.suffix`, if there is one: the
      last dot, provided it is neither the first nor the last character. */
  function SuffixDot(name: string): (i: int)
    ensures i == -1 || (0 < i < |name| - 1 && name[i] == '.' && '.' !in name[i + 1..])
  {
    var i := RFind(name, '.');
    if 0 < i < |name| - 1 then i else -1
  }

  /** The suffix of a file name: from its suffix dot on, or "". */
  function NameSuffix(n: string): (r: string)
    ensures r == "" || (|r| >= 2 && r[0] == '.' && '.' !in r[1..])
  {
    var i := SuffixDot(n);
    if i == -1 then "" else n[i..]
  }

  /** The stem of a file name: up to its suffix dot, or all of it. */
  function NameStem(n: string): string {
    var i := SuffixDot(n);
    if i == -1 then n else n[..i]
  }

  /** `Path(p).suffix`. */
  function Suffix(p: string): string {
    NameSuffix(Name(p))
  }

  /** `Path(p).stem`. */
  function Stem(p: string): string {
    NameStem(Name(p))
  }

  lemma NameStemSuffix(n: string)
    ensures NameStem(n) + NameSuffix(n) == n
  {
    var i := SuffixDot(n);
    if i != -1 {
      assert n == n[..i] + n[i..];
    }
  }

  /** A file name is its stem followed by its suffix. */
  lemma StemSuffixName(p: string)
    ensures Stem(p) + Suffix(p) == Name(p)
  {
    NameStemSuffix(Name(p));
  }

  /** `RFind` finds an occurrence with no later occurrence. */
  lemma {:induction false} RFindLast(s: string, c: char, j: nat)
    requires j < |s| && s[j] == c && c !in s[j + 1..]
    ensures RFind(s, c) == j
  {
    if s[|s| - 1] != c {
      assert j < |s| - 1;
      var t := s[..|s| - 1];
      assert t[j + 1..] == s[j + 1..|s| - 1];
      RFindLast(t, c, j);
    }
  }

  /** A dot-led extension with no further dot. */
  predicate Extension(e: string) {
    |e| >= 2 && e[0] == '.' && '.' !in e[1..]
  }

  lemma LowerSlice(n: string, i: nat)
    requires i <= |n|
    ensures Lower(n)[i..] == Lower(n[i..])
  {
  }

  lemma EndingFromSuffix(n: string, e: string)
    requires Extension(e) && Lower(NameSuffix(n)) == e
    ensures EndsWithExt(n, e)
  {
    LowerSlice(n, SuffixDot(n));
  }

  /** Where a name ends with an extension, the extension's dot is the
      last dot of the name. */
  lemma LastDotOfEnding(n: string, e: string)
    requires Extension(e) && EndsWithExt(n, e)
    ensures n[|n| - |e|] == '.' && '.' !in n[|n| - |e| + 1..]
  {
    var j := |n| - |e|;
    var l := Lower(n);
    assert l[j] == e[0];
    forall k | j < k < |n| ensures n[k] != '.' {
      assert l[k] == e[k - j];
      assert e[k - j] in e[1..];
    }
  }

  lemma SuffixFromEnding(n: string, e: string)
    requires Extension(e) && EndsWithExt(n, e)
    ensures Lower(NameSuffix(n)) == e
  {
    var j := |n| - |e|;
    LastDotOfEnding(n, e);
    RFindLast(n, '.', j);
    assert SuffixDot(n) == j;
    LowerSlice(n, j);
  }

  /** The file name `n`, lower-cased, ends with the extension `e` and has
      at least one character before it. */
  predicate EndsWithExt(n: string, e: string) {
    |n| > |e| && Lower(n)[|n| - |e|..] == e
  }

  /** The same for the file name of `path`. */
  predicate NameEndsWith(path: string, e: string) {
    EndsWithExt(Name(path), e)
  }

  /** The lower-cased suffix of a path is the extension `e` exactly when the
      lower-cased file name ends with `e` and has something before it. */
  lemma SuffixByEnding(p: string, e: string)
    requires Extension(e)
    ensures Lower(Suffix(p)) == e <==> NameEndsWith(p, e)
  {
    var n := Name(p);
    if Lower(NameSuffix(n)) == e {
      EndingFromSuffix(n, e);
    }
    if EndsWithExt(n, e) {
      SuffixFromEnding(n, e);
    }
  }
}

=== FILE: worker.dfy ===
/** The background worker: the commands the interface queues, what each
    one asks of the Telegram client, what it logs and what result it
    returns. The client and the server behind it are an environment that
    answers each call, in order, by returning or by raising an error. */
module Worker {
  import opened Wrappers
  import opened Text
  import opened Files
  import opened Lists
  import opened Media
  import opened ShareLink
  import opened Profiles

  // ---------------------------------------------------------------------
  // Client calls and the environment answering them
  // ---------------------------------------------------------------------

  /** A call the worker makes on the client (or, for `SaveFrame`, on the
      video library extracting a thumbnail frame). */
  datatype Call =
    | StartClient(args: ClientArgs)
    | GetMe
    | StopClient
    | SaveFrame(video: string, thumb: string)
    | SendFile(send: Send)
    | GetMessages(chat: Chat, id: int)
    | DownloadMedia(chat: Chat, id: int, dir: string)

  datatype Reply = Returns | Raises(error: string)

  /** Everything the worker cannot see: the answer to the k-th call made
      in the session, the account `get_me` reports at call k, the media of
      each message, whether the video library is installed, and the
      application directory. */
  datatype Env = Env(
    reply: nat -> Reply,
    me: nat -> string,
    message: (Chat, int) -> Message,
    hasMoviepy: bool,
    workdir: string)

  datatype LogEntry = LogEntry(level: string, message: string)

  /** The worker's state: the current client (the arguments it was created
      with), the files on disk, every call made so far, and the log buffer. */
  datatype State = State(
    client: Option<ClientArgs>,
    fs: FileSystem,
    calls: seq<Call>,
    log: seq<LogEntry>)

  /** How a piece of work ended: normally, or with an exception. */
  datatype Outcome = Done | Raised(error: string)

  datatype After = After(st: State, outcome: Outcome)

  /** Makes one call; the environment answers it by its position. */
  function Invoke(env: Env, st: State, c: Call): (a: After)
    ensures a.st == st.(calls := st.calls + [c])
    ensures a.outcome.Done? <==> env.reply(|st.calls|).Returns?
    ensures a.outcome.Raised? ==> env.reply(|st.calls|) == Raises(a.outcome.error)
  {
    match env.reply(|st.calls|)
    case Returns => After(st.(calls := st.calls + [c]), Done)
    case Raises(e) => After(st.(calls := st.calls + [c]), Raised(e))
  }

  /** The last call in `calls` raised `error`. */
  predicate LastRaised(env: Env, calls: seq<Call>, error: string) {
    |calls| > 0 && env.reply(|calls| - 1) == Raises(error)
  }

  /** The last call in `calls` is `c` and returned. */
  predicate LastReturned(env: Env, calls: seq<Call>, c: Call) {
    |calls| > 0 && calls[|calls| - 1] == c && env.reply(|calls| - 1).Returns?
  }

  /** Every call made at a position from `from` up to `to` returns. */
  predicate RepliesReturn(env: Env, from: nat, to: nat) {
    forall k :: from <= k < to ==> env.reply(k).Returns?
  }

  /** A sequence is its prefix followed by the rest. */
  lemma PrefixSplit<T>(s: seq<T>, t: seq<T>)
    requires |t| <= |s| && s[..|t|] == t
    ensures s == t + s[|t|..]
  {
  }

  lemma AppendAssoc<T>(a: seq<T>, b: seq<T>, c: seq<T>)
    ensures a + b + c == a + (b + c)
  {
  }

  lemma SuffixAfter<T>(s: seq<T>, t: seq<T>)
    ensures (s + t)[|s|..] == t
  {
  }

  /** `_log`: one entry into the bounded buffer. */
  function Log(st: State, level: string, message: string): State {
    st.(log := AppendLog(st.log, LogEntry(level, message)))
  }

  // ---------------------------------------------------------------------
  // Uploading one file
  // ---------------------------------------------------------------------

  /** A call made on behalf of the file at `p`. */
  predicate Concerns(c: Call, p: string) {
    (c.SaveFrame? && c.video == p) || (c.SendFile? && c.send.path == p)
  }

  /** `s[:n]`. */
  function Take(s: string, n: nat): (r: string)
    ensures |r| <= n && r <= s
    ensures |s| <= n ==> r == s
  {
    if |s| <= n then s else s[..n]
  }

  /** The entry announcing an upload: the name sent, and the first 50
      characters of the caption text or "none". */
  function UploadingMessage(fileName: string, caption: string): string {
    "Uploading: " + fileName + " (caption: " + (if caption == "" then "none" else Take(caption, 50)) + "...)"
  }

  function UploadedMessage(fileName: string): string {
    "Uploaded: " + fileName
  }

  function UploadFailedMessage(error: string): string {
    "Upload failed: " + error
  }

  /** The client calls of an upload that goes through: the thumbnail frame
      when one is planned, then the send call. */
  function UploadCalls(plan: Plan, path: string): seq<Call> {
    (if plan.frame.Some? then [SaveFrame(path, plan.frame.value)] else []) + [SendFile(plan.send)]
  }

  /** The client calls of one upload: the frame extraction when planned,
      then the send call unless the extraction raised. */
  function SendStage(env: Env, st: State, plan: Plan, path: string): (a: After)
    requires plan.send.path == path
    ensures a.st == st.(calls := a.st.calls)
    ensures |st.calls| < |a.st.calls| <= |st.calls| + 2 && a.st.calls[..|st.calls|] == st.calls
    ensures forall k :: |st.calls| <= k < |a.st.calls| ==> Concerns(a.st.calls[k], path)
    ensures a.outcome.Done? ==> a.st.calls == st.calls + UploadCalls(plan, path)
    ensures a.outcome.Done? <==> LastReturned(env, a.st.calls, SendFile(plan.send))
    ensures a.outcome.Raised? ==> LastRaised(env, a.st.calls, a.outcome.error)
  {
    if plan.frame.Some? then
      var framed := Invoke(env, st, SaveFrame(path, plan.frame.value));
      if framed.outcome.Raised? then framed else Invoke(env, framed.st, SendFile(plan.send))
    else Invoke(env, st, SendFile(plan.send))
  }

  /** One file upload with everything decided before the first call: the
      file, its plan, the announcement, the name reported on success and
      whether to delete the original. */
  datatype Job = Job(path: string, plan: Plan, announce: string, fileName: string, delete: bool)

  predicate ValidJob(j: Job) {
    j.plan.send.path == j.path
  }

  /** The job `_worker_upload_single_file` derives from its arguments. */
  function JobFor(args: UploadArgs, hasMoviepy: bool): (j: Job)
    ensures ValidJob(j) && j.path == args.path && j.delete == args.deleteOriginal
    ensures j.plan == PlanUpload(args, hasMoviepy)
    ensures j.fileName == FileName(args)
    ensures j.announce == UploadingMessage(FileName(args), CaptionText(args))
  {
    Job(args.path, PlanUpload(args, hasMoviepy), UploadingMessage(FileName(args), CaptionText(args)),
        FileName(args), args.deleteOriginal)
  }

  /** Running a job: announce, make the client calls, then either log the
      failure or delete the original if asked and log the success. */
  function UploadJob(env: Env, st: State, j: Job): (a: After)
    requires ValidJob(j)
    ensures a.st.client == st.client
    ensures |st.calls| < |a.st.calls| <= |st.calls| + 2 && a.st.calls[..|st.calls|] == st.calls
    ensures forall k :: |st.calls| <= k < |a.st.calls| ==> Concerns(a.st.calls[k], j.path)
    ensures a.st.fs == if a.outcome.Done? && j.delete then Remove(st.fs, j.path) else st.fs
    ensures 0 < |a.st.log| <= MaxLogMessages
  {
    var sent := SendStage(env, Log(st, "INFO", j.announce), j.plan, j.path);
    if sent.outcome.Raised? then
      After(Log(sent.st, "ERROR", UploadFailedMessage(sent.outcome.error)), sent.outcome)
    else
      var st2 := if j.delete then sent.st.(fs := Remove(sent.st.fs, j.path)) else sent.st;
      After(Log(st2, "INFO", UploadedMessage(j.fileName)), Done)
  }

  /** A job ends normally exactly when its send call returned; then the
      calls made are the planned ones and the success is logged, otherwise
      the error of the raised call is logged. */
  lemma UploadJobOutcome(env: Env, st: State, j: Job)
    requires ValidJob(j)
    ensures var a := UploadJob(env, st, j);
            && (a.outcome.Done? <==> LastReturned(env, a.st.calls, SendFile(j.plan.send)))
            && (a.outcome.Done? ==> a.st.calls == st.calls + UploadCalls(j.plan, j.path))
            && (a.outcome.Raised? ==> LastRaised(env, a.st.calls, a.outcome.error))
            && a.st.log[|a.st.log| - 1] ==
                 if a.outcome.Done? then LogEntry("INFO", UploadedMessage(j.fileName))
                 else LogEntry("ERROR", UploadFailedMessage(a.outcome.error))
  {
    var sent := SendStage(env, Log(st, "INFO", j.announce), j.plan, j.path);
    var a := UploadJob(env, st, j);
    if sent.outcome.Raised? {
      assert a == After(Log(sent.st, "ERROR", UploadFailedMessage(sent.outcome.error)), sent.outcome);
      assert a.st.calls == sent.st.calls;
    } else {
      var st2 := if j.delete then sent.st.(fs := Remove(sent.st.fs, j.path)) else sent.st;
      assert a == After(Log(st2, "INFO", UploadedMessage(j.fileName)), Done);
      assert a.st.calls == sent.st.calls;
    }
  }

  /** `_worker_upload_single_file`: announce the name sent and the caption,
      extract the thumbnail frame if planned, send, delete the original if
      asked, and log the result. A raised call stops the upload, is logged
      as a failure and re-raised. */
  function UploadFile(env: Env, st: State, args: UploadArgs): (a: After)
    ensures a.st.client == st.client
    ensures |st.calls| < |a.st.calls| <= |st.calls| + 2 && a.st.calls[..|st.calls|] == st.calls
    ensures forall k :: |st.calls| <= k < |a.st.calls| ==> Concerns(a.st.calls[k], args.path)
    ensures a.outcome.Done? ==>
              a.st.calls == st.calls + UploadCalls(PlanUpload(args, env.hasMoviepy), args.path)
    ensures a.outcome.Done? <==> LastReturned(env, a.st.calls, SendFile(PlanUpload(args, env.hasMoviepy).send))
    ensures a.outcome.Raised? ==> LastRaised(env, a.st.calls, a.outcome.error)
    ensures a.st.fs == if a.outcome.Done? && args.deleteOriginal then Remove(st.fs, args.path) else st.fs
    ensures 0 < |a.st.log| <= MaxLogMessages
    ensures a.st.log[|a.st.log| - 1] ==
              if a.outcome.Done? then LogEntry("INFO", UploadedMessage(FileName(args)))
              else LogEntry("ERROR", UploadFailedMessage(a.outcome.error))
  {
    UploadJobOutcome(env, st, JobFor(args, env.hasMoviepy));
    UploadJob(env, st, JobFor(args, env.hasMoviepy))
  }

  // ---------------------------------------------------------------------
  // Uploading a folder
  // ---------------------------------------------------------------------

  /** One file of a folder upload: its path, the calls made for it and how
      its upload ended. */
  datatype Attempt = Attempt(path: string, calls: seq<Call>, outcome: Outcome)

  function AttemptCalls(attempts: seq<Attempt>): seq<Call> {
    if |attempts| == 0 then [] else attempts[0].calls + AttemptCalls(attempts[1..])
  }

  lemma AttemptCallsCons(a: Attempt, rest: seq<Attempt>)
    ensures AttemptCalls([a] + rest) == a.calls + AttemptCalls(rest)
  {
    assert ([a] + rest)[1..] == rest;
  }

  /** The attempt made for a job: for its file, with at least one call, and
      every call on behalf of that file. */
  predicate Fits(a: Attempt, j: Job) {
    a.path == j.path && |a.calls| > 0 && forall k :: 0 <= k < |a.calls| ==> Concerns(a.calls[k], j.path)
  }

  lemma FitsCons(a: Attempt, rest: seq<Attempt>, jobs: seq<Job>)
    requires |jobs| == |rest| + 1 && Fits(a, jobs[0])
    requires forall i :: 0 <= i < |rest| ==> Fits(rest[i], jobs[1..][i])
    ensures forall i :: 0 <= i < |jobs| ==> Fits(([a] + rest)[i], jobs[i])
  {
    forall i | 0 < i < |jobs| ensures Fits(([a] + rest)[i], jobs[i]) {
      assert ([a] + rest)[i] == rest[i - 1] && jobs[i] == jobs[1..][i - 1];
    }
  }

  function UploadErrorMessage(path: string, error: string): string {
    "Error uploading " + path + ": " + error
  }

  /** The folder loop's handler: a failed file is logged and swallowed. */
  function Report(st: State, path: string, outcome: Outcome): (r: State)
    ensures r.client == st.client && r.fs == st.fs && r.calls == st.calls
    ensures outcome.Done? ==> r == st
    ensures outcome.Raised? ==>
              r.log == AppendLog(st.log, LogEntry("ERROR", "Error uploading " + path + ": " + outcome.error))
    ensures |st.log| <= MaxLogMessages ==> |r.log| <= MaxLogMessages
  {
    if outcome.Raised? then Log(st, "ERROR", UploadErrorMessage(path, outcome.error)) else st
  }

  /** Calls past position `n` that all concern `p` still do once the first
      `n` are cut off. */
  lemma ConcernsAfter(s: seq<Call>, n: nat, p: string)
    requires n <= |s| && forall k :: n <= k < |s| ==> Concerns(s[k], p)
    ensures forall k :: 0 <= k < |s[n..]| ==> Concerns(s[n..][k], p)
  {
    forall k | 0 <= k < |s[n..]| ensures Concerns(s[n..][k], p) {
      assert s[n..][k] == s[n + k];
    }
  }

  /** An attempt's outcome is what the environment answered: after its
      calls `calls`, it ended normally exactly when its last call was the
      job's send call and returned, and a failure's last call raised the
      recorded error. */
  predicate AttemptAnswered(env: Env, calls: seq<Call>, a: Attempt, j: Job) {
    && (a.outcome.Done? <==> LastReturned(env, calls, SendFile(j.plan.send)))
    && (a.outcome.Raised? ==> LastRaised(env, calls, a.outcome.error))
  }

  /** The state after one file of a folder and the attempt made for it. */
  datatype Tried = Tried(st: State, attempt: Attempt)

  /** One file of a folder: its job runs, and a failure is reported. */
  function TryJob(env: Env, st: State, j: Job): (t: Tried)
    requires ValidJob(j)
    ensures t.st.client == st.client
    ensures Fits(t.attempt, j)
    ensures t.attempt.outcome == UploadJob(env, st, j).outcome
    ensures t.st == Report(UploadJob(env, st, j).st, j.path, t.attempt.outcome)
    ensures AttemptAnswered(env, t.st.calls, t.attempt, j)
    ensures t.st.calls == st.calls + t.attempt.calls
    ensures forall p :: p in t.st.fs ==> p in st.fs && t.st.fs[p] == st.fs[p]
    ensures |t.st.log| <= MaxLogMessages
  {
    var a := UploadJob(env, st, j);
    UploadJobOutcome(env, st, j);
    PrefixSplit(a.st.calls, st.calls);
    ConcernsAfter(a.st.calls, |st.calls|, j.path);
    Tried(Report(a.st, j.path, a.outcome), Attempt(j.path, a.st.calls[|st.calls|..], a.outcome))
  }

  datatype FolderRun = FolderRun(st: State, attempts: seq<Attempt>)

  /** The loop of `_worker_upload_folder`: each job run in turn; a failure
      is logged and the loop goes on with the next file. */
  function UploadEach(env: Env, st: State, jobs: seq<Job>): (r: FolderRun)
    requires forall i :: 0 <= i < |jobs| ==> ValidJob(jobs[i])
    ensures r.st.client == st.client
    ensures |r.attempts| == |jobs|
    ensures forall i :: 0 <= i < |jobs| ==> Fits(r.attempts[i], jobs[i])
    ensures r.st.calls == st.calls + AttemptCalls(r.attempts)
    ensures forall p :: p in r.st.fs ==> p in st.fs && r.st.fs[p] == st.fs[p]
    ensures |st.log| <= MaxLogMessages ==> |r.st.log| <= MaxLogMessages
    decreases |jobs|
  {
    if |jobs| == 0 then FolderRun(st, [])
    else
      var t := TryJob(env, st, jobs[0]);
      var rest := UploadEach(env, t.st, jobs[1..]);
      AttemptCallsCons(t.attempt, rest.attempts);
      AppendAssoc(st.calls, t.attempt.calls, AttemptCalls(rest.attempts));
      FitsCons(t.attempt, rest.attempts, jobs);
      FolderRun(rest.st, [t.attempt] + rest.attempts)
  }

  /** Every attempt of `attempts` is answered: the i-th one, looked at
      after the calls of the first i + 1 attempts made from `calls` on. */
  predicate AttemptsAnswered(env: Env, calls: seq<Call>, attempts: seq<Attempt>, jobs: seq<Job>) {
    && |attempts| == |jobs|
    && forall i :: 0 <= i < |jobs| ==>
         AttemptAnswered(env, calls + AttemptCalls(attempts[..i + 1]), attempts[i], jobs[i])
  }

  /** `AttemptsAnswered`, attempt by attempt. */
  predicate AttemptsInTurn(env: Env, calls: seq<Call>, attempts: seq<Attempt>, jobs: seq<Job>)
    decreases |jobs|
  {
    && |attempts| == |jobs|
    && (|jobs| > 0 ==>
          && AttemptAnswered(env, calls + attempts[0].calls, attempts[0], jobs[0])
          && AttemptsInTurn(env, calls + attempts[0].calls, attempts[1..], jobs[1..]))
  }

  lemma {:induction false} AttemptsInOrder(env: Env, calls: seq<Call>, attempts: seq<Attempt>, jobs: seq<Job>)
    requires AttemptsInTurn(env, calls, attempts, jobs)
    ensures AttemptsAnswered(env, calls, attempts, jobs)
    decreases |jobs|
  {
    if |jobs| > 0 {
      var a, rest, mid := attempts[0], attempts[1..], calls + attempts[0].calls;
      AttemptsInOrder(env, mid, rest, jobs[1..]);
      assert attempts == [a] + rest;
      forall i | 0 <= i < |jobs|
        ensures AttemptAnswered(env, calls + AttemptCalls(attempts[..i + 1]), attempts[i], jobs[i])
      {
        assert attempts[..i + 1] == [a] + rest[..i];
        AttemptCallsCons(a, rest[..i]);
        AppendAssoc(calls, a.calls, AttemptCalls(rest[..i]));
        if i > 0 {
          assert attempts[i] == rest[i - 1] && jobs[i] == jobs[1..][i - 1] && rest[..i] == rest[..(i - 1) + 1];
        } else {
          assert rest[..0] == [];
        }
      }
    }
  }

  lemma {:induction false} UploadEachInTurn(env: Env, st: State, jobs: seq<Job>)
    requires forall i :: 0 <= i < |jobs| ==> ValidJob(jobs[i])
    ensures AttemptsInTurn(env, st.calls, UploadEach(env, st, jobs).attempts, jobs)
    decreases |jobs|
  {
    if |jobs| > 0 {
      var t := TryJob(env, st, jobs[0]);
      var rest := UploadEach(env, t.st, jobs[1..]);
      UploadEachInTurn(env, t.st, jobs[1..]);
      assert ([t.attempt] + rest.attempts)[1..] == rest.attempts;
    }
  }

  /** Every attempt of the folder loop is its file's upload as the
      environment answered it: the i-th attempt, looked at after the calls
      of the first i + 1 attempts, ended normally exactly when its last call
      was that file's send call and returned, and otherwise carries the
      error its last call raised. */
  lemma UploadEachAnswers(env: Env, st: State, jobs: seq<Job>)
    requires forall i :: 0 <= i < |jobs| ==> ValidJob(jobs[i])
    ensures AttemptsAnswered(env, st.calls, UploadEach(env, st, jobs).attempts, jobs)
  {
    UploadEachInTurn(env, st, jobs);
    AttemptsInOrder(env, st.calls, UploadEach(env, st, jobs).attempts, jobs);
  }

  /** The folder loop over one job is that job tried once. */
  lemma UploadEachOne(env: Env, st: State, j: Job)
    requires ValidJob(j)
    ensures UploadEach(env, st, [j]) == FolderRun(TryJob(env, st, j).st, [TryJob(env, st, j).attempt])
  {
    assert [j][1..] == [];
  }

  lemma ValidJobsAppend(xs: seq<Job>, ys: seq<Job>)
    requires forall i :: 0 <= i < |xs| ==> ValidJob(xs[i])
    requires forall i :: 0 <= i < |ys| ==> ValidJob(ys[i])
    ensures forall i :: 0 <= i < |xs + ys| ==> ValidJob((xs + ys)[i])
  {
    forall i | 0 <= i < |xs + ys| ensures ValidJob((xs + ys)[i]) {
      if i >= |xs| { assert (xs + ys)[i] == ys[i - |xs|]; }
    }
  }

  /** The folder loop over a first job and the rest: that job tried, then
      the loop over the rest from the state it left. */
  lemma UploadEachCons(env: Env, st: State, j: Job, rest: seq<Job>)
    requires ValidJob(j) && forall i :: 0 <= i < |rest| ==> ValidJob(rest[i])
    ensures forall i :: 0 <= i < |[j] + rest| ==> ValidJob(([j] + rest)[i])
    ensures var t := TryJob(env, st, j);
            var r := UploadEach(env, t.st, rest);
            UploadEach(env, st, [j] + rest) == FolderRun(r.st, [t.attempt] + r.attempts)
  {
    ValidJobsAppend([j], rest);
    assert ([j] + rest)[0] == j && ([j] + rest)[1..] == rest;
  }

  /** The folder loop over jobs cut in two is the loop over the first part,
      then the loop over the second from the state it left; with
      `UploadEachOne` this makes the loop the fold of `TryJob` over the
      jobs, threading the state. */
  lemma {:induction false} UploadEachAppend(env: Env, st: State, xs: seq<Job>, ys: seq<Job>)
    requires forall i :: 0 <= i < |xs| ==> ValidJob(xs[i])
    requires forall i :: 0 <= i < |ys| ==> ValidJob(ys[i])
    ensures forall i :: 0 <= i < |xs + ys| ==> ValidJob((xs + ys)[i])
    ensures var a := UploadEach(env, st, xs);
            var b := UploadEach(env, a.st, ys);
            UploadEach(env, st, xs + ys) == FolderRun(b.st, a.attempts + b.attempts)
    decreases |xs|
  {
    ValidJobsAppend(xs, ys);
    if |xs| == 0 {
      assert xs + ys == ys;
    } else {
      var j, rest := xs[0], xs[1..];
      assert xs == [j] + rest && xs + ys == [j] + (rest + ys);
      var t := TryJob(env, st, j);
      UploadEachAppend(env, t.st, rest, ys);
      UploadEachCons(env, st, j, rest);
      UploadEachCons(env, st, j, rest + ys);
      var a := UploadEach(env, t.st, rest);
      var b := UploadEach(env, a.st, ys);
      AppendAssoc([t.attempt], a.attempts, b.attempts);
    }
  }

  /** The jobs of a folder upload: the folder's settings with each file's
      own path. */
  function FolderJobs(args: UploadArgs, files: seq<string>, hasMoviepy: bool): (jobs: seq<Job>)
    ensures |jobs| == |files|
    ensures forall i :: 0 <= i < |files| ==>
              jobs[i] == JobFor(args.(path := files[i]), hasMoviepy) && ValidJob(jobs[i])
  {
    seq(|files|, i requires 0 <= i < |files| => JobFor(args.(path := files[i]), hasMoviepy))
  }

  /** `_worker_upload_folder`: every file of the folder (direct entries, or
      everything below with `recursive`) is attempted, in enumeration order,
      whatever happened to the files before it. */
  function UploadFolder(env: Env, st: State, args: UploadArgs): (r: FolderRun)
    requires IsFolder(st.fs, args.path)
    ensures r.st.calls == st.calls + AttemptCalls(r.attempts)
    ensures r.st.client == st.client
    ensures |st.log| <= MaxLogMessages ==> |r.st.log| <= MaxLogMessages
  {
    UploadEach(env, st, FolderJobs(args, FolderFiles(st.fs, args.path, args.recursive), env.hasMoviepy))
  }

  /** A folder upload makes one attempt per file of the folder, in
      enumeration order, each for that file. */
  lemma UploadFolderVisits(env: Env, st: State, args: UploadArgs)
    requires IsFolder(st.fs, args.path)
    ensures var r := UploadFolder(env, st, args);
            && |r.attempts| == |FolderFiles(st.fs, args.path, args.recursive)|
            && forall i :: 0 <= i < |r.attempts| ==>
                 r.attempts[i].path == FolderFiles(st.fs, args.path, args.recursive)[i]
                 && IsFile(st.fs, r.attempts[i].path)
  {
    var files := FolderFiles(st.fs, args.path, args.recursive);
    var jobs := FolderJobs(args, files, env.hasMoviepy);
    var r := UploadEach(env, st, jobs);
    forall i | 0 <= i < |r.attempts|
      ensures r.attempts[i].path == files[i] && IsFile(st.fs, files[i])
    {
      assert Fits(r.attempts[i], jobs[i]);
    }
  }

  /** The upload command's dispatch on the path: a file is uploaded, a
      folder's files are uploaded, and anything else is passed over. */
  function UploadPath(env: Env, st: State, args: UploadArgs): (a: After)
    ensures a.st.client == st.client
    ensures |st.log| <= MaxLogMessages ==> |a.st.log| <= MaxLogMessages
    ensures a.outcome.Raised? ==> IsFile(st.fs, args.path)
    ensures IsFile(st.fs, args.path) ==> a == UploadFile(env, st, args)
    ensures IsFolder(st.fs, args.path) ==> a == After(UploadFolder(env, st, args).st, Done)
    ensures !IsFile(st.fs, args.path) && !IsFolder(st.fs, args.path) ==> a == After(st, Done)
  {
    if IsFile(st.fs, args.path) then UploadFile(env, st, args)
    else if IsFolder(st.fs, args.path) then After(UploadFolder(env, st, args).st, Done)
    else After(st, Done)
  }

  // ---------------------------------------------------------------------
  // Batch upload
  // ---------------------------------------------------------------------

  /** What became of one queued item. */
  datatype ItemOutcome =
    | Skipped
    | FileSent(calls: seq<Call>)
    | FileFailed(calls: seq<Call>, error: string)
    | FolderSent(attempts: seq<Attempt>)

  function ItemCalls(o: ItemOutcome): seq<Call> {
    match o
    case Skipped => []
    case FileSent(calls) => calls
    case FileFailed(calls, _) => calls
    case FolderSent(attempts) => AttemptCalls(attempts)
  }

  function OutcomeCalls(os: seq<ItemOutcome>): seq<Call> {
    if |os| == 0 then [] else ItemCalls(os[0]) + OutcomeCalls(os[1..])
  }

  lemma OutcomeCallsCons(o: ItemOutcome, rest: seq<ItemOutcome>)
    ensures OutcomeCalls([o] + rest) == ItemCalls(o) + OutcomeCalls(rest)
  {
    assert ([o] + rest)[1..] == rest;
  }

  /** The outcome of a queued item is about that item: an uploaded or
      failed file made calls, all on behalf of the item's path. */
  predicate Serves(o: ItemOutcome, args: UploadArgs) {
    (o.FileSent? || o.FileFailed?) ==>
      |o.calls| > 0 && forall k :: 0 <= k < |o.calls| ==> Concerns(o.calls[k], args.path)
  }

  /** A file item's tag is what the environment answered: after its calls
      `calls`, a failed file's last call raised the recorded error, and a
      sent file's last call was its send call, which returned. */
  predicate ItemAnswered(env: Env, calls: seq<Call>, o: ItemOutcome, job: Job) {
    && (o.FileFailed? ==> LastRaised(env, calls, o.error))
    && (o.FileSent? ==> LastReturned(env, calls, SendFile(job.plan.send)))
  }

  lemma ServesCons(o: ItemOutcome, rest: seq<ItemOutcome>, list: seq<UploadArgs>, i: nat)
    requires i < |list| && |rest| <= |list| - i - 1 && Serves(o, list[i])
    requires forall k :: 0 <= k < |rest| ==> Serves(rest[k], list[i + 1 + k])
    ensures forall k :: 0 <= k < |rest| + 1 ==> Serves(([o] + rest)[k], list[i + k])
  {
    forall k | 0 < k < |rest| + 1 ensures Serves(([o] + rest)[k], list[i + k]) {
      assert ([o] + rest)[k] == rest[k - 1];
    }
  }

  /** The batch stops at its first failed file: no outcome before the last
      is a failure, and the outcomes stop short of the queue only after one. */
  predicate StopsAtFailure(os: seq<ItemOutcome>, remaining: nat) {
    && |os| <= remaining
    && (forall k :: 0 <= k < |os| - 1 ==> !os[k].FileFailed?)
    && (|os| == remaining || (|os| > 0 && os[|os| - 1].FileFailed?))
  }

  lemma StopsAtFailureCons(o: ItemOutcome, rest: seq<ItemOutcome>, remaining: nat)
    requires remaining > 0 && !o.FileFailed? && StopsAtFailure(rest, remaining - 1)
    ensures StopsAtFailure([o] + rest, remaining)
  {
    var os := [o] + rest;
    forall k | 0 < k < |os| - 1 ensures !os[k].FileFailed? {
      assert os[k] == rest[k - 1];
    }
    if |os| < remaining {
      assert os[|os| - 1] == rest[|rest| - 1];
    }
  }

  function BatchProgressMessage(done: nat, total: nat): string {
    "Batch progress: " + NatToString(done) + "/" + NatToString(total) + " (order preserved)"
  }

  /** The progress entry logged before each item. */
  function Progress(st: State, done: nat, total: nat): (r: State)
    ensures r.client == st.client && r.fs == st.fs && r.calls == st.calls
    ensures |r.log| <= MaxLogMessages
  {
    Log(st, "INFO", BatchProgressMessage(done, total))
  }

  datatype BatchRun = BatchRun(st: State, outcomes: seq<ItemOutcome>)

  /** The jobs of the queued items, one per item, as the single-file upload
      derives them. */
  function BatchJobs(list: seq<UploadArgs>, hasMoviepy: bool): (jobs: seq<Job>)
    ensures |jobs| == |list|
    ensures forall i :: 0 <= i < |list| ==> jobs[i] == JobFor(list[i], hasMoviepy)
  {
    seq(|list|, i requires 0 <= i < |list| => JobFor(list[i], hasMoviepy))
  }

  /** Jobs that fit the queued items: one per item, for the item's path. */
  predicate JobsFit(jobs: seq<Job>, list: seq<UploadArgs>) {
    |jobs| == |list| && forall i :: 0 <= i < |list| ==> ValidJob(jobs[i]) && jobs[i].path == list[i].path
  }

  datatype ItemRun = ItemRun(st: State, outcome: ItemOutcome)

  /** A queued file: its job runs, and the item records the calls made. */
  function FileItem(env: Env, st: State, job: Job): (r: ItemRun)
    requires ValidJob(job)
    ensures r.st == UploadJob(env, st, job).st
    ensures r.outcome.FileFailed? <==> UploadJob(env, st, job).outcome.Raised?
    ensures r.outcome.FileFailed? ==> r.outcome.error == UploadJob(env, st, job).outcome.error
    ensures ItemAnswered(env, r.st.calls, r.outcome, job)
    ensures r.outcome.FileSent? || r.outcome.FileFailed?
    ensures r.st.calls == st.calls + r.outcome.calls
    ensures |r.outcome.calls| > 0
    ensures forall k :: 0 <= k < |r.outcome.calls| ==> Concerns(r.outcome.calls[k], job.path)
  {
    var a := UploadJob(env, st, job);
    UploadJobOutcome(env, st, job);
    var calls := a.st.calls[|st.calls|..];
    PrefixSplit(a.st.calls, st.calls);
    ConcernsAfter(a.st.calls, |st.calls|, job.path);
    ItemRun(a.st, if a.outcome.Raised? then FileFailed(calls, a.outcome.error) else FileSent(calls))
  }

  /** A queued folder: its files are uploaded as the upload command does. */
  function FolderItem(env: Env, st: State, args: UploadArgs): (r: ItemRun)
    requires IsFolder(st.fs, args.path)
    ensures r.st.client == st.client
    ensures r.outcome.FolderSent?
    ensures r.st == UploadFolder(env, st, args).st && r.outcome.attempts == UploadFolder(env, st, args).attempts
    ensures r.st.calls == st.calls + ItemCalls(r.outcome)
    ensures |st.log| <= MaxLogMessages ==> |r.st.log| <= MaxLogMessages
  {
    var f := UploadFolder(env, st, args);
    ItemRun(f.st, FolderSent(f.attempts))
  }

  /** One queued item: a file is uploaded by its job, a folder's files are
      uploaded, anything else is passed over. */
  function BatchItem(env: Env, st: State, args: UploadArgs, job: Job): (r: ItemRun)
    requires ValidJob(job) && job.path == args.path
    ensures r.st.client == st.client
    ensures r.st.calls == st.calls + ItemCalls(r.outcome)
    ensures Serves(r.outcome, args)
    ensures ItemAnswered(env, r.st.calls, r.outcome, job)
    ensures r.outcome.FileFailed? || r.outcome.FileSent? <==> IsFile(st.fs, args.path)
    ensures r.outcome.FolderSent? <==> IsFolder(st.fs, args.path)
    ensures |st.log| <= MaxLogMessages ==> |r.st.log| <= MaxLogMessages
  {
    if IsFile(st.fs, args.path) then FileItem(env, st, job)
    else if IsFolder(st.fs, args.path) then FolderItem(env, st, args)
    else ItemRun(st, Skipped)
  }

  /** Prepending a finished item that did not fail to the run of the
      items after it. */
  lemma BatchCons(calls: seq<Call>, mid: seq<Call>, o: ItemOutcome, rest: BatchRun,
                  list: seq<UploadArgs>, i: nat)
    requires i < |list| && mid == calls + ItemCalls(o) && Serves(o, list[i]) && !o.FileFailed?
    requires StopsAtFailure(rest.outcomes, |list| - (i + 1))
    requires forall k :: 0 <= k < |rest.outcomes| ==> Serves(rest.outcomes[k], list[i + 1 + k])
    requires rest.st.calls == mid + OutcomeCalls(rest.outcomes)
    ensures StopsAtFailure([o] + rest.outcomes, |list| - i)
    ensures forall k :: 0 <= k < |[o] + rest.outcomes| ==> Serves(([o] + rest.outcomes)[k], list[i + k])
    ensures rest.st.calls == calls + OutcomeCalls([o] + rest.outcomes)
  {
    OutcomeCallsCons(o, rest.outcomes);
    AppendAssoc(calls, ItemCalls(o), OutcomeCalls(rest.outcomes));
    ServesCons(o, rest.outcomes, list, i);
    StopsAtFailureCons(o, rest.outcomes, |list| - i);
  }

  /** A queued file is uploaded exactly as the upload command uploads it. */
  lemma BatchFileIsUpload(env: Env, st: State, args: UploadArgs)
    requires IsFile(st.fs, args.path)
    ensures BatchItem(env, st, args, JobFor(args, env.hasMoviepy)).st == UploadFile(env, st, args).st
    ensures BatchItem(env, st, args, JobFor(args, env.hasMoviepy)).outcome.FileFailed?
            <==> UploadFile(env, st, args).outcome.Raised?
    ensures BatchItem(env, st, args, JobFor(args, env.hasMoviepy)).outcome.FileFailed? ==>
              BatchItem(env, st, args, JobFor(args, env.hasMoviepy)).outcome.error == UploadFile(env, st, args).outcome.error
  {
  }

  /** A queued folder is uploaded exactly as the upload command uploads
      it, and the item records that folder upload's attempts. */
  lemma BatchFolderIsUpload(env: Env, st: State, args: UploadArgs, job: Job)
    requires ValidJob(job) && job.path == args.path && IsFolder(st.fs, args.path)
    ensures BatchItem(env, st, args, job).st == UploadPath(env, st, args).st
    ensures BatchItem(env, st, args, job).outcome == FolderSent(UploadFolder(env, st, args).attempts)
  {
  }

  /** Every outcome of `os`, the items from `i` on, is tagged by what the
      environment answered: the k-th one, looked at after the calls of the
      first k + 1 items made from `calls` on. */
  predicate Answered(env: Env, calls: seq<Call>, os: seq<ItemOutcome>, jobs: seq<Job>, i: nat) {
    && i + |os| <= |jobs|
    && forall k :: 0 <= k < |os| ==> ItemAnswered(env, calls + OutcomeCalls(os[..k + 1]), os[k], jobs[i + k])
  }

  /** The answers of a batch's items, one item further on: an item answered
      after its own calls, followed by items answered after theirs. */
  lemma AnsweredCons(env: Env, calls: seq<Call>, mid: seq<Call>, o: ItemOutcome, rest: seq<ItemOutcome>,
                     jobs: seq<Job>, i: nat)
    requires mid == calls + ItemCalls(o) && i < |jobs| && ItemAnswered(env, mid, o, jobs[i])
    requires Answered(env, mid, rest, jobs, i + 1)
    ensures Answered(env, calls, [o] + rest, jobs, i)
  {
    var os := [o] + rest;
    forall k | 0 <= k < |os|
      ensures ItemAnswered(env, calls + OutcomeCalls(os[..k + 1]), os[k], jobs[i + k])
    {
      assert os[..k + 1] == [o] + rest[..k];
      OutcomeCallsCons(o, rest[..k]);
      AppendAssoc(calls, ItemCalls(o), OutcomeCalls(rest[..k]));
      if k > 0 {
        assert os[k] == rest[k - 1] && rest[..k] == rest[..(k - 1) + 1];
      } else {
        assert rest[..0] == [];
      }
    }
  }

  /** `Answered`, item by item: the first outcome is answered after its own
      calls, and the rest from there on. */
  predicate AnsweredInTurn(env: Env, calls: seq<Call>, os: seq<ItemOutcome>, jobs: seq<Job>, i: nat)
    decreases |os|
  {
    && i + |os| <= |jobs|
    && (|os| > 0 ==>
          && ItemAnswered(env, calls + ItemCalls(os[0]), os[0], jobs[i])
          && AnsweredInTurn(env, calls + ItemCalls(os[0]), os[1..], jobs, i + 1))
  }

  lemma AnsweredInTurnCons(env: Env, calls: seq<Call>, mid: seq<Call>, o: ItemOutcome, rest: seq<ItemOutcome>,
                           jobs: seq<Job>, i: nat)
    requires mid == calls + ItemCalls(o) && i < |jobs| && ItemAnswered(env, mid, o, jobs[i])
    requires AnsweredInTurn(env, mid, rest, jobs, i + 1)
    ensures AnsweredInTurn(env, calls, [o] + rest, jobs, i)
  {
    assert ([o] + rest)[0] == o && ([o] + rest)[1..] == rest;
  }

  lemma {:induction false} AnsweredInOrder(env: Env, calls: seq<Call>, os: seq<ItemOutcome>, jobs: seq<Job>, i: nat)
    requires AnsweredInTurn(env, calls, os, jobs, i)
    ensures Answered(env, calls, os, jobs, i)
    decreases |os|
  {
    if |os| > 0 {
      AnsweredInOrder(env, calls + ItemCalls(os[0]), os[1..], jobs, i + 1);
      AnsweredCons(env, calls, calls + ItemCalls(os[0]), os[0], os[1..], jobs, i);
      assert [os[0]] + os[1..] == os;
    }
  }

  /** The loop of the batch command from item `i` on: report progress, run
      the item, and end the batch at the first file that fails. */
  function BatchFrom(env: Env, st: State, list: seq<UploadArgs>, jobs: seq<Job>, i: nat): (r: BatchRun)
    requires i <= |list| && JobsFit(jobs, list)
    ensures r.st.client == st.client
    ensures StopsAtFailure(r.outcomes, |list| - i)
    ensures forall k :: 0 <= k < |r.outcomes| ==> Serves(r.outcomes[k], list[i + k])
    ensures r.st.calls == st.calls + OutcomeCalls(r.outcomes)
    ensures |st.log| <= MaxLogMessages ==> |r.st.log| <= MaxLogMessages
    decreases |list| - i
  {
    if i == |list| then BatchRun(st, [])
    else
      var item := BatchItem(env, Progress(st, i + 1, |list|), list[i], jobs[i]);
      var o := item.outcome;
      if o.FileFailed? then
        OutcomeCallsCons(o, []);
        BatchRun(item.st, [o])
      else
        var rest := BatchFrom(env, item.st, list, jobs, i + 1);
        BatchCons(st.calls, item.st.calls, o, rest, list, i);
        BatchRun(rest.st, [o] + rest.outcomes)
  }

  /** Every item of a batch is tagged by what the environment answered:
      the k-th outcome, looked at after the calls of the first k + 1 items,
      is a failed file whose last call raised the recorded error, or a sent
      file whose send call returned. */
  lemma BatchFromAnswers(env: Env, st: State, list: seq<UploadArgs>, jobs: seq<Job>, i: nat)
    requires i <= |list| && JobsFit(jobs, list)
    ensures Answered(env, st.calls, BatchFrom(env, st, list, jobs, i).outcomes, jobs, i)
  {
    BatchFromInTurn(env, st, list, jobs, i);
    AnsweredInOrder(env, st.calls, BatchFrom(env, st, list, jobs, i).outcomes, jobs, i);
  }

  lemma {:induction false} BatchFromInTurn(env: Env, st: State, list: seq<UploadArgs>, jobs: seq<Job>, i: nat)
    requires i <= |list| && JobsFit(jobs, list)
    ensures AnsweredInTurn(env, st.calls, BatchFrom(env, st, list, jobs, i).outcomes, jobs, i)
    decreases |list| - i
  {
    if i < |list| {
      BatchFromStep(env, st, list, jobs, i);
      var item := BatchItem(env, Progress(st, i + 1, |list|), list[i], jobs[i]);
      var rest := BatchFrom(env, item.st, list, jobs, i + 1).outcomes;
      if !item.outcome.FileFailed? {
        BatchFromInTurn(env, item.st, list, jobs, i + 1);
      }
      InTurnStep(env, st.calls, item.st.calls, item.outcome, rest, BatchFrom(env, st, list, jobs, i).outcomes, jobs, i);
    }
  }

  /** One turn of the batch loop: the item run at `i` is answered, and the
      batch goes on past it exactly when it is not a failed file. */
  lemma BatchFromStep(env: Env, st: State, list: seq<UploadArgs>, jobs: seq<Job>, i: nat)
    requires i < |list| && JobsFit(jobs, list)
    ensures var item := BatchItem(env, Progress(st, i + 1, |list|), list[i], jobs[i]);
            && item.st.calls == st.calls + ItemCalls(item.outcome)
            && ItemAnswered(env, item.st.calls, item.outcome, jobs[i])
            && BatchFrom(env, st, list, jobs, i).outcomes ==
                 if item.outcome.FileFailed? then [item.outcome]
                 else [item.outcome] + BatchFrom(env, item.st, list, jobs, i + 1).outcomes
  {
  }

  lemma InTurnStep(env: Env, calls: seq<Call>, mid: seq<Call>, o: ItemOutcome, rest: seq<ItemOutcome>,
                   os: seq<ItemOutcome>, jobs: seq<Job>, i: nat)
    requires mid == calls + ItemCalls(o) && i < |jobs| && ItemAnswered(env, mid, o, jobs[i])
    requires os == if o.FileFailed? then [o] else [o] + rest
    requires !o.FileFailed? ==> AnsweredInTurn(env, mid, rest, jobs, i + 1)
    ensures AnsweredInTurn(env, calls, os, jobs, i)
  {
    if o.FileFailed? {
      AnsweredInTurnCons(env, calls, mid, o, [], jobs, i);
      assert [o] + [] == [o];
    } else {
      AnsweredInTurnCons(env, calls, mid, o, rest, jobs, i);
    }
  }



  // ---------------------------------------------------------------------
  // Downloads
  // ---------------------------------------------------------------------

  /** One thing to download: the message it names, or the error that
      reading it raises. */
  type Item = Result<LinkTarget, LinkError>

  predicate AllOk(items: seq<Item>) {
    forall k :: 0 <= k < |items| ==> items[k].Ok?
  }

  /** The calls of downloads that all go through: fetch each message, then
      download its media into the directory. */
  function FetchCalls(items: seq<Item>, dir: string): seq<Call>
    requires AllOk(items)
  {
    if |items| == 0 then []
    else
      var t := items[0].value;
      [GetMessages(t.chat, t.messageId), DownloadMedia(t.chat, t.messageId, dir)] + FetchCalls(items[1..], dir)
  }

  function DownloadedMessage(name: string): string {
    "Downloaded: " + name
  }

  /** Fetch one message and download its media; with `announce` (the link
      mode) the downloaded name is logged. */
  function FetchOne(env: Env, st: State, t: LinkTarget, dir: string, announce: bool): (a: After)
    ensures a.st.client == st.client && a.st.fs == st.fs
    ensures a.outcome.Done? <==> RepliesReturn(env, |st.calls|, |st.calls| + 2)
    ensures a.outcome.Done? ==>
              a.st.calls == st.calls + [GetMessages(t.chat, t.messageId), DownloadMedia(t.chat, t.messageId, dir)]
    ensures a.outcome.Raised? ==> LastRaised(env, a.st.calls, a.outcome.error)
    ensures |st.log| <= MaxLogMessages ==> |a.st.log| <= MaxLogMessages
  {
    var g := Invoke(env, st, GetMessages(t.chat, t.messageId));
    if g.outcome.Raised? then g
    else
      var d := Invoke(env, g.st, DownloadMedia(t.chat, t.messageId, dir));
      if d.outcome.Raised? || !announce then d
      else After(Log(d.st, "INFO", DownloadedMessage(DownloadName(env.message(t.chat, t.messageId)))), Done)
  }

  /** The download loop: each item in order; the first error (reading the
      item, or a raised call) ends the command. */
  function DownloadEach(env: Env, st: State, items: seq<Item>, dir: string, announce: bool): (a: After)
    ensures a.st.client == st.client && a.st.fs == st.fs
    ensures a.outcome.Done? ==> AllOk(items) && a.st.calls == st.calls + FetchCalls(items, dir)
    ensures a.outcome.Done? <==> AllOk(items) && RepliesReturn(env, |st.calls|, |st.calls| + 2 * |items|)
    ensures a.outcome.Raised? ==>
              (exists k :: 0 <= k < |items| && items[k].Err? && a.outcome.error == ErrorMessage(items[k].error))
              || LastRaised(env, a.st.calls, a.outcome.error)
    ensures |items| > 0 && items[0].Err? ==> a == After(st, Raised(ErrorMessage(items[0].error)))
    ensures |st.log| <= MaxLogMessages ==> |a.st.log| <= MaxLogMessages
    decreases |items|
  {
    if |items| == 0 then After(st, Done)
    else
      match items[0]
      case Err(e) => After(st, Raised(ErrorMessage(e)))
      case Ok(t) =>
        var f := FetchOne(env, st, t, dir, announce);
        if f.outcome.Raised? then
          assert !RepliesReturn(env, |st.calls|, |st.calls| + 2 * |items|);
          f
        else
          var rest := DownloadEach(env, f.st, items[1..], dir, announce);
          DownloadEachStep(env, st, items, rest.outcome, |f.st.calls|);
          assert rest.outcome.Raised? ==>
                   (exists k :: 0 <= k < |items| && items[k].Err? && rest.outcome.error == ErrorMessage(items[k].error))
                   || LastRaised(env, rest.st.calls, rest.outcome.error) by {
            if rest.outcome.Raised? && !LastRaised(env, rest.st.calls, rest.outcome.error) {
              DownloadEachRestError(items, rest.outcome.error);
            }
          }
          assert rest.outcome.Done? ==> AllOk(items) by {
            if rest.outcome.Done? {
              forall k | 0 < k < |items| ensures items[k].Ok? {
                assert items[k] == items[1..][k - 1];
              }
            }
          }
          if rest.outcome.Done? then
            AppendAssoc(st.calls, [GetMessages(t.chat, t.messageId), DownloadMedia(t.chat, t.messageId, dir)],
                        FetchCalls(items[1..], dir));
            rest
          else rest
  }

  /** How the download loop's first item, when it went through, relates
      its outcome to the outcome of the rest. */
  lemma DownloadEachStep(env: Env, st: State, items: seq<Item>, rest: Outcome, n: nat)
    requires |items| > 0 && items[0].Ok? && n == |st.calls| + 2
    requires RepliesReturn(env, |st.calls|, n)
    requires rest.Done? <==> AllOk(items[1..]) && RepliesReturn(env, n, n + 2 * |items[1..]|)
    ensures rest.Done? <==> AllOk(items) && RepliesReturn(env, |st.calls|, |st.calls| + 2 * |items|)
  {
    if AllOk(items[1..]) {
      forall k | 0 <= k < |items| ensures items[k].Ok? {
        if k > 0 { assert items[k] == items[1..][k - 1]; }
      }
    }
    if AllOk(items) {
      forall k | 0 <= k < |items[1..]| ensures items[1..][k].Ok? {
        assert items[1..][k] == items[k + 1];
      }
    }
  }

  /** An unreadable item among the rest is an unreadable item of the list. */
  lemma DownloadEachRestError(items: seq<Item>, error: string)
    requires |items| > 0
    requires exists k :: 0 <= k < |items[1..]| && items[1..][k].Err? && error == ErrorMessage(items[1..][k].error)
    ensures exists k :: 0 <= k < |items| && items[k].Err? && error == ErrorMessage(items[k].error)
  {
    var k :| 0 <= k < |items[1..]| && items[1..][k].Err? && error == ErrorMessage(items[1..][k].error);
    assert items[k + 1] == items[1..][k];
  }

  /** The loop stops at the first error: the items after a failing prefix
      are never looked at, and after a prefix that went through the rest
      carries on from where it left off. */
  lemma {:induction false} DownloadStopsAtFirstError(env: Env, st: State, xs: seq<Item>, ys: seq<Item>,
                                                      dir: string, announce: bool)
    ensures var a := DownloadEach(env, st, xs, dir, announce);
            DownloadEach(env, st, xs + ys, dir, announce) ==
              if a.outcome.Raised? then a else DownloadEach(env, a.st, ys, dir, announce)
    decreases |xs|
  {
    if |xs| == 0 {
      assert xs + ys == ys;
    } else {
      assert (xs + ys)[0] == xs[0];
      assert (xs + ys)[1..] == xs[1..] + ys;
      if xs[0].Ok? {
        var f := FetchOne(env, st, xs[0].value, dir, announce);
        if f.outcome.Done? {
          DownloadStopsAtFirstError(env, f.st, xs[1..], ys, dir, announce);
        }
      }
    }
  }

  /** A message ID typed in the download form: `int(msg_id)` on the text,
      in the chat typed next to it. */
  function ResolveId(chatId: string, text: string): (r: Item)
    ensures r.Ok? <==> ParseInt(text).Some?
    ensures r.Ok? ==> r.value == LinkTarget(ChatName(chatId), ParseInt(text).value)
    ensures r.Err? ==> r.error == NotAnInteger(text)
  {
    match ParseInt(text)
    case Some(id) => Ok(LinkTarget(ChatName(chatId), id))
    case None => Err(NotAnInteger(text))
  }

  function LinkItems(links: seq<string>): (items: seq<Item>)
    ensures |items| == |links|
    ensures forall k :: 0 <= k < |links| ==> items[k] == ParseLink(links[k])
  {
    seq(|links|, k requires 0 <= k < |links| => ParseLink(links[k]))
  }

  function IdItems(chatId: string, ids: seq<string>): (items: seq<Item>)
    ensures |items| == |ids|
    ensures forall k :: 0 <= k < |ids| ==> items[k] == ResolveId(chatId, ids[k])
  {
    seq(|ids|, k requires 0 <= k < |ids| => ResolveId(chatId, ids[k]))
  }

  const LinkMode := "From Link(s)"
  const IdMode := "From Message ID(s)"

  /** The links as download items: all of them read exactly when every
      link parses, and an item's error is the error of a link. */
  lemma LinkItemsRead(links: seq<string>, error: string)
    ensures AllOk(LinkItems(links)) <==> forall k :: 0 <= k < |links| ==> ParseLink(links[k]).Ok?
    ensures (exists k :: 0 <= k < |links| && LinkItems(links)[k].Err? && error == ErrorMessage(LinkItems(links)[k].error))
            ==> exists k :: 0 <= k < |links| && ParseLink(links[k]).Err? && error == ErrorMessage(ParseLink(links[k]).error)
  {
    var items := LinkItems(links);
    if AllOk(items) {
      forall k | 0 <= k < |links| ensures ParseLink(links[k]).Ok? {
        assert items[k].Ok?;
      }
    }
  }

  /** The typed IDs as download items: all of them read exactly when every
      ID is an integer, and an item's error is the error of an ID. */
  lemma IdItemsRead(chatId: string, ids: seq<string>, error: string)
    ensures AllOk(IdItems(chatId, ids)) <==> forall k :: 0 <= k < |ids| ==> ParseInt(ids[k]).Some?
    ensures (exists k :: 0 <= k < |ids| && IdItems(chatId, ids)[k].Err?
                         && error == ErrorMessage(IdItems(chatId, ids)[k].error))
            ==> exists k :: 0 <= k < |ids| && ParseInt(ids[k]).None? && error == ErrorMessage(NotAnInteger(ids[k]))
  {
    var items := IdItems(chatId, ids);
    if AllOk(items) {
      forall k | 0 <= k < |ids| ensures ParseInt(ids[k]).Some? {
        assert items[k].Ok?;
      }
    }
  }

  /** The link mode: each link is read and its message downloaded, with
      the name logged. It goes through exactly when every link reads and
      every call returns; a failure is an unreadable link or a raised call. */
  function LinkDownload(env: Env, st: State, dir: string, links: seq<string>): (a: After)
    ensures a.st.client == st.client && a.st.fs == st.fs
    ensures a.outcome.Done? <==> (forall k :: 0 <= k < |links| ==> ParseLink(links[k]).Ok?)
                                 && RepliesReturn(env, |st.calls|, |st.calls| + 2 * |links|)
    ensures a.outcome.Done? ==>
              a.st.calls == st.calls + FetchCalls(LinkItems(links), dir)
    ensures a.outcome.Raised? ==>
              (exists k :: 0 <= k < |links| && ParseLink(links[k]).Err?
                           && a.outcome.error == ErrorMessage(ParseLink(links[k]).error))
              || LastRaised(env, a.st.calls, a.outcome.error)
    ensures |st.log| <= MaxLogMessages ==> |a.st.log| <= MaxLogMessages
  {
    var a := DownloadEach(env, st, LinkItems(links), dir, true);
    LinkItemsRead(links, if a.outcome.Raised? then a.outcome.error else "");
    a
  }

  /** The message-ID mode: each ID is read with `int()` and that message of
      the typed chat downloaded. It goes through exactly when every ID reads
      and every call returns; a failure is an unreadable ID or a raised call. */
  function IdDownload(env: Env, st: State, dir: string, chatId: string, ids: seq<string>): (a: After)
    ensures a.st.client == st.client && a.st.fs == st.fs
    ensures a.outcome.Done? <==> (forall k :: 0 <= k < |ids| ==> ParseInt(ids[k]).Some?)
                                 && RepliesReturn(env, |st.calls|, |st.calls| + 2 * |ids|)
    ensures a.outcome.Done? ==>
              a.st.calls == st.calls + FetchCalls(IdItems(chatId, ids), dir)
    ensures a.outcome.Raised? ==>
              (exists k :: 0 <= k < |ids| && ParseInt(ids[k]).None?
                           && a.outcome.error == ErrorMessage(NotAnInteger(ids[k])))
              || LastRaised(env, a.st.calls, a.outcome.error)
    ensures |st.log| <= MaxLogMessages ==> |a.st.log| <= MaxLogMessages
  {
    var a := DownloadEach(env, st, IdItems(chatId, ids), dir, false);
    IdItemsRead(chatId, ids, if a.outcome.Raised? then a.outcome.error else "");
    a
  }

  /** The download command's dispatch on its mode; any other mode (the
      chat-history one) does nothing and succeeds. */
  function Download(env: Env, st: State, mode: string, dir: string, links: seq<string>,
                    chatId: string, ids: seq<string>): (a: After)
    ensures mode == LinkMode ==> a == LinkDownload(env, st, dir, links)
    ensures mode == IdMode ==> a == IdDownload(env, st, dir, chatId, ids)
    ensures mode != LinkMode && mode != IdMode ==> a == After(st, Done)
    ensures a.st.client == st.client && a.st.fs == st.fs
    ensures |st.log| <= MaxLogMessages ==> |a.st.log| <= MaxLogMessages
  {
    if mode == LinkMode then LinkDownload(env, st, dir, links)
    else if mode == IdMode then IdDownload(env, st, dir, chatId, ids)
    else After(st, Done)
  }

  // ---------------------------------------------------------------------
  // Commands
  // ---------------------------------------------------------------------

  /** A command from the interface's queue. */
  datatype Command =
    | Connect(profile: StoredProfile, profileName: string)
    | Disconnect
    | Upload(args: UploadArgs)
    | DownloadCmd(mode: string, dir: string, links: seq<string>, chatId: string, msgIds: seq<string>)
    | BatchUpload(argsList: seq<UploadArgs>)
    | Stop
    | Unknown(kind: string)

  /** The dictionary put on the result queue (`None` for an unknown command). */
  datatype CommandResult = Succeeded | Connected(me: string) | Failed(error: string) | NoResult

  datatype Stepped = Stepped(st: State, result: CommandResult)

  const NotConnected := "Not connected"

  /** Create the client, start it and ask who is signed in. */
  function StartNew(env: Env, st: State, args: ClientArgs): (r: Stepped)
    ensures r.st == st.(client := Some(args), calls := r.st.calls)
    ensures r.st.calls == st.calls + [StartClient(args)] || r.st.calls == st.calls + [StartClient(args), GetMe]
    ensures r.st.calls == st.calls + [StartClient(args)] <==> env.reply(|st.calls|).Raises?
    ensures r.result.Connected? || r.result.Failed?
    ensures r.result.Connected? <==> LastReturned(env, r.st.calls, GetMe)
    ensures r.result.Connected? ==> r.result.me == env.me(|r.st.calls| - 1)
    ensures r.result.Failed? ==> LastRaised(env, r.st.calls, r.result.error)
  {
    var s := Invoke(env, st.(client := Some(args)), StartClient(args));
    if s.outcome.Raised? then Stepped(s.st, Failed(s.outcome.error))
    else
      var g := Invoke(env, s.st, GetMe);
      if g.outcome.Raised? then Stepped(g.st, Failed(g.outcome.error))
      else Stepped(g.st, Connected(env.me(|s.st.calls|)))
  }

  /** Connect with the client arguments already built: stop the current
      client (ignoring any error) and forget it, create the new client,
      start it and ask who is signed in. The new client is kept even when
      starting it fails. */
  function ConnectWith(env: Env, st: State, args: ClientArgs): (r: Stepped)
    ensures r.st.fs == st.fs && r.st.log == st.log
    ensures r.st.client == Some(args)
    ensures r.result.Connected? || r.result.Failed?
    ensures |r.st.calls| > |st.calls| && r.st.calls[..|st.calls|] == st.calls
    ensures r.st.calls[|st.calls|] == StopClient <==> st.client.Some?
    ensures StartClient(args) in r.st.calls[|st.calls|..]
    ensures r.result.Connected? <==> LastReturned(env, r.st.calls, GetMe)
    ensures r.result.Connected? ==> r.result.me == env.me(|r.st.calls| - 1)
    ensures r.result.Failed? ==> LastRaised(env, r.st.calls, r.result.error)
  {
    if st.client.Some? then
      var r := StartNew(env, st.(calls := st.calls + [StopClient]), args);
      assert r.st.calls[|st.calls|] == StopClient;
      assert r.st.calls[|st.calls| + 1] == StartClient(args);
      r
    else
      var r := StartNew(env, st, args);
      assert r.st.calls[|st.calls|] == StartClient(args);
      r
  }

  /** The connect command: the client is created from the stored profile
      under the profile's name, in the application directory. */
  function ConnectStep(env: Env, st: State, profile: StoredProfile, name: string): (r: Stepped)
    ensures r.st.fs == st.fs && r.st.log == st.log
    ensures r.st.client == Some(ConnectArgs(profile, name, env.workdir))
    ensures |r.st.calls| > |st.calls|
    ensures r.result.Connected? || r.result.Failed?
    ensures r.st.calls[|st.calls|] == StopClient <==> st.client.Some?
    ensures StartClient(ConnectArgs(profile, name, env.workdir)) in r.st.calls[|st.calls|..]
    ensures r.result.Connected? <==> LastReturned(env, r.st.calls, GetMe)
    ensures r.result.Connected? ==> r.result.me == env.me(|r.st.calls| - 1)
    ensures r.result.Failed? ==> LastRaised(env, r.st.calls, r.result.error)
  {
    ConnectWith(env, st, ConnectArgs(profile, name, env.workdir))
  }

  /** Disconnect and stop: stop the client if there is one and forget it;
      if stopping raises, the client is kept and the error returned. */
  function StopStep(env: Env, st: State): (r: Stepped)
    ensures r.st.fs == st.fs && r.st.log == st.log
    ensures st.client.None? ==> r == Stepped(st, Succeeded)
    ensures st.client.Some? ==> r.st.calls == st.calls + [StopClient]
    ensures r.result.Succeeded? || r.result.Failed?
    ensures r.result.Succeeded? <==> r.st.client.None?
    ensures r.result.Failed? ==> r.st.client == st.client && LastRaised(env, r.st.calls, r.result.error)
  {
    if st.client.None? then Stepped(st, Succeeded)
    else
      var a := Invoke(env, st, StopClient);
      if a.outcome.Raised? then Stepped(a.st, Failed(a.outcome.error))
      else Stepped(a.st.(client := None), Succeeded)
  }

  /** A transfer's result: success, or the error it raised. */
  function ResultOf(outcome: Outcome): CommandResult {
    match outcome
    case Done => Succeeded
    case Raised(e) => Failed(e)
  }

  /** The batch command's result: a failure exactly when an item's file
      upload failed, with that item's error. */
  function BatchResult(os: seq<ItemOutcome>): (r: CommandResult)
    ensures r.Succeeded? || r.Failed?
    ensures r.Failed? <==> |os| > 0 && os[|os| - 1].FileFailed?
    ensures r.Failed? ==> r.error == os[|os| - 1].error
  {
    if |os| > 0 && os[|os| - 1].FileFailed? then Failed(os[|os| - 1].error) else Succeeded
  }

  predicate IsTransfer(cmd: Command) {
    cmd.Upload? || cmd.DownloadCmd? || cmd.BatchUpload?
  }

  /** Upload, download and batch upload, which all need a client. */
  function TransferStep(env: Env, st: State, cmd: Command): (r: Stepped)
    requires IsTransfer(cmd)
    ensures r.st.client == st.client
    ensures st.client.None? ==> r == Stepped(st, Failed(NotConnected))
    ensures r.result.Succeeded? || r.result.Failed?
    ensures |st.log| <= MaxLogMessages ==> |r.st.log| <= MaxLogMessages
  {
    if st.client.None? then Stepped(st, Failed(NotConnected))
    else
      match cmd
      case Upload(args) =>
        var a := UploadPath(env, st, args);
        Stepped(a.st, ResultOf(a.outcome))
      case DownloadCmd(mode, dir, links, chatId, ids) =>
        var a := Download(env, st, mode, dir, links, chatId, ids);
        Stepped(a.st, ResultOf(a.outcome))
      case BatchUpload(list) =>
        var b := BatchFrom(env, st, list, BatchJobs(list, env.hasMoviepy), 0);
        Stepped(b.st, BatchResult(b.outcomes))
  }

  /** `run_command`: one command's effect on the worker and its result. */
  function Step(env: Env, st: State, cmd: Command): (r: Stepped)
    ensures cmd.Unknown? <==> r.result.NoResult?
    ensures cmd.Unknown? ==> r.st == st
    ensures IsTransfer(cmd) ==> r.st.client == st.client
    ensures IsTransfer(cmd) && st.client.None? ==> r == Stepped(st, Failed(NotConnected))
    ensures r.result.Connected? ==> cmd.Connect?
    ensures cmd.Connect? ==> r == ConnectStep(env, st, cmd.profile, cmd.profileName)
    ensures cmd.Disconnect? || cmd.Stop? ==> r == StopStep(env, st)
    ensures |st.log| <= MaxLogMessages ==> |r.st.log| <= MaxLogMessages
  {
    if IsTransfer(cmd) then TransferStep(env, st, cmd)
    else
      match cmd
      case Connect(profile, name) => ConnectStep(env, st, profile, name)
      case Unknown(_) => Stepped(st, NoResult)
      case _ => StopStep(env, st)
  }

  /** With a client, uploading a file is the single-file upload: the
      command fails exactly when that upload raised, with its error. */
  lemma UploadCommandResult(env: Env, st: State, args: UploadArgs)
    requires st.client.Some? && IsFile(st.fs, args.path)
    ensures var a := UploadFile(env, st, args);
            var r := Step(env, st, Upload(args));
            && r.st == a.st
            && (r.result.Succeeded? <==> a.outcome.Done?)
            && (a.outcome.Raised? ==> r.result == Failed(a.outcome.error))
  {
    var a := UploadFile(env, st, args);
    assert UploadPath(env, st, args) == a;
    assert TransferStep(env, st, Upload(args)) == Stepped(a.st, ResultOf(a.outcome));
  }

  /** The connect command, as the worker loop runs it: the client built from
      the stored profile is kept whether or not starting it worked; the
      command answers with the signed-in account exactly when `get_me`
      returned, and otherwise with the error the failing call raised. */
  lemma ConnectCommandResult(env: Env, st: State, profile: StoredProfile, name: string)
    ensures var r := Step(env, st, Connect(profile, name));
            && r.st.client == Some(ConnectArgs(profile, name, env.workdir))
            && r.st.fs == st.fs && r.st.log == st.log
            && (r.result.Connected? || r.result.Failed?)
            && (r.result.Connected? <==> LastReturned(env, r.st.calls, GetMe))
            && (r.result.Failed? ==> LastRaised(env, r.st.calls, r.result.error))
  {
  }

  /** The disconnect and stop commands, as the worker loop runs them: with
      no client nothing happens; otherwise one stop call is made, the client
      is dropped exactly when it returned, and a failure keeps the client
      and answers with the error the stop call raised. */
  lemma StopCommandResult(env: Env, st: State, cmd: Command)
    requires cmd.Disconnect? || cmd.Stop?
    ensures var r := Step(env, st, cmd);
            && (st.client.None? ==> r == Stepped(st, Succeeded))
            && (st.client.Some? ==> r.st.calls == st.calls + [StopClient])
            && (r.result.Succeeded? <==> r.st.client.None?)
            && (r.result.Failed? ==> r.st.client == st.client && LastRaised(env, r.st.calls, r.result.error))
  {
  }

  /** With a client, uploading a folder runs the folder upload, and the
      command succeeds whatever became of the folder's files. */
  lemma FolderCommandResult(env: Env, st: State, args: UploadArgs)
    requires st.client.Some? && IsFolder(st.fs, args.path)
    ensures Step(env, st, Upload(args)) == Stepped(UploadFolder(env, st, args).st, Succeeded)
  {
    var a := UploadPath(env, st, args);
    assert TransferStep(env, st, Upload(args)) == Stepped(a.st, ResultOf(a.outcome));
  }

  /** With a client, the download command answers with the download's
      outcome: a success exactly when it went through, otherwise the error
      it raised. */
  lemma DownloadCommandResult(env: Env, st: State, mode: string, dir: string, links: seq<string>,
                              chatId: string, ids: seq<string>)
    requires st.client.Some?
    ensures var a := Download(env, st, mode, dir, links, chatId, ids);
            var r := Step(env, st, DownloadCmd(mode, dir, links, chatId, ids));
            && r.st == a.st
            && (r.result.Succeeded? <==> a.outcome.Done?)
            && (a.outcome.Raised? ==> r.result == Failed(a.outcome.error))
    ensures var r := Step(env, st, DownloadCmd(mode, dir, links, chatId, ids));
            mode != LinkMode && mode != IdMode ==> r == Stepped(st, Succeeded)
  {
    var a := Download(env, st, mode, dir, links, chatId, ids);
    assert TransferStep(env, st, DownloadCmd(mode, dir, links, chatId, ids)) == Stepped(a.st, ResultOf(a.outcome));
  }

  /** The download command in link mode, with a client: it succeeds exactly
      when every link parses and every call it makes returns, and otherwise
      fails with the error of a link that does not parse or of the call that
      raised. */
  lemma LinkCommandResult(env: Env, st: State, dir: string, links: seq<string>, chatId: string, ids: seq<string>)
    requires st.client.Some?
    ensures var r := Step(env, st, DownloadCmd(LinkMode, dir, links, chatId, ids));
            && (r.result.Succeeded? || r.result.Failed?)
            && (r.result.Succeeded? <==> (forall k :: 0 <= k < |links| ==> ParseLink(links[k]).Ok?)
                                         && RepliesReturn(env, |st.calls|, |st.calls| + 2 * |links|))
            && (r.result.Failed? ==>
                  (exists k :: 0 <= k < |links| && ParseLink(links[k]).Err?
                               && r.result.error == ErrorMessage(ParseLink(links[k]).error))
                  || LastRaised(env, r.st.calls, r.result.error))
  {
    DownloadCommandResult(env, st, LinkMode, dir, links, chatId, ids);
  }

  /** The download command in message-ID mode, with a client: it succeeds
      exactly when every ID reads as an integer and every call it makes
      returns, and otherwise fails with the `int()` error of an ID or the
      error of the call that raised. */
  lemma IdCommandResult(env: Env, st: State, dir: string, links: seq<string>, chatId: string, ids: seq<string>)
    requires st.client.Some?
    ensures var r := Step(env, st, DownloadCmd(IdMode, dir, links, chatId, ids));
            && (r.result.Succeeded? || r.result.Failed?)
            && (r.result.Succeeded? <==> (forall k :: 0 <= k < |ids| ==> ParseInt(ids[k]).Some?)
                                         && RepliesReturn(env, |st.calls|, |st.calls| + 2 * |ids|))
            && (r.result.Failed? ==>
                  (exists k :: 0 <= k < |ids| && ParseInt(ids[k]).None?
                               && r.result.error == ErrorMessage(NotAnInteger(ids[k])))
                  || LastRaised(env, r.st.calls, r.result.error))
  {
    DownloadCommandResult(env, st, IdMode, dir, links, chatId, ids);
  }

  /** A batch run that stops at its first failure fails exactly when some
      item failed, and succeeds only after every item. */
  lemma StoppedBatchResult(os: seq<ItemOutcome>, n: nat)
    requires StopsAtFailure(os, n)
    ensures BatchResult(os).Failed? <==> exists k :: 0 <= k < |os| && os[k].FileFailed?
    ensures BatchResult(os).Succeeded? ==> |os| == n
  {
  }

  /** With a client, a batch fails exactly when one of its files failed,
      and a batch that succeeds has handled every queued item. */
  lemma BatchCommandResult(env: Env, st: State, list: seq<UploadArgs>)
    requires st.client.Some?
    ensures var b := BatchFrom(env, st, list, BatchJobs(list, env.hasMoviepy), 0);
            var r := Step(env, st, BatchUpload(list));
            && r.st == b.st
            && (r.result.Failed? <==> exists k :: 0 <= k < |b.outcomes| && b.outcomes[k].FileFailed?)
            && (r.result.Succeeded? ==> |b.outcomes| == |list|)
            && (r.result.Failed? ==> LastRaised(env, r.st.calls, r.result.error))
  {
    var jobs := BatchJobs(list, env.hasMoviepy);
    var b := BatchFrom(env, st, list, jobs, 0);
    assert TransferStep(env, st, BatchUpload(list)) == Stepped(b.st, BatchResult(b.outcomes));
    StoppedBatchResult(b.outcomes, |list|);
    if BatchResult(b.outcomes).Failed? {
      BatchFromAnswers(env, st, list, jobs, 0);
      assert b.outcomes[..|b.outcomes|] == b.outcomes;
    }
  }

  // ---------------------------------------------------------------------
  // The worker loop
  // ---------------------------------------------------------------------

  datatype Session = Session(st: State, results: seq<CommandResult>)

  /** Commands handled one after another by `step`, collecting results. */
  function Fold(step: (State, Command) -> Stepped, st: State, cmds: seq<Command>): (s: Session)
    ensures |s.results| == |cmds|
    decreases |cmds|
  {
    if |cmds| == 0 then Session(st, [])
    else
      var x := step(st, cmds[0]);
      var rest := Fold(step, x.st, cmds[1..]);
      Session(rest.st, [x.result] + rest.results)
  }

  lemma {:induction false} FoldAppend(step: (State, Command) -> Stepped, st: State,
                                      xs: seq<Command>, ys: seq<Command>)
    ensures var a := Fold(step, st, xs);
            var b := Fold(step, a.st, ys);
            Fold(step, st, xs + ys) == Session(b.st, a.results + b.results)
    decreases |xs|
  {
    if |xs| == 0 {
      assert xs + ys == ys;
    } else {
      assert (xs + ys)[0] == xs[0];
      assert (xs + ys)[1..] == xs[1..] + ys;
      FoldAppend(step, step(st, xs[0]).st, xs[1..], ys);
    }
  }

  lemma {:induction false} FoldKeepsLogBound(step: (State, Command) -> Stepped, st: State, cmds: seq<Command>)
    requires forall x: State, c: Command :: |x.log| <= MaxLogMessages ==> |step(x, c).st.log| <= MaxLogMessages
    requires |st.log| <= MaxLogMessages
    ensures |Fold(step, st, cmds).st.log| <= MaxLogMessages
    decreases |cmds|
  {
    if |cmds| > 0 {
      FoldKeepsLogBound(step, step(st, cmds[0]).st, cmds[1..]);
    }
  }

  function StepOf(env: Env): (State, Command) -> Stepped {
    (x, c) => Step(env, x, c)
  }

  /** `_worker_loop`: the commands taken from the queue in order, each
      result put on the result queue. */
  function Run(env: Env, st: State, cmds: seq<Command>): (s: Session)
    ensures |s.results| == |cmds|
  {
    Fold(StepOf(env), st, cmds)
  }

  /** Running two queues one after the other is running them joined: the
      worker carries nothing between commands but its state. */
  lemma RunAppend(env: Env, st: State, xs: seq<Command>, ys: seq<Command>)
    ensures var a := Run(env, st, xs);
            var b := Run(env, a.st, ys);
            Run(env, st, xs + ys) == Session(b.st, a.results + b.results)
  {
    FoldAppend(StepOf(env), st, xs, ys);
  }

  /** The i-th result is the one `run_command` gives the i-th command in the
      state the earlier commands left: one result per command, in order. */
  lemma RunResultAt(env: Env, st: State, cmds: seq<Command>, i: nat)
    requires i < |cmds|
    ensures Run(env, st, cmds).results[i] == Step(env, Run(env, st, cmds[..i]).st, cmds[i]).result
  {
    RunAppend(env, st, cmds[..i], cmds[i..]);
    assert cmds[..i] + cmds[i..] == cmds;
    assert cmds[i..][0] == cmds[i];
  }

  /** The log buffer never holds more than 100 entries, however many
      commands run. */
  lemma RunKeepsLogBound(env: Env, st: State, cmds: seq<Command>)
    requires |st.log| <= MaxLogMessages
    ensures |Run(env, st, cmds).st.log| <= MaxLogMessages
  {
    FoldKeepsLogBound(StepOf(env), st, cmds);
  }
}

=== FILE: wrappers.dfy ===
/** Failure-carrying values shared by every module of the model:
    Option for Python's `None`-or-value and Result for an operation that
    either returns a value or raises/reports an error. */
module Wrappers {

  datatype Option<+T> = None | Some(value: T)

  datatype Result<+R, +E> = Ok(value: R) | Err(error: E)
}
